=== FILE: README.md ===
# Solum deployer and shell worker, modelled in Dafny

This project models the two handlers that move a Solum application from
source to a running stack.

The **shell worker** (`solum/worker/handlers/shell.py`) does four things:

- it runs the unit-test script and maps its exit code to an assembly status;
- it runs the build script and reads the `created_image_id=` line of its output;
- it builds language packs and reads their `image_external_ref=` line;
- it chains these stages in `launch_workflow`, which ends by asking the deployer to deploy.

The **Heat deployer** (`solum/deployer/handlers/heat.py`) does two things:

- It picks a Heat template for the configured image format, and for 'vm'
  images rewrites the template's run script. The image comes from a Docker
  registry or from Swift.
- It creates the stack, or updates the one the assembly already has. It then
  polls the stack until it converges, reads the endpoint, and probes the
  application's ports. It also deletes stacks and destroys whole applications.

Every handler is modelled as a pure function. The function takes the
configuration and a script of the answers the outside services give: Heat,
the conductor, the template catalog, `is_reachable`, and the build scripts.
It returns the trace of observable events, in order, and whether an
exception escaped the handler.

Events are:

- status updates;
- Heat calls;
- waits;
- reachability checks;
- record removals;
- script runs;
- deploy requests.

Each loop with an attempt budget is written twice:

- as the loop itself, which the handler's model runs;
- as an independent reference trace: attempt `k` waits `Backoff(k)` then fetches; probe call `c` checks the port whose index is the number of reachable answers so far.

Lemmas connect the two.

Files:

- `common.dfy`, `strings.dfy`: `Option` and Python's string operations (`split`, `join`, `replace`, `strip`, `str(int)`), with the lemmas the model needs about them.
- `states.dfy`: assembly and image states.
- `heat_events.dfy`: the deployer's event vocabulary, and growing waits.
- `heat_templates.dfy`: stack names and the 'vm' run scripts.
- `heat_poll.dfy`: the convergence poll of `_check_stack_status`.
- `heat_probe.dfy`: the port readiness probe.
- `heat_deploy.dfy`: `deploy` and `_check_stack_status`.
- `heat_destroy.dfy`: `destroy_assembly` and `destroy_app`.
- `shell_command.dfy`: `_get_build_command`.
- `shell_params.dfy`: `_sanitize_param` and the `_SYSTEM` parameter routing.
- `shell_output.dfy`: parsing the build scripts' output.
- `shell_stages.dfy`: `_do_unittest`, `_do_build`, `build_lp`, `launch_workflow`.
- `image_handoff.dfy`: the Swift image id, from the worker's output line to the deployer's run script.

## Model

| member | source | states |
|---|---|---|
| HeatTemplates.StackName | solum/deployer/handlers/heat.py:86-90 | The stack name keeps at most the first 100 characters of the assembly name, a prefix of that name, then '-' and the uuid. A name of at most 100 characters is kept whole. |
| HeatTemplates.DockerRegRunScript | solum/deployer/handlers/heat.py:320-330 | The registry run script pulls `<endpoint>/<uuid>`. It publishes every port as `-p P:P`, separated by single spaces. With no ports, two spaces remain between `run` and `-d`. |
| HeatTemplates.PortsStringJoin | solum/deployer/handlers/heat.py:323-325 | The accumulated `ports_str` of at least one port is a space followed by the `-p P:P` flags joined by single spaces, in port order. |
| HeatTemplates.PublishedPorts | solum/deployer/handlers/heat.py:323-329 | Stripping the accumulated ` -p P:P` string leaves the port flags joined by single spaces, and leaves nothing for no ports. |
| HeatTemplates.SplitImageLocation | solum/deployer/handlers/heat.py:348-350 | Splitting a Swift image id succeeds exactly when the id contains `APP_NAME=`. The two pieces are free of the marker. The id is location + marker + name, either exactly or followed by the next marker, so the name runs to the next marker or to the end. |
| HeatTemplates.SwiftRunScript | solum/deployer/handlers/heat.py:343-373 | A Swift run script exists exactly when the image id names the application. It is the script header, a `wget` of the location into a file named after the application, a `docker load` of that file, and a `docker run` of it with every port published as `-p P:P`. |
| HeatEvents.BackoffNeverShrinks | solum/deployer/handlers/heat.py:238-240 | With a growth factor of at least 1, each wait of the poll is at least as long as the one before. |
| HeatPoll.Poll | solum/deployer/handlers/heat.py:238-253 | The poll follows the reference schedule: one wait then one fetch per attempt, at most the budget. It stops early only on a 'COMPLETE' or 'FAILED' answer. It fails exactly when the last answer was 'FAILED'. Otherwise it hands on the last stack fetched, skipping fetches that raised. |
| HeatPoll.PollCallsAndWaits | solum/deployer/handlers/heat.py:238-242 | The poll makes as many `stacks.get` calls as attempts, never more than `max_attempts`. Attempt k waits `wait_interval * growth_factor^(k-1)` right before its fetch. |
| HeatPoll.FailedStopsPoll | solum/deployer/handlers/heat.py:249-252 | A 'FAILED' answer at attempt k, with no terminal answer before it, stops the poll after k+1 fetches, whatever budget is left. |
| HeatPoll.PendingUsesBudget | solum/deployer/handlers/heat.py:238-247 | Answers that are never terminal use up the whole budget. The last stack fetched is handed on. |
| HeatPoll.ThreePendingAnswers | solum/deployer/handlers/heat.py:238-245 | Worked example: three pending answers give three waits of growing length, each followed by one fetch. |
| HeatProbe.Probe | solum/deployer/handlers/heat.py:271-294 | The probe makes at most `du_attempts` calls, each a one-second wait then a check. Running out of attempts uses all of them. Success comes with an attempt to spare, after every port answered. |
| HeatProbe.ProbeFacts | solum/deployer/handlers/heat.py:271-294 | Probe call c waits one second, then checks the port whose index is the number of reachable answers before c. Ports are never passed beyond the last one. The probe succeeds exactly when every port answered with an attempt to spare. It aborts exactly when the last check raised an unexpected exception. |
| HeatProbe.SuccessNeedsSpareAttempt | solum/deployer/handlers/heat.py:272-275 | A successful probe needs strictly more attempts than ports. The iteration that notices success makes no call. |
| HeatProbe.AllReachableSucceeds | solum/deployer/handlers/heat.py:272-282 | When every port answers and there are more attempts than ports, the probe succeeds after exactly one call per port. |
| HeatProbe.DrainsLeftToRight | solum/deployer/handlers/heat.py:277-285 | Worked example: an unreachable or timed-out answer re-checks the same port, and the second port is checked only after the first answered. |
| HeatDeploy.ParseServerUrl | solum/deployer/handlers/heat.py:301-305 | The endpoint is the first output's value. There is none without an 'outputs' key or with a null value. An empty output list raises. |
| HeatDeploy.CheckStackStatus | solum/deployer/handlers/heat.py:231-299 | Every event of `_check_stack_status` is a wait, a fetch of the deployed stack, a reachability check or a status update. It makes at most `max_attempts` fetches. That every status is about the deployed assembly is stated by `HeatDeploy.CheckStatusTrail`. |
| HeatDeploy.CheckStatusTrail | solum/deployer/handlers/heat.py:247-299 | Every path that does not raise ends with exactly one final status (READY, ERROR, ERROR_STACK_CREATE_FAILED or ERROR_DU_CREATION). The only status allowed before it is WAITING_FOR_DOCKER_DU. A path that raises reports nothing. |
| HeatDeploy.FailedStackReported | solum/deployer/handlers/heat.py:249-252 | A 'FAILED' answer reports ERROR_STACK_CREATE_FAILED right after that fetch. No URL is read and no port is probed. |
| HeatDeploy.NothingFetchedReported | solum/deployer/handlers/heat.py:254-257 | When every fetch raised or returned an empty status, the whole budget is used and ERROR_STACK_CREATE_FAILED is the only status. |
| HeatDeploy.EmptyLastStackReported | solum/deployer/handlers/heat.py:254-257 | Whenever the poll settles with no stack fetched last, or with one whose status is empty, the handler reports ERROR_STACK_CREATE_FAILED after the poll and nothing else, whatever came before. |
| HeatDeploy.PendingThenEmptyReported | solum/deployer/handlers/heat.py:238-257 | Worked example: a pending answer, then a stack with an empty status, uses both attempts and reports ERROR_STACK_CREATE_FAILED. |
| HeatDeploy.AfterPollTrail | solum/deployer/handlers/heat.py:254-299 | After the poll, a run that raises reports nothing. Otherwise its statuses form the allowed trail and the last event is a final status. Every status is about the deployed assembly. |
| HeatDeploy.MissingUrlIsError | solum/deployer/handlers/heat.py:259-264 | A converged stack without a usable first output reports ERROR and probes nothing. |
| HeatDeploy.UrlThenProbe | solum/deployer/handlers/heat.py:266-299 | Once an endpoint is read, WAITING_FOR_DOCKER_DU carrying that endpoint comes before any check. The final status is READY with the endpoint exactly when every port answered in time. It is ERROR exactly when the last check raised unexpectedly, and ERROR_DU_CREATION otherwise. |
| HeatDeploy.ExhaustedPollStillReadsUrl | solum/deployer/handlers/heat.py:254-269 | A poll that runs out on a stack with a non-empty, non-terminal status still reads the URL and starts probing. It does not report a failed stack. |
| HeatDeploy.RefusedConfiguration | solum/deployer/handlers/heat.py:136-180 | An unsupported image format or an unknown image storage for 'vm' images reports ERROR and submits nothing. A template missing from the catalog does the same in the corrected model; the code as written raises instead (see Findings and `HeatDeploy.DeployAsWritten`). |
| HeatDeploy.SwiftIdWithoutName | solum/deployer/handlers/heat.py:174-176 | A Swift image id without `APP_NAME=` raises before anything is reported or submitted. |
| HeatDeploy.DeletingIsSilent | solum/deployer/handlers/heat.py:185-186 | An assembly in DELETING gets no status and no submission. |
| HeatDeploy.ReachesSubmission | solum/deployer/handlers/heat.py:130-187 | Past the configuration checks, and unless the assembly is being deleted, `deploy` goes on to the submission. |
| HeatDeploy.Deploy | solum/deployer/handlers/heat.py:130-229 | A deploy submits to Heat, as its first event, exactly when the configuration is acceptable and the assembly is not being deleted. It never submits twice. |
| HeatDeploy.Submit | solum/deployer/handlers/heat.py:188-229 | The submission step starts with the update of the assembly's own stack, or the create of a new one, and submits nothing else. |
| HeatDeploy.Prelude | solum/deployer/handlers/heat.py:188-227 | An accepted submission starts with the update or create of the assembly's stack. After it come only the component record of a new stack and one DEPLOYING status of the deployed assembly, so DEPLOYING is its only status. |
| HeatDeploy.SubmitTarget | solum/deployer/handlers/heat.py:188-211 | The submission is the first event: an update of the assembly's own stack when it has one, otherwise a create. Every later fetch is of that same stack. |
| HeatDeploy.SubmitStatuses | solum/deployer/handlers/heat.py:188-229 | DEPLOYING is reported exactly when the submission went through and, for a new stack, its component was recorded. A refused submission reports ERROR alone. |
| HeatDeploy.UpdateOrCreate | solum/deployer/handlers/heat.py:183-211 | In a whole deploy that passes its checks, exactly one submission is made, first: an update for an assembly with a stack, a create otherwise. |
| HeatDeploy.DeployingAfterSubmission | solum/deployer/handlers/heat.py:188-229 | In a whole deploy, DEPLOYING is the first status exactly when the submission and the component record went through. |
| HeatDeploy.DeployEndsFinal | solum/deployer/handlers/heat.py:130-299 | A deploy that does not raise and does anything ends with a final status of the deployed assembly. It reports no other assembly's status. |
| HeatDeploy.DeployAsWritten | solum/deployer/handlers/heat.py:162-166 | As written, a catalog miss raises before any status is reported. |
| HeatDeploy.CatalogMissLeavesStatus | solum/deployer/handlers/heat.py:162-166 | On a catalog miss the code as written crashes and reports nothing, while the intended deploy reports ERROR. |
| HeatDestroy.DestroyAssembly | solum/deployer/handlers/heat.py:92-116 | A destroy always produces an event, and no stack delete follows the first one. The assembly record is removed at most once, as the last event, and never in a run that raised. The plan record is never touched. |
| HeatDestroy.DestroyApp | solum/deployer/handlers/heat.py:118-128 | The run raises exactly when it does not end by removing the plan record. The plan record is removed only as the last event, and it is the record of the destroyed plan. |
| HeatDestroy.FirstDecisive | solum/deployer/handlers/heat.py:104-107 | The index found is the first status answer that is 'DELETE_COMPLETE' or an exception. |
| HeatDestroy.DestroyLoopOutcome | solum/deployer/handlers/heat.py:104-110 | The delete loop checks, then waits, on each attempt, up to the first decisive answer. 'DELETE_COMPLETE' removes the record right after its check. An exception ends the handler. Otherwise every attempt is used and ERROR_STACK_DELETE_FAILED is reported. |
| HeatDestroy.NoStackNoHeat | solum/deployer/handlers/heat.py:124-125 | Without a stack component the record is removed at once and Heat is not called. |
| HeatDestroy.RemovedOnlyWhenDeleted | solum/deployer/handlers/heat.py:92-125 | With a stack, the record is removed exactly when a check answers 'DELETE_COMPLETE' within the budget before any check raises. Without a decisive answer, ERROR_STACK_DELETE_FAILED follows exactly `max_attempts` checks. |
| HeatDestroy.ChecksBeforeWaiting | solum/deployer/handlers/heat.py:104-112 | Worked example: two pending answers give check, wait, check, wait, ERROR_STACK_DELETE_FAILED. |
| HeatDestroy.DestroyAssemblySettles | solum/deployer/handlers/heat.py:92-125 | A destroy that does not raise leaves its assembly removed or marked ERROR_STACK_DELETE_FAILED. Its assembly events are about that assembly only. |
| HeatDestroy.DestroyAppOrder | solum/deployer/handlers/heat.py:118-128 | When nothing raises, each of the plan's assemblies is settled before the plan record is destroyed, as the last event. Only the plan's assemblies are touched. An exception leaves the plan record in place. |
| ShellCommand.PathJoinShape | solum/worker/handlers/shell.py:202-216 | `os.path.join` of two components ends with the second component. Unless that component is absolute, the result starts with the first one, with at most one '/' added between them. |
| ShellCommand.ScriptDir | solum/worker/handlers/shell.py:192-205 | A known source or image format maps to its directory in the format table, and any other format to the fallback ('lp-cedarish' for sources, 'docker' for images). The result is always one of the known directories. |
| ShellCommand.EffectiveBase | solum/worker/handlers/shell.py:200-201 | 'auto' with a qcow2 image becomes 'cedarish'; any other base is kept. |
| ShellCommand.BuildCommand | solum/worker/handlers/shell.py:187-217 | A language-pack artifact gives the four-element build-lp command whatever the stage. Otherwise there is a command exactly for the 'unittest' and 'build' stages, with six elements. The third is the commit for unit tests and the name for builds, then the tenant, the effective base and the language-pack name. |
| ShellCommand.LanguagePackIgnoresStage | solum/worker/handlers/shell.py:207-209 | A language-pack command is the same for every stage, commit, base image and language-pack name. |
| ShellCommand.ScriptPath | solum/worker/handlers/shell.py:202-216 | The script is `<proj_dir>/contrib/<source dir>/<image dir>/<script>`, joined by '/', with the script name fixed by the stage. |
| ShellParams.SanitizeParam | solum/worker/handlers/shell.py:238-245 | None gives ''. Another non-string gives its rendering. A string comes back in double quotes. Inside them every quote is escaped, and unescaping gives the string without surrounding newlines. |
| ShellParams.EscapeRoundTrip | solum/worker/handlers/shell.py:243 | Unescaping an escaped string gives the string back. |
| ShellParams.CleanTextQuoted | solum/worker/handlers/shell.py:243 | A string without quotes or surrounding newlines is written unchanged between quotes. |
| ShellParams.RouteUserParams | solum/worker/handlers/shell.py:249-255 | The environment receives exactly the `_SYSTEM` keys. |
| ShellParams.ExportLineNotSystem | solum/worker/handlers/shell.py:254-255 | A line for a key that is not a `_SYSTEM` key never starts like one. |
| ShellParams.UserParamRouting | solum/worker/handlers/shell.py:249-255 | Each `_SYSTEM` parameter (with distinct keys) goes to the environment with its sanitized value, and none reaches the file. Each other parameter becomes one `export k=v` line, in order: line j is the export line of the j-th other parameter. |
| ShellOutput.ParseCreatedImageId | solum/worker/handlers/shell.py:380-399 | In `_do_build`, the last output line mentioning `created_image_id` decides the image id. Without one there is none. |
| ShellOutput.ParseExternalRef | solum/worker/handlers/shell.py:563-573 | In `build_lp`, the first output line mentioning `image_external_ref` decides the reference. Without one there is none. |
| ShellOutput.PlainIdRead | solum/worker/handlers/shell.py:397-398 | Outside Swift, `created_image_id=<id>` yields `<id>` when the id has no '=' and no surrounding whitespace. |
| ShellOutput.DropPrefix | solum/worker/handlers/shell.py:390 | Replacing the prefix in a line made of the prefix and a text free of it leaves the text. |
| ShellOutput.SwiftIdRead | solum/worker/handlers/shell.py:387-396 | With Swift, `created_image_id=<url>` yields the URL followed by `APP_NAME=` and the application name. |
| ShellOutput.SwiftRefRead | solum/worker/handlers/shell.py:568-571 | With Swift, `image_external_ref=<url>` yields the URL. |
| ShellStages.UpdateAssemblyStatus | solum/worker/handlers/shell.py:98-103 | Without an assembly id nothing is sent. Otherwise exactly one status update for that assembly is sent. |
| ShellStages.DoUnittest | solum/worker/handlers/shell.py:414-489 | The unit-test stage only reports assembly statuses, runs the tests and reports the result to the repository: it never touches the build job and never asks for a deploy. Without a test command it does nothing and returns 0. With one, the handler dies exactly when the environment could not be obtained, or when `Popen` raised a ValueError on an assembly not being deleted. |
| ShellStages.DoBuild | solum/worker/handlers/shell.py:303-412 | The build stage never asks for a deploy. An image id it returns is non-empty. The handler dies exactly when the environment could not be obtained, and then returns no image. After a SolumException the job is marked ERROR last. |
| ShellStages.BuildEnvFailureCrashes | solum/worker/handlers/shell.py:326-339 | When the environment cannot be obtained, the build handler dies with no image and no script run, and the job is never marked BUILDING. A SolumException ends with job ERROR. Any other exception leaves the job untouched. |
| ShellStages.DeletedBuildLeavesJobBuilding | solum/worker/handlers/shell.py:340-354 | An assembly being deleted makes the build return no image without dying. No script runs, and the job is left BUILDING. |
| ShellStages.NoTestCommandSkips | solum/worker/handlers/shell.py:425-431 | Without a test command the tests are skipped: result 0 and no status update. |
| ShellStages.UnitTestStatus | solum/worker/handlers/shell.py:475-484 | An exit code of 0 leads to UNIT_TESTING_PASSED, a positive code to UNIT_TESTING_FAILED and a negative code to ERROR, each exactly for those codes. |
| ShellStages.UnitTestVerdict | solum/worker/handlers/shell.py:456-489 | Once the tests ran, 0 reports UNIT_TESTING_PASSED, a positive code UNIT_TESTING_FAILED, and a negative code or an OSError (read as -1) ERROR. The code is reported to the repository last. A ValueError from `Popen` is the one case where the handler dies. |
| ShellStages.UnitEnvFailureCrashes | solum/worker/handlers/shell.py:446-448 | When the environment cannot be obtained, the unit-test handler dies after UNIT_TESTING, before any script runs and with nothing reported to the repository. |
| ShellStages.UnitValueErrorCrashes | solum/worker/handlers/shell.py:463-469 | Only an OSError around `Popen` is caught. A ValueError ends the handler after the test run, with no verdict on the assembly and nothing reported to the repository. |
| ShellStages.DeletedSkipsTests | solum/worker/handlers/shell.py:456-461 | An assembly being deleted stops the tests with -1 before anything is run. |
| ShellStages.RunBuildScript | solum/worker/handlers/shell.py:356-412 | Running the build script never raises and never asks for a deploy. It starts with the script run. An image is returned exactly when the script's output has a `created_image_id` line with a non-empty id, and it is that id. The job update then says READY with the image, and ERROR without one. |
| ShellStages.BuildScriptRaised | solum/worker/handlers/shell.py:356-366 | `_do_build` catches both an OSError and a ValueError from `Popen`. Either marks the job and then the assembly ERROR, without an image, and the handler goes on. |
| ShellStages.BuildOutcome | solum/worker/handlers/shell.py:378-412 | An image id is returned exactly when the output has a `created_image_id` line with a non-empty id, and it is the last such id. It is then READY on the job and BUILT on the assembly. Without one, both are marked ERROR. |
| ShellStages.SwiftBuildYieldsImage | solum/worker/handlers/shell.py:387-396 | With Swift storage any `created_image_id` line yields an image. |
| ShellStages.BuildLp | solum/worker/handlers/shell.py:520-589 | `build_lp` only updates the image status and runs the script, starting with BUILDING. It dies exactly when the environment could not be obtained or `Popen` raised a ValueError. Otherwise it ends with a status of the same image: READY exactly when a reference was read. |
| ShellStages.LanguagePackOutcome | solum/worker/handlers/shell.py:553-589 | The handler dies exactly when `Popen` raises a ValueError, leaving the image BUILDING after the script run. Otherwise the language pack ends READY exactly when some line mentions `image_external_ref`, with the first such reference, and ERROR with no reference when no line does or `Popen` raised an OSError. |
| ShellStages.FailedTestsStopWorkflow | solum/worker/handlers/shell.py:272-276 | A non-zero unit-test result ends the workflow: nothing is built or deployed. |
| ShellStages.LaunchWorkflow | solum/worker/handlers/shell.py:269-286 | A deploy request can only be the last event, never in a run that raised. It needs 'deploy' and 'build' in the workflow, targets the job's assembly and carries a non-empty image id. |
| ShellStages.DeployNeedsImage | solum/worker/handlers/shell.py:269-286 | A deploy is requested exactly when 'build' and 'deploy' are in the workflow, the unit tests (if requested) returned 0, and the build returned an image. It is the last step and carries that image. |
| ShellStages.WorkflowAfterBuild | solum/worker/handlers/shell.py:278-286 | Once the unit tests let the workflow go on and 'build' is requested, a deploy request appears exactly when 'deploy' is requested and the build returned an image without dying. It is then the last event. |
| ImageHandoff.SplitNamedLocation | solum/deployer/handlers/heat.py:348-350 | Splitting `url + "APP_NAME=" + name` gives back the URL and the name when neither contains the marker. |
| ImageHandoff.SwiftHandoff | solum/worker/handlers/shell.py:387-396 | From the build line `created_image_id=<url>` the worker hands on `<url>APP_NAME=<name>`. The deployer's run script downloads exactly `<url>` and loads it as `<name>`. |
| ImageHandoff.MarkerInUrlMisread | solum/deployer/handlers/heat.py:348-350 | For every URL `a + "APP_NAME=" + b` and name with `a`, `b` and the name free of the marker, the id `url + "APP_NAME=" + name` is misread: the deployer takes `a` as the location and `b` as the name, not the URL and the name. |

## Left out

- Template bodies: the YAML parse and dump of templates and the component's `description` are not modelled. The submitted template is the catalog entry plus the rewritten run script, not the serialised text.
- Foreign calls: calls to Heat, the conductor, the catalog, the registry objects, `is_reachable` and `Popen` are modelled as scripted answers. Network parameters are an opaque value.
- Logging: logging, `upload_task_log`, job notifications beyond the state and image id, and the log file written by the scripts are left out. None of them changes control flow.
- Wait arithmetic: waits are symbolic (`Backoff(k)`, `Seconds(n)`). Floating-point growth is only related to real numbers in `HeatEvents.BackoffNeverShrinks`.
- File setup: `_get_environment` and the file writing of `_get_parameter_env` (key files, `sys_defined_params`, the repository deploy keys) are modelled only as whether the environment was obtained. The user parameter routing is modelled separately.
- Concurrency: RPC dispatch, concurrency between handlers, and the conductor's own behaviour are left out.
- Ports: ports are natural numbers. The source passes on whatever integers it is given, so a negative port would appear as `-p -1:-1`.
- Negative settings: `max_attempts` and `du_attempts` are natural numbers, because a negative value gives Python an empty `range`, the same as 0.
- HeatDeploy.ParseServerUrl: an empty `outputs` list raises an IndexError, and the deploy then crashes. It is a distinct result but is not given a status.
- Other database errors: only IntegrityError is modelled for recording the stack component. Any other database error would end the handler without a status.
- ShellParams.SanitizeParam: backslashes, `$` and backticks are not escaped, so a value can still expand in bash. The model states what the code does and claims no shell safety.
- ShellStages.BuildLp: `update_lp_status` is modelled as always sending, because the image id is a natural number and never `None`.

## Findings

| source | as written | input that shows it | evidently intended | confidence | as-written member | corrected member |
|---|---|---|---|---|---|---|
| solum/deployer/handlers/heat.py:162-166 | On a catalog miss, the handler calls the misspelt `LOG.excepion`. That raises AttributeError before the assembly is marked ERROR. | any deploy whose template flavor ('basic' or 'coreos') is missing from the catalog | report ERROR and return | not executed | HeatDeploy.DeployAsWritten | HeatDeploy.Deploy |

=== FILE: common.dfy ===
/** Small shared vocabulary: an optional value and the minimum of two integers. */
module Common {

  /** A value that may be absent; stands for Python's `None`. */
  datatype Option<+T> = None | Some(value: T) {

    /** The wrapped value, or `default` when absent (Python's `d.get(k, default)`). */
    function GetOr(default: T): (r: T)
      ensures Some? ==> r == value
      ensures None? ==> r == default
    {
      match this
      case Some(v) => v
      case None => default
    }
  }

  function Min(a: int, b: int): (m: int)
    ensures m <= a && m <= b
    ensures m == a || m == b
  {
    if a <= b then a else b
  }
}

=== FILE: heat_deploy.dfy ===
/** `Handler.deploy` and `_check_stack_status` of the Heat deployer: pick a
    template for the image format, create the stack (or update the one the
    assembly already has), wait for it to converge, read the endpoint from
    its first output, then wait for the application's ports to answer. */
module HeatDeploy {
  import opened Common
  import opened States
  import opened HeatEvents
  import opened HeatTemplates
  import opened HeatPoll
  import opened HeatProbe

  /** The record linking an assembly to its stack. */
  datatype StackComponent = StackComponent(stackId: string)

  datatype Assembly = Assembly(
    id: nat,
    name: string,
    uuid: string,
    planId: nat,
    status: AssemblyState,
    component: Option<StackComponent>)

  /** The configuration options the deployer reads. `catalog` is the set
      of template flavors the template catalog can resolve. */
  datatype DeployerConfig = DeployerConfig(
    imageFormat: string,
    imageStorage: string,
    dockerRegEndpoint: string,
    maxAttempts: nat,
    duAttempts: nat,
    flavor: string,
    image: string,
    catalog: set<string>)

  const DefaultMaxAttempts: nat := 600
  const DefaultDuAttempts: nat := 500
  const DefaultWaitInterval: nat := 1
  const DefaultGrowthFactor: real := 1.1
  const DefaultFlavor: string := "m1.small"
  const DefaultImage: string := "coreos"

  /** The scripted answers of the services the deployer calls: the network
      parameters, whether `stacks.create`/`stacks.update` raised, the id a
      create returns, whether recording the stack component hit a
      uniqueness violation, then the successive `stacks.get` and
      `is_reachable` answers. */
  datatype Backend = Backend(
    network: map<string, string>,
    submitRaises: bool,
    createdStackId: string,
    componentClash: bool,
    gets: seq<GetOutcome>,
    probes: seq<ProbeOutcome>)

  /** The backend answers every call the attempt budgets allow. */
  predicate Scripted(cfg: DeployerConfig, backend: Backend)
  {
    cfg.maxAttempts <= |backend.gets| && cfg.duAttempts <= |backend.probes|
  }

  /** `_parse_server_url` on the converged stack: the first output's value;
      nothing when there is no 'outputs' key or the value is null; an
      uncaught IndexError when the output list is empty. */
  datatype ParsedUrl = Url(host: string) | NoUrl | OutputsEmpty

  function ParseServerUrl(stack: StackView): (r: ParsedUrl)
    ensures stack.outputs.NoOutputs? ==> r == NoUrl
    ensures r.OutputsEmpty? <==> stack.outputs.OutputValues? && |stack.outputs.values| == 0
    ensures r.Url? ==> stack.outputs.OutputValues? && |stack.outputs.values| > 0
                       && stack.outputs.values[0] == Some(r.host)
    ensures stack.outputs.OutputValues? && |stack.outputs.values| > 0 && stack.outputs.values[0].Some?
            ==> r == Url(stack.outputs.values[0].value)
  {
    match stack.outputs
    case NoOutputs => NoUrl
    case OutputValues(values) =>
      if |values| == 0 then OutputsEmpty
      else if values[0].None? then NoUrl
      else Url(values[0].value)
  }

  /** An event `_check_stack_status` may emit for stack `stackId`. */
  predicate CheckEvent(e: Event, stackId: string)
  {
    e.SetStatus? || e.Sleep? || e.CheckReachable? || e == StackGet(stackId)
  }

  /** The status reported once probing is over. */
  function ProbeVerdict(assemblyId: nat, host: string, probe: ProbeResult): Event
  {
    match probe.end
    case AllUp => SetStatus(assemblyId, Ready, Some(host))
    case Exhausted => SetStatus(assemblyId, ErrorDuCreation, None)
    case Aborted => SetStatus(assemblyId, Error, None)
  }

  /** The tail of `_check_stack_status` once the endpoint is known:
      WAITING_FOR_DOCKER_DU with the endpoint, the probe, its verdict. */
  function AwaitPorts(assemblyId: nat, host: string, ports: seq<nat>, duAttempts: nat,
                      probes: seq<ProbeOutcome>): (r: Run)
    requires duAttempts <= |probes|
    ensures forall k :: 0 <= k < |r.events| ==>
      r.events[k].SetStatus? || r.events[k].Sleep? || r.events[k].CheckReachable?
  {
    var probe := Probe(host, ports, duAttempts, probes);
    ProbeEvents(host, ports, duAttempts, probes);
    Run([SetStatus(assemblyId, WaitingForDockerDu, Some(host))] + probe.events
        + [ProbeVerdict(assemblyId, host, probe)], false)
  }

  /** The tail of `_check_stack_status` once the poll is over. */
  function AfterPoll(assemblyId: nat, verdict: Verdict, ports: seq<nat>, duAttempts: nat,
                     probes: seq<ProbeOutcome>): (r: Run)
    requires duAttempts <= |probes|
    ensures forall k :: 0 <= k < |r.events| ==>
      r.events[k].SetStatus? || r.events[k].Sleep? || r.events[k].CheckReachable?
  {
    var failed := Run([SetStatus(assemblyId, ErrorStackCreateFailed, None)], false);
    match verdict
    case StackFailed => failed
    case Settled(last) =>
      if last.None? || last.value.status == "" then failed
      else
        match ParseServerUrl(last.value)
        case OutputsEmpty => Run([], true)
        case NoUrl => Run([SetStatus(assemblyId, Error, None)], false)
        case Url(host) => AwaitPorts(assemblyId, host, ports, duAttempts, probes)
  }

  /** `_check_stack_status`. */
  function CheckStackStatus(assemblyId: nat, stackId: string, ports: seq<nat>, cfg: DeployerConfig,
                            gets: seq<GetOutcome>, probes: seq<ProbeOutcome>): (r: Run)
    requires cfg.maxAttempts <= |gets| && cfg.duAttempts <= |probes|
    ensures forall k :: 0 <= k < |r.events| ==> CheckEvent(r.events[k], stackId)
    ensures GetCalls(r.events) <= cfg.maxAttempts
  {
    var poll := Poll(stackId, gets, cfg.maxAttempts);
    var after := AfterPoll(assemblyId, poll.verdict, ports, cfg.duAttempts, probes);
    PollCallsAndWaits(stackId, gets, cfg.maxAttempts);
    ScheduleEvents(stackId, poll.attempts);
    GetCallsAppend(poll.events, after.events);
    NoGetCalls(after.events);
    Run(poll.events + after.events, after.crashed)
  }

  /** The catalog template each supported image format deploys. */
  function TemplateFlavor(imageFormat: string): (r: Option<string>)
    ensures r.Some? <==> imageFormat == "docker" || imageFormat == "vm"
  {
    if imageFormat == "docker" then Some("basic")
    else if imageFormat == "vm" then Some("coreos")
    else None
  }

  function StackParameters(cfg: DeployerConfig, assem: Assembly, imageId: string,
                           network: map<string, string>): Parameters
  {
    if cfg.imageFormat == "docker" then
      DockerParameters(map["app_name" := assem.name, "image" := imageId] + network)
    else
      VmParameters(assem.uuid, 1, cfg.flavor, cfg.image)
  }

  /** What happens to the template's run script: left alone ('docker'
      images), rewritten ('vm' images), or the deploy stops because the
      image storage is unknown or the Swift image id has no application
      name (an IndexError nobody catches). */
  datatype RunScriptChoice = NoRewrite | Rewrite(script: string) | UnknownStorage | LocationRaised

  function RunScriptFor(cfg: DeployerConfig, assem: Assembly, imageId: string, ports: seq<nat>): RunScriptChoice
  {
    if cfg.imageFormat != "vm" then NoRewrite
    else if cfg.imageStorage == "docker_registry" then
      Rewrite(DockerRegRunScript(cfg.dockerRegEndpoint, assem.uuid, ports))
    else if cfg.imageStorage == "swift" then
      match SwiftRunScript(imageId, ports)
      case None => LocationRaised
      case Some(script) => Rewrite(script)
    else UnknownStorage
  }

  /** The template a deploy submits, once the configuration checks pass. */
  function SubmittedTemplate(cfg: DeployerConfig, assem: Assembly, imageId: string, ports: seq<nat>)
    : Template
  {
    var flavor := TemplateFlavor(cfg.imageFormat).GetOr("");
    match RunScriptFor(cfg, assem, imageId, ports)
    case Rewrite(script) => Template(flavor, Some(script))
    case _ => Template(flavor, None)
  }

  /** The part of `deploy` after the DELETING check: submit, record the
      component of a new stack, report DEPLOYING, converge. */
  function Submit(cfg: DeployerConfig, assem: Assembly, template: Template, params: Parameters,
                  ports: seq<nat>, backend: Backend): (r: Run)
    requires Scripted(cfg, backend)
    ensures |r.events| > 0 && r.events[0] == Submission(assem, SubmitStackId(assem, backend), template, params)
    ensures forall k :: 1 <= k < |r.events| ==> !IsSubmission(r.events[k])
  {
    var stackId := SubmitStackId(assem, backend);
    if backend.submitRaises || (assem.component.None? && backend.componentClash) then
      Run([Submission(assem, stackId, template, params), SetStatus(assem.id, Error, None)], false)
    else
      var check := CheckStackStatus(assem.id, stackId, ports, cfg, backend.gets, backend.probes);
      Run(Prelude(assem, stackId, template, params) + check.events, check.crashed)
  }

  /** The stack a deploy works on: the assembly's own, or the one created. */
  function SubmitStackId(assem: Assembly, backend: Backend): string
  {
    if assem.component.Some? then assem.component.value.stackId else backend.createdStackId
  }

  /** `stacks.update` of the assembly's own stack, or `stacks.create`. */
  function Submission(assem: Assembly, stackId: string, template: Template, params: Parameters): (r: Event)
    ensures IsSubmission(r) && r.name == StackName(assem.name, assem.uuid)
    ensures assem.component.Some? <==> r.StackUpdate?
    ensures r.StackUpdate? ==> r.stackId == stackId
  {
    var name := StackName(assem.name, assem.uuid);
    if assem.component.Some? then StackUpdate(stackId, name, template, params)
    else StackCreate(name, template, params)
  }

  /** What an accepted submission does before the convergence check: the
      submission, the component record of a new stack, then DEPLOYING. */
  function Prelude(assem: Assembly, stackId: string, template: Template, params: Parameters): (r: seq<Event>)
    ensures |r| > 0 && r[0] == Submission(assem, stackId, template, params)
    ensures forall k :: 1 <= k < |r| ==> r[k].SetStatus? || r[k].CreateComponent?
    ensures forall k :: 0 <= k < |r| && r[k].SetStatus? ==> r[k].assembly == assem.id
    ensures Statuses(r) == [Deploying]
  {
    var submitted := Submission(assem, stackId, template, params);
    var deploying := SetStatus(assem.id, Deploying, None);
    if assem.component.Some? then
      assert Statuses([deploying]) == [Deploying];
      [submitted, deploying]
    else
      assert Statuses([deploying]) == [Deploying];
      assert Statuses([CreateComponent(assem.id, stackId), deploying]) == [Deploying];
      [submitted, CreateComponent(assem.id, stackId), deploying]
  }

  /** `Handler.deploy`. */
  function Deploy(cfg: DeployerConfig, assem: Assembly, imageId: string, ports: seq<nat>,
                  backend: Backend): (r: Run)
    requires Scripted(cfg, backend)
    ensures (|r.events| > 0 && IsSubmission(r.events[0])) <==> ConfigOk(cfg, imageId) && assem.status != Deleting
    ensures forall k :: 1 <= k < |r.events| ==> !IsSubmission(r.events[k])
  {
    var error := [SetStatus(assem.id, Error, None)];
    match TemplateFlavor(cfg.imageFormat)
    case None => Run(error, false)
    case Some(flavor) =>
      if flavor !in cfg.catalog then Run(error, false)
      else
        match RunScriptFor(cfg, assem, imageId, ports)
        case UnknownStorage => Run(error, false)
        case LocationRaised => Run([], true)
        case _ =>
          if assem.status == Deleting then Run([], false)
          else
            Submit(cfg, assem, SubmittedTemplate(cfg, assem, imageId, ports),
                   StackParameters(cfg, assem, imageId, backend.network), ports, backend)
  }

  // ---------------------------------------------------------------------
  // Helper lemmas about traces

  lemma {:induction false} GetCallsAppend(a: seq<Event>, b: seq<Event>)
    ensures GetCalls(a + b) == GetCalls(a) + GetCalls(b)
    decreases |a|
  {
    if |a| > 0 {
      assert (a + b)[1..] == a[1..] + b;
      GetCallsAppend(a[1..], b);
    } else {
      assert a + b == b;
    }
  }

  lemma {:induction false} NoGetCalls(events: seq<Event>)
    requires forall k :: 0 <= k < |events| ==> !events[k].StackGet?
    ensures GetCalls(events) == 0
    decreases |events|
  {
    if |events| > 0 {
      NoGetCalls(events[1..]);
    }
  }

  lemma ScheduleEvents(stackId: string, n: nat)
    ensures forall k :: 0 <= k < |Schedule(stackId, 0, n)| ==>
      Schedule(stackId, 0, n)[k].Sleep? || Schedule(stackId, 0, n)[k] == StackGet(stackId)
  {
  }

  lemma ProbeEvents(host: string, ports: seq<nat>, duAttempts: nat, probes: seq<ProbeOutcome>)
    requires duAttempts <= |probes|
    ensures forall k :: 0 <= k < |Probe(host, ports, duAttempts, probes).events| ==>
      Probe(host, ports, duAttempts, probes).events[k].Sleep?
      || Probe(host, ports, duAttempts, probes).events[k].CheckReachable?
  {
    var r := Probe(host, ports, duAttempts, probes);
    ProbeFacts(host, ports, duAttempts, probes);
    forall k | 0 <= k < |r.events|
      ensures r.events[k].Sleep? || r.events[k].CheckReachable?
    {
      var c := k / 2;
      if k == 2 * c {
        assert r.events[2 * c] == Sleep(Seconds(1));
      } else {
        assert k == 2 * c + 1;
        assert r.events[2 * c + 1].CheckReachable?;
      }
    }
  }

  // ---------------------------------------------------------------------
  // `_check_stack_status`

  /** The statuses a finished `_check_stack_status` can report. */
  predicate CheckTrail(ss: seq<AssemblyState>)
  {
    || ss == [ErrorStackCreateFailed]
    || ss == [Error]
    || (|ss| == 2 && ss[0] == WaitingForDockerDu && (ss[1] == Ready || ss[1] == ErrorDuCreation || ss[1] == Error))
  }

  /** Once the endpoint is known, WAITING_FOR_DOCKER_DU and then the
      probe's verdict are the only statuses, the verdict coming last. */
  lemma AwaitPortsTrail(assemblyId: nat, host: string, ports: seq<nat>, duAttempts: nat,
                        probes: seq<ProbeOutcome>)
    requires duAttempts <= |probes|
    ensures var r := AwaitPorts(assemblyId, host, ports, duAttempts, probes);
      var v := ProbeVerdict(assemblyId, host, Probe(host, ports, duAttempts, probes));
      && Statuses(r.events) == [WaitingForDockerDu, v.status]
      && r.events[|r.events| - 1] == v
      && (forall k :: 0 <= k < |r.events| && r.events[k].SetStatus? ==> r.events[k].assembly == assemblyId)
  {
    var probe := Probe(host, ports, duAttempts, probes);
    ProbeEvents(host, ports, duAttempts, probes);
    assert Statuses(probe.events) == [];
    var waiting := [SetStatus(assemblyId, WaitingForDockerDu, Some(host))];
    var verdict := [ProbeVerdict(assemblyId, host, probe)];
    StatusesAppend(waiting, probe.events);
    StatusesAppend(waiting + probe.events, verdict);
    var r := AwaitPorts(assemblyId, host, ports, duAttempts, probes);
    forall k | 0 < k < |r.events| - 1
      ensures !r.events[k].SetStatus?
    {
      assert r.events[k] == probe.events[k - 1];
    }
  }

  lemma AfterPollTrail(assemblyId: nat, verdict: Verdict, ports: seq<nat>, duAttempts: nat,
                       probes: seq<ProbeOutcome>)
    requires duAttempts <= |probes|
    ensures var r := AfterPoll(assemblyId, verdict, ports, duAttempts, probes);
      && (r.crashed ==> r.events == [])
      && (!r.crashed ==> CheckTrail(Statuses(r.events)))
      && (!r.crashed ==> |r.events| > 0 && r.events[|r.events| - 1].SetStatus?
                         && DeployFinal(r.events[|r.events| - 1].status))
      && (forall k :: 0 <= k < |r.events| && r.events[k].SetStatus? ==> r.events[k].assembly == assemblyId)
  {
    if verdict.Settled? && verdict.last.Some? && verdict.last.value.status != ""
       && ParseServerUrl(verdict.last.value).Url? {
      AwaitPortsTrail(assemblyId, ParseServerUrl(verdict.last.value).host, ports, duAttempts, probes);
    }
  }

  /** Every path through `_check_stack_status` that does not raise ends
      with exactly one final status, possibly preceded by
      WAITING_FOR_DOCKER_DU, and every status is about the assembly being
      deployed; a path that raises reports nothing. */
  lemma CheckStatusTrail(assemblyId: nat, stackId: string, ports: seq<nat>, cfg: DeployerConfig,
                         gets: seq<GetOutcome>, probes: seq<ProbeOutcome>)
    requires cfg.maxAttempts <= |gets| && cfg.duAttempts <= |probes|
    ensures var r := CheckStackStatus(assemblyId, stackId, ports, cfg, gets, probes);
      && (r.crashed ==> Statuses(r.events) == [])
      && (!r.crashed ==> CheckTrail(Statuses(r.events)))
      && (!r.crashed ==> |r.events| > 0 && r.events[|r.events| - 1].SetStatus?
                         && DeployFinal(r.events[|r.events| - 1].status))
      && (forall k :: 0 <= k < |r.events| && r.events[k].SetStatus? ==> r.events[k].assembly == assemblyId)
  {
    var poll := Poll(stackId, gets, cfg.maxAttempts);
    var after := AfterPoll(assemblyId, poll.verdict, ports, cfg.duAttempts, probes);
    ScheduleEvents(stackId, poll.attempts);
    AfterPollTrail(assemblyId, poll.verdict, ports, cfg.duAttempts, probes);
    QuietPrefix(poll.events, after.events, assemblyId);
  }

  /** Events that report no status, put before others, change neither the
      statuses, nor the last event, nor which assembly statuses are about. */
  lemma QuietPrefix(pre: seq<Event>, post: seq<Event>, id: nat)
    requires forall k :: 0 <= k < |pre| ==> !pre[k].SetStatus?
    requires forall k :: 0 <= k < |post| && post[k].SetStatus? ==> post[k].assembly == id
    ensures Statuses(pre + post) == Statuses(post)
    ensures |post| > 0 ==> (pre + post)[|pre + post| - 1] == post[|post| - 1]
    ensures forall k :: 0 <= k < |pre + post| && (pre + post)[k].SetStatus? ==> (pre + post)[k].assembly == id
  {
    NoStatuses(pre);
    StatusesAppend(pre, post);
    var all := pre + post;
    forall k | 0 <= k < |all| && all[k].SetStatus?
      ensures all[k].assembly == id
    {
      assert k >= |pre| && all[k] == post[k - |pre|];
    }
  }

  /** A 'FAILED' answer, with no terminal answer before it, reports
      ERROR_STACK_CREATE_FAILED right after that fetch: no URL is read and
      nothing is probed. */
  lemma FailedStackReported(assemblyId: nat, stackId: string, ports: seq<nat>, cfg: DeployerConfig,
                            gets: seq<GetOutcome>, probes: seq<ProbeOutcome>, k: nat)
    requires cfg.maxAttempts <= |gets| && cfg.duAttempts <= |probes|
    requires k < cfg.maxAttempts && FailedAnswer(gets[k])
    requires forall j :: 0 <= j < k ==> !Terminal(gets[j])
    ensures CheckStackStatus(assemblyId, stackId, ports, cfg, gets, probes)
      == Run(Schedule(stackId, 0, k + 1) + [SetStatus(assemblyId, ErrorStackCreateFailed, None)], false)
  {
    FailedStopsPoll(stackId, gets, cfg.maxAttempts, k);
  }

  /** Only the stack left after the loop is read: when the poll did not
      see 'FAILED' and either no fetch returned a stack or the last stack
      fetched has an empty status, ERROR_STACK_CREATE_FAILED follows the
      poll at once, whatever the earlier answers were. */
  lemma EmptyLastStackReported(assemblyId: nat, stackId: string, ports: seq<nat>, cfg: DeployerConfig,
                               gets: seq<GetOutcome>, probes: seq<ProbeOutcome>)
    requires cfg.maxAttempts <= |gets| && cfg.duAttempts <= |probes|
    requires var v := Poll(stackId, gets, cfg.maxAttempts).verdict;
      v.Settled? && (v.last.None? || v.last.value.status == "")
    ensures CheckStackStatus(assemblyId, stackId, ports, cfg, gets, probes)
      == Run(Poll(stackId, gets, cfg.maxAttempts).events + [SetStatus(assemblyId, ErrorStackCreateFailed, None)],
             false)
  {
  }

  /** A pending answer followed by one with an empty status, with a budget
      of two: both fetches are made and ERROR_STACK_CREATE_FAILED is
      reported. */
  lemma PendingThenEmptyReported(assemblyId: nat, stackId: string, ports: seq<nat>, cfg: DeployerConfig,
                                 probes: seq<ProbeOutcome>, pending: StackView, empty: StackView)
    requires cfg.maxAttempts == 2 && cfg.duAttempts <= |probes|
    requires pending.status == "CREATE_IN_PROGRESS" && empty.status == ""
    ensures CheckStackStatus(assemblyId, stackId, ports, cfg, [GetReturned(pending), GetReturned(empty)], probes)
      == Run(Schedule(stackId, 0, 2) + [SetStatus(assemblyId, ErrorStackCreateFailed, None)], false)
  {
    var gets := [GetReturned(pending), GetReturned(empty)];
    PendingUsesBudget(stackId, gets, 2);
    assert gets[..2] == gets;
    EmptyLastStackReported(assemblyId, stackId, ports, cfg, gets, probes);
  }

  /** When every fetch raised or returned an empty status, the whole
      budget is used and ERROR_STACK_CREATE_FAILED is reported. */
  lemma NothingFetchedReported(assemblyId: nat, stackId: string, ports: seq<nat>, cfg: DeployerConfig,
                               gets: seq<GetOutcome>, probes: seq<ProbeOutcome>)
    requires cfg.maxAttempts <= |gets| && cfg.duAttempts <= |probes|
    requires forall j :: 0 <= j < cfg.maxAttempts ==> gets[j].GetRaised? || gets[j].stack.status == ""
    ensures CheckStackStatus(assemblyId, stackId, ports, cfg, gets, probes)
      == Run(Schedule(stackId, 0, cfg.maxAttempts) + [SetStatus(assemblyId, ErrorStackCreateFailed, None)], false)
  {
    PendingUsesBudget(stackId, gets, cfg.maxAttempts);
    EmptyFetches(gets, cfg.maxAttempts);
    EmptyLastStackReported(assemblyId, stackId, ports, cfg, gets, probes);
  }

  lemma {:induction false} EmptyFetches(gets: seq<GetOutcome>, n: nat)
    requires n <= |gets|
    requires forall j :: 0 <= j < n ==> gets[j].GetRaised? || gets[j].stack.status == ""
    ensures LastFetched(gets[..n]).None? || LastFetched(gets[..n]).value.status == ""
  {
    if n > 0 {
      assert gets[..n][..n - 1] == gets[..n - 1];
      EmptyFetches(gets, n - 1);
    }
  }

  /** A converged stack without a usable first output (no 'outputs' key,
      or a null value) reports ERROR and probes nothing. */
  lemma MissingUrlIsError(assemblyId: nat, stackId: string, ports: seq<nat>, cfg: DeployerConfig,
                          gets: seq<GetOutcome>, probes: seq<ProbeOutcome>, stack: StackView)
    requires cfg.maxAttempts <= |gets| && cfg.duAttempts <= |probes|
    requires Poll(stackId, gets, cfg.maxAttempts).verdict == Settled(Some(stack)) && stack.status != ""
    requires stack.outputs.NoOutputs? || (|stack.outputs.values| > 0 && stack.outputs.values[0].None?)
    ensures var r := CheckStackStatus(assemblyId, stackId, ports, cfg, gets, probes);
      && !r.crashed
      && Statuses(r.events) == [Error]
      && (forall k :: 0 <= k < |r.events| ==> !r.events[k].CheckReachable?)
  {
    var poll := Poll(stackId, gets, cfg.maxAttempts);
    var error := [SetStatus(assemblyId, Error, None)];
    ScheduleEvents(stackId, poll.attempts);
    NoStatuses(poll.events);
    assert ParseServerUrl(stack) == NoUrl;
    assert AfterPoll(assemblyId, poll.verdict, ports, cfg.duAttempts, probes) == Run(error, false);
    assert CheckStackStatus(assemblyId, stackId, ports, cfg, gets, probes).events == poll.events + error;
    StatusesAppend(poll.events, error);
  }

  /** With a first output value, WAITING_FOR_DOCKER_DU carrying that value
      is reported right after the poll and before any port is checked; the
      final status is READY with the same value exactly when every port
      answered with an attempt to spare, ERROR exactly when the last check
      raised an unexpected exception, and ERROR_DU_CREATION otherwise. */
  lemma UrlThenProbe(assemblyId: nat, stackId: string, ports: seq<nat>, cfg: DeployerConfig,
                     gets: seq<GetOutcome>, probes: seq<ProbeOutcome>, stack: StackView, host: string)
    requires cfg.maxAttempts <= |gets| && cfg.duAttempts <= |probes|
    requires Poll(stackId, gets, cfg.maxAttempts).verdict == Settled(Some(stack)) && stack.status != ""
    requires stack.outputs.OutputValues? && |stack.outputs.values| > 0 && stack.outputs.values[0] == Some(host)
    ensures var r := CheckStackStatus(assemblyId, stackId, ports, cfg, gets, probes);
      var at := |Poll(stackId, gets, cfg.maxAttempts).events|;
      var probe := Probe(host, ports, cfg.duAttempts, probes);
      var up := probe.drained == |ports| && probe.calls < cfg.duAttempts;
      var aborted := 0 < probe.calls && probes[probe.calls - 1] == OtherError;
      && !r.crashed
      && at < |r.events| && r.events[at] == SetStatus(assemblyId, WaitingForDockerDu, Some(host))
      && (forall k :: 0 <= k < |r.events| && r.events[k].CheckReachable? ==> at < k)
      && (r.events[|r.events| - 1] == SetStatus(assemblyId, Ready, Some(host)) <==> up)
      && (r.events[|r.events| - 1] == SetStatus(assemblyId, Error, None) <==> aborted)
      && (r.events[|r.events| - 1] == SetStatus(assemblyId, ErrorDuCreation, None) <==> !up && !aborted)
  {
    var poll := Poll(stackId, gets, cfg.maxAttempts);
    ScheduleEvents(stackId, poll.attempts);
    ProbeFacts(host, ports, cfg.duAttempts, probes);
  }

  /** A poll that runs out of attempts on a stack that is neither
      'COMPLETE' nor 'FAILED', but has a non-empty status, still reads the
      URL: with a first output value it reports WAITING_FOR_DOCKER_DU and
      probes, instead of reporting a failed stack. */
  lemma ExhaustedPollStillReadsUrl(assemblyId: nat, stackId: string, ports: seq<nat>, cfg: DeployerConfig,
                                   gets: seq<GetOutcome>, probes: seq<ProbeOutcome>, stack: StackView,
                                   host: string)
    requires cfg.maxAttempts <= |gets| && cfg.duAttempts <= |probes|
    requires forall j :: 0 <= j < cfg.maxAttempts ==> !Terminal(gets[j])
    requires LastFetched(gets[..cfg.maxAttempts]) == Some(stack) && stack.status != ""
    requires stack.outputs.OutputValues? && |stack.outputs.values| > 0 && stack.outputs.values[0] == Some(host)
    ensures var r := CheckStackStatus(assemblyId, stackId, ports, cfg, gets, probes);
      && !r.crashed
      && 2 * cfg.maxAttempts < |r.events|
      && r.events[2 * cfg.maxAttempts] == SetStatus(assemblyId, WaitingForDockerDu, Some(host))
  {
    PendingUsesBudget(stackId, gets, cfg.maxAttempts);
  }

  // ---------------------------------------------------------------------
  // `deploy`

  /** The configuration and image id let `deploy` get as far as the stack
      submission: a supported image format whose template is in the
      catalog, and for 'vm' images a known image storage (and for Swift,
      an image id that names the application). */
  predicate ConfigOk(cfg: DeployerConfig, imageId: string)
  {
    && TemplateFlavor(cfg.imageFormat).Some?
    && TemplateFlavor(cfg.imageFormat).value in cfg.catalog
    && (cfg.imageFormat == "vm" ==>
          cfg.imageStorage == "docker_registry"
          || (cfg.imageStorage == "swift" && Strings.Contains(imageId, AppNameMarker)))
  }

  /** An unsupported image format, a template missing from the catalog, or
      an unknown image storage for 'vm' images: ERROR, and nothing is
      submitted to Heat. */
  lemma RefusedConfiguration(cfg: DeployerConfig, assem: Assembly, imageId: string, ports: seq<nat>,
                             backend: Backend)
    requires Scripted(cfg, backend)
    requires || (cfg.imageFormat != "docker" && cfg.imageFormat != "vm")
             || TemplateFlavor(cfg.imageFormat).value !in cfg.catalog
             || (cfg.imageFormat == "vm" && cfg.imageStorage != "docker_registry" && cfg.imageStorage != "swift")
    ensures Deploy(cfg, assem, imageId, ports, backend) == Run([SetStatus(assem.id, Error, None)], false)
  {
  }

  /** A Swift image id without the application-name marker makes the
      template rewrite raise before anything is reported or submitted. */
  lemma SwiftIdWithoutName(cfg: DeployerConfig, assem: Assembly, imageId: string, ports: seq<nat>,
                           backend: Backend)
    requires Scripted(cfg, backend)
    requires cfg.imageFormat == "vm" && "coreos" in cfg.catalog && cfg.imageStorage == "swift"
    requires !Strings.Contains(imageId, AppNameMarker)
    ensures Deploy(cfg, assem, imageId, ports, backend) == Run([], true)
  {
  }

  /** An assembly already being deleted is left alone: no status, no
      submission. */
  lemma DeletingIsSilent(cfg: DeployerConfig, assem: Assembly, imageId: string, ports: seq<nat>,
                         backend: Backend)
    requires Scripted(cfg, backend) && ConfigOk(cfg, imageId)
    requires assem.status == Deleting
    ensures Deploy(cfg, assem, imageId, ports, backend) == Run([], false)
  {
  }

  /** Past the configuration checks, and unless the assembly is being
      deleted, `deploy` goes on to the submission. */
  lemma ReachesSubmission(cfg: DeployerConfig, assem: Assembly, imageId: string, ports: seq<nat>,
                          backend: Backend)
    requires Scripted(cfg, backend) && ConfigOk(cfg, imageId)
    requires assem.status != Deleting
    ensures Deploy(cfg, assem, imageId, ports, backend)
      == Submit(cfg, assem, SubmittedTemplate(cfg, assem, imageId, ports),
                StackParameters(cfg, assem, imageId, backend.network), ports, backend)
  {
  }

  /** One submission, as the first event: an update of the assembly's own
      stack when it has one and a create otherwise, under the stack name;
      every fetch is of stack `stackId`. */
  predicate TargetsOwnStack(events: seq<Event>, assem: Assembly, stackId: string)
  {
    && |events| > 0
    && (forall k :: 1 <= k < |events| ==> !IsSubmission(events[k]))
    && (assem.component.Some? ==> events[0].StackUpdate? && events[0].stackId == stackId)
    && (assem.component.None? ==> events[0].StackCreate?)
    && events[0].name == StackName(assem.name, assem.uuid)
    && (forall k :: 0 <= k < |events| && events[k].StackGet? ==> events[k].stackId == stackId)
  }

  /** The submission step submits to the assembly's own stack, or creates
      one, and then only fetches that stack. */
  lemma SubmitTarget(cfg: DeployerConfig, assem: Assembly, template: Template, params: Parameters,
                     ports: seq<nat>, backend: Backend)
    requires Scripted(cfg, backend)
    ensures TargetsOwnStack(Submit(cfg, assem, template, params, ports, backend).events, assem,
                            SubmitStackId(assem, backend))
  {
    if backend.submitRaises || (assem.component.None? && backend.componentClash) {
      var r := Submit(cfg, assem, template, params, ports, backend);
      assert |r.events| == 2 && r.events[1] == SetStatus(assem.id, Error, None);
    } else {
      SubmitTargetAccepted(cfg, assem, template, params, ports, backend);
    }
  }

  lemma SubmitTargetAccepted(cfg: DeployerConfig, assem: Assembly, template: Template, params: Parameters,
                             ports: seq<nat>, backend: Backend)
    requires Scripted(cfg, backend)
    requires !(backend.submitRaises || (assem.component.None? && backend.componentClash))
    ensures TargetsOwnStack(Submit(cfg, assem, template, params, ports, backend).events, assem,
                            SubmitStackId(assem, backend))
  {
    var stackId := SubmitStackId(assem, backend);
    var r := Submit(cfg, assem, template, params, ports, backend);
    var check := CheckStackStatus(assem.id, stackId, ports, cfg, backend.gets, backend.probes);
    var pre := Prelude(assem, stackId, template, params);
    assert r.events == pre + check.events;
    TargetsAppend(pre, check.events, assem, stackId);
  }

  /** A submission followed by records and statuses, then by the events of
      `_check_stack_status` for the same stack, targets that stack only. */
  lemma TargetsAppend(pre: seq<Event>, post: seq<Event>, assem: Assembly, stackId: string)
    requires |pre| > 0
    requires assem.component.Some? ==> pre[0].StackUpdate? && pre[0].stackId == stackId
    requires assem.component.None? ==> pre[0].StackCreate?
    requires pre[0].name == StackName(assem.name, assem.uuid)
    requires forall k :: 1 <= k < |pre| ==> pre[k].SetStatus? || pre[k].CreateComponent?
    requires forall k :: 0 <= k < |post| ==> CheckEvent(post[k], stackId)
    ensures TargetsOwnStack(pre + post, assem, stackId)
  {
    var all := pre + post;
    forall k | 0 <= k < |all|
      ensures k > 0 ==> !IsSubmission(all[k])
      ensures all[k].StackGet? ==> all[k].stackId == stackId
    {
      if k >= |pre| {
        assert all[k] == post[k - |pre|];
      } else {
        assert all[k] == pre[k];
      }
    }
  }

  /** The submission step reports DEPLOYING exactly when the submission
      went through (and, for a new stack, its component was recorded); a
      refused submission reports ERROR alone. */
  lemma SubmitStatuses(cfg: DeployerConfig, assem: Assembly, template: Template, params: Parameters,
                       ports: seq<nat>, backend: Backend)
    requires Scripted(cfg, backend)
    ensures var r := Submit(cfg, assem, template, params, ports, backend);
      var accepted := !backend.submitRaises && (assem.component.Some? || !backend.componentClash);
      var stackId := SubmitStackId(assem, backend);
      var check := CheckStackStatus(assem.id, stackId, ports, cfg, backend.gets, backend.probes);
      && (!accepted ==> Statuses(r.events) == [Error] && !r.crashed)
      && (accepted ==> Statuses(r.events) == [Deploying] + Statuses(check.events) && r.crashed == check.crashed)
  {
    var stackId := SubmitStackId(assem, backend);
    var submitted := [Submission(assem, stackId, template, params)];
    assert Statuses(submitted) == [];
    if backend.submitRaises || (assem.component.None? && backend.componentClash) {
      StatusesAppend(submitted, [SetStatus(assem.id, Error, None)]);
    } else {
      var check := CheckStackStatus(assem.id, stackId, ports, cfg, backend.gets, backend.probes);
      StatusesAppend(Prelude(assem, stackId, template, params), check.events);
    }
  }

  /** Past the configuration checks, exactly one submission is made, as the
      first event: an update of the assembly's own stack when it has one,
      otherwise a create; every later fetch is of that same stack. */
  lemma UpdateOrCreate(cfg: DeployerConfig, assem: Assembly, imageId: string, ports: seq<nat>,
                       backend: Backend)
    requires Scripted(cfg, backend) && ConfigOk(cfg, imageId)
    requires assem.status != Deleting
    ensures var r := Deploy(cfg, assem, imageId, ports, backend);
      var stackId := SubmitStackId(assem, backend);
      && |r.events| > 0
      && (forall k :: 1 <= k < |r.events| ==> !IsSubmission(r.events[k]))
      && (assem.component.Some? ==> r.events[0].StackUpdate? && r.events[0].stackId == stackId)
      && (assem.component.None? ==> r.events[0].StackCreate?)
      && r.events[0].name == StackName(assem.name, assem.uuid)
      && (forall k :: 0 <= k < |r.events| && r.events[k].StackGet? ==> r.events[k].stackId == stackId)
  {
    ReachesSubmission(cfg, assem, imageId, ports, backend);
    SubmitTarget(cfg, assem, SubmittedTemplate(cfg, assem, imageId, ports),
                 StackParameters(cfg, assem, imageId, backend.network), ports, backend);
  }

  /** Past the configuration checks, DEPLOYING is reported exactly when the
      submission went through (and, for a new stack, its component was
      recorded), and then as the first status; a refused submission
      reports ERROR alone. */
  lemma DeployingAfterSubmission(cfg: DeployerConfig, assem: Assembly, imageId: string, ports: seq<nat>,
                                 backend: Backend)
    requires Scripted(cfg, backend) && ConfigOk(cfg, imageId)
    requires assem.status != Deleting
    ensures var r := Deploy(cfg, assem, imageId, ports, backend);
      var accepted := !backend.submitRaises && (assem.component.Some? || !backend.componentClash);
      && (Deploying in Statuses(r.events) <==> accepted)
      && (!accepted ==> Statuses(r.events) == [Error] && !r.crashed)
      && (accepted ==> |Statuses(r.events)| > 0 && Statuses(r.events)[0] == Deploying)
  {
    var stackId := SubmitStackId(assem, backend);
    ReachesSubmission(cfg, assem, imageId, ports, backend);
    SubmitStatuses(cfg, assem, SubmittedTemplate(cfg, assem, imageId, ports),
                   StackParameters(cfg, assem, imageId, backend.network), ports, backend);
    CheckStatusTrail(assem.id, stackId, ports, cfg, backend.gets, backend.probes);
  }

  /** A deploy that does not raise and does anything at all ends with a
      final status of the deployed assembly, and reports no other
      assembly's status. */
  lemma DeployEndsFinal(cfg: DeployerConfig, assem: Assembly, imageId: string, ports: seq<nat>,
                        backend: Backend)
    requires Scripted(cfg, backend)
    ensures var r := Deploy(cfg, assem, imageId, ports, backend);
      && (!r.crashed && |r.events| > 0 ==>
            r.events[|r.events| - 1].SetStatus?
            && r.events[|r.events| - 1].assembly == assem.id
            && DeployFinal(r.events[|r.events| - 1].status))
      && (forall k :: 0 <= k < |r.events| && r.events[k].SetStatus? ==> r.events[k].assembly == assem.id)
  {
    match TemplateFlavor(cfg.imageFormat)
    case None =>
    case Some(flavor) =>
      if flavor in cfg.catalog && RunScriptFor(cfg, assem, imageId, ports) !in {UnknownStorage, LocationRaised}
         && assem.status != Deleting {
        var template := SubmittedTemplate(cfg, assem, imageId, ports);
        var params := StackParameters(cfg, assem, imageId, backend.network);
        assert Deploy(cfg, assem, imageId, ports, backend) == Submit(cfg, assem, template, params, ports, backend);
        SubmitEndsFinal(cfg, assem, template, params, ports, backend);
      }
  }

  /** A run that, unless it raised, ends with a final status of assembly
      `id`, and whose statuses are all about `id`. */
  predicate EndsFinalFor(r: Run, id: nat)
  {
    && (!r.crashed ==>
          |r.events| > 0
          && r.events[|r.events| - 1].SetStatus?
          && r.events[|r.events| - 1].assembly == id
          && DeployFinal(r.events[|r.events| - 1].status))
    && (forall k :: 0 <= k < |r.events| && r.events[k].SetStatus? ==> r.events[k].assembly == id)
  }

  /** `DeployEndsFinal` for the submission step. */
  lemma SubmitEndsFinal(cfg: DeployerConfig, assem: Assembly, template: Template, params: Parameters,
                        ports: seq<nat>, backend: Backend)
    requires Scripted(cfg, backend)
    ensures EndsFinalFor(Submit(cfg, assem, template, params, ports, backend), assem.id)
  {
    if backend.submitRaises || (assem.component.None? && backend.componentClash) {
      SubmitRefusedEnds(cfg, assem, template, params, ports, backend);
    } else {
      SubmitAcceptedEnds(cfg, assem, template, params, ports, backend);
    }
  }

  lemma SubmitRefusedEnds(cfg: DeployerConfig, assem: Assembly, template: Template, params: Parameters,
                          ports: seq<nat>, backend: Backend)
    requires Scripted(cfg, backend)
    requires backend.submitRaises || (assem.component.None? && backend.componentClash)
    ensures EndsFinalFor(Submit(cfg, assem, template, params, ports, backend), assem.id)
  {
    var r := Submit(cfg, assem, template, params, ports, backend);
    assert |r.events| == 2 && r.events[1] == SetStatus(assem.id, Error, None) && !r.events[0].SetStatus?;
  }

  lemma SubmitAcceptedEnds(cfg: DeployerConfig, assem: Assembly, template: Template, params: Parameters,
                           ports: seq<nat>, backend: Backend)
    requires Scripted(cfg, backend)
    requires !(backend.submitRaises || (assem.component.None? && backend.componentClash))
    ensures EndsFinalFor(Submit(cfg, assem, template, params, ports, backend), assem.id)
  {
    var stackId := SubmitStackId(assem, backend);
    var check := CheckStackStatus(assem.id, stackId, ports, cfg, backend.gets, backend.probes);
    CheckEndsFinal(assem.id, stackId, ports, cfg, backend.gets, backend.probes);
    EndsFinalAppend(Prelude(assem, stackId, template, params), check, assem.id);
  }

  /** `_check_stack_status` ends final for the deployed assembly. */
  lemma CheckEndsFinal(assemblyId: nat, stackId: string, ports: seq<nat>, cfg: DeployerConfig,
                       gets: seq<GetOutcome>, probes: seq<ProbeOutcome>)
    requires cfg.maxAttempts <= |gets| && cfg.duAttempts <= |probes|
    ensures EndsFinalFor(CheckStackStatus(assemblyId, stackId, ports, cfg, gets, probes), assemblyId)
  {
    CheckStatusTrail(assemblyId, stackId, ports, cfg, gets, probes);
  }

  /** Events before a run that ends final for `id`, all of whose statuses
      are about `id`, keep it final for `id`. */
  lemma EndsFinalAppend(pre: seq<Event>, r: Run, id: nat)
    requires forall k :: 0 <= k < |pre| && pre[k].SetStatus? ==> pre[k].assembly == id
    requires EndsFinalFor(r, id)
    ensures EndsFinalFor(Run(pre + r.events, r.crashed), id)
  {
    var all := pre + r.events;
    forall k | 0 <= k < |all| && all[k].SetStatus?
      ensures all[k].assembly == id
    {
      if k >= |pre| {
        assert all[k] == r.events[k - |pre|];
      }
    }
    if |r.events| > 0 {
      assert all[|all| - 1] == r.events[|r.events| - 1];
    }
  }

  // ---------------------------------------------------------------------
  // The catalog-miss branch as written

  /** `deploy` as written: on a catalog miss the handler calls a logging
      method that does not exist (`excepion`), so the AttributeError
      escapes before ERROR is reported. Everywhere else it is `Deploy`. */
  function DeployAsWritten(cfg: DeployerConfig, assem: Assembly, imageId: string, ports: seq<nat>,
                           backend: Backend): (r: Run)
    requires Scripted(cfg, backend)
    ensures TemplateFlavor(cfg.imageFormat).Some? && TemplateFlavor(cfg.imageFormat).value !in cfg.catalog
            ==> r.crashed && Statuses(r.events) == []
  {
    match TemplateFlavor(cfg.imageFormat)
    case Some(flavor) =>
      if flavor !in cfg.catalog then Run([], true) else Deploy(cfg, assem, imageId, ports, backend)
    case None => Deploy(cfg, assem, imageId, ports, backend)
  }

  /** On a catalog miss the assembly as written keeps whatever status it
      had (the handler dies), while the intended behaviour reports ERROR. */
  lemma CatalogMissLeavesStatus(assem: Assembly, imageId: string, ports: seq<nat>, backend: Backend)
    requires |backend.gets| >= DefaultMaxAttempts && |backend.probes| >= DefaultDuAttempts
    ensures var cfg := DeployerConfig("docker", "glance", "", DefaultMaxAttempts, DefaultDuAttempts,
                                      DefaultFlavor, DefaultImage, {});
      && DeployAsWritten(cfg, assem, imageId, ports, backend) == Run([], true)
      && Deploy(cfg, assem, imageId, ports, backend) == Run([SetStatus(assem.id, Error, None)], false)
  {
  }
}

=== FILE: heat_destroy.dfy ===
/** `destroy_assembly` and `destroy_app` of the Heat deployer: delete the
    assembly's stack, then check its status up to `max_attempts` times,
    removing the assembly record only once Heat reports 'DELETE_COMPLETE';
    and destroy every assembly of an application before the application's
    plan. */
module HeatDestroy {
  import opened Common
  import opened States
  import opened HeatEvents
  import opened HeatPoll
  import opened HeatDeploy

  const DeleteComplete: string := "DELETE_COMPLETE"

  /** The answer of `_get_stack_status`: a status string; nothing (the
      stack is gone, or the client returned no stack); or an exception other
      than HTTPNotFound, which the handler does not catch. */
  datatype DeleteCheck = Status(status: string) | Missing | CheckRaised

  /** An answer that ends the delete loop. */
  predicate Decisive(c: DeleteCheck)
  {
    c.CheckRaised? || c == Status(DeleteComplete)
  }

  /** The first decisive answer among the first `n`, if any. */
  function FirstDecisive(checks: seq<DeleteCheck>, n: nat): (r: Option<nat>)
    requires n <= |checks|
    ensures r.Some? ==> r.value < n && Decisive(checks[r.value])
                        && forall j :: 0 <= j < r.value ==> !Decisive(checks[j])
    ensures r.None? ==> forall j :: 0 <= j < n ==> !Decisive(checks[j])
  {
    if n == 0 then None
    else
      var earlier := FirstDecisive(checks, n - 1);
      if earlier.Some? then earlier
      else if Decisive(checks[n - 1]) then Some(n - 1)
      else None
  }

  /** The reference schedule of the delete loop's attempts `from` up to
      `to`: each checks the status first and only then waits. */
  function DeleteSchedule(stackId: string, from: nat, to: nat): (r: seq<Event>)
    requires from <= to
    ensures |r| == 2 * (to - from)
  {
    seq(2 * (to - from), k requires 0 <= k < 2 * (to - from) =>
      if k % 2 == 0 then StackGet(stackId) else Sleep(Backoff(from + k / 2)))
  }

  /** The delete loop from attempt `count` on. */
  function DestroyLoop(assemblyId: nat, stackId: string, checks: seq<DeleteCheck>, maxAttempts: nat,
                       count: nat): (r: Run)
    requires count <= maxAttempts <= |checks|
    ensures |r.events| > 0
    ensures forall k :: 0 <= k < |r.events| - 1 ==> !r.events[k].DestroyAssemblyRecord?
    ensures r.crashed ==> !r.events[|r.events| - 1].DestroyAssemblyRecord?
    ensures forall k :: 0 <= k < |r.events| ==> !r.events[k].StackDelete? && !r.events[k].DestroyPlanRecord?
    decreases maxAttempts - count
  {
    if count == maxAttempts then Run([SetStatus(assemblyId, ErrorStackDeleteFailed, None)], false)
    else
      var get := [StackGet(stackId)];
      match checks[count]
      case CheckRaised => Run(get, true)
      case _ =>
        if checks[count] == Status(DeleteComplete) then
          Run(get + [DestroyAssemblyRecord(assemblyId)], false)
        else
          var rest := DestroyLoop(assemblyId, stackId, checks, maxAttempts, count + 1);
          Run(get + [Sleep(Backoff(count))] + rest.events, rest.crashed)
  }

  /** `destroy_assembly`; a raising `stacks.delete` is logged and ignored,
      so the delete request is always followed by the loop. */
  function DestroyAssembly(assem: Assembly, maxAttempts: nat, checks: seq<DeleteCheck>): (r: Run)
    requires maxAttempts <= |checks|
    ensures |r.events| > 0
    ensures forall k :: 0 <= k < |r.events| - 1 ==> !r.events[k].DestroyAssemblyRecord?
    ensures r.crashed ==> !r.events[|r.events| - 1].DestroyAssemblyRecord?
    ensures forall k :: 1 <= k < |r.events| ==> !r.events[k].StackDelete?
    ensures forall k :: 0 <= k < |r.events| ==> !r.events[k].DestroyPlanRecord?
  {
    match assem.component
    case None => Run([DestroyAssemblyRecord(assem.id)], false)
    case Some(c) =>
      var loop := DestroyLoop(assem.id, c.stackId, checks, maxAttempts, 0);
      Run([StackDelete(c.stackId)] + loop.events, loop.crashed)
  }

  /** Every assembly has a script of status answers covering the budget. */
  predicate ScriptsCover(assemblies: seq<Assembly>, scripts: seq<seq<DeleteCheck>>, maxAttempts: nat)
  {
    |scripts| == |assemblies| && forall j :: 0 <= j < |scripts| ==> maxAttempts <= |scripts[j]|
  }

  /** The loop of `destroy_app` from assembly `i` on: only assemblies of the
      plan are destroyed; an exception ends it. */
  function DestroyFrom(planId: nat, assemblies: seq<Assembly>, scripts: seq<seq<DeleteCheck>>,
                       maxAttempts: nat, i: nat): (r: Run)
    requires ScriptsCover(assemblies, scripts, maxAttempts) && i <= |assemblies|
    ensures forall k :: 0 <= k < |r.events| ==> !r.events[k].DestroyPlanRecord?
    decreases |assemblies| - i
  {
    if i == |assemblies| then Run([], false)
    else if assemblies[i].planId != planId then DestroyFrom(planId, assemblies, scripts, maxAttempts, i + 1)
    else
      var one := DestroyAssembly(assemblies[i], maxAttempts, scripts[i]);
      if one.crashed then one
      else
        var rest := DestroyFrom(planId, assemblies, scripts, maxAttempts, i + 1);
        Run(one.events + rest.events, rest.crashed)
  }

  /** `destroy_app`. */
  function DestroyApp(planId: nat, assemblies: seq<Assembly>, scripts: seq<seq<DeleteCheck>>,
                      maxAttempts: nat): (r: Run)
    requires ScriptsCover(assemblies, scripts, maxAttempts)
    ensures forall k :: 0 <= k < |r.events| - 1 ==> !r.events[k].DestroyPlanRecord?
    ensures r.crashed <==> |r.events| == 0 || !r.events[|r.events| - 1].DestroyPlanRecord?
    ensures !r.crashed ==> r.events[|r.events| - 1] == DestroyPlanRecord(planId)
  {
    var all := DestroyFrom(planId, assemblies, scripts, maxAttempts, 0);
    if all.crashed then all else Run(all.events + [DestroyPlanRecord(planId)], false)
  }

  // ---------------------------------------------------------------------
  // Lemmas

  lemma DeleteScheduleCons(stackId: string, i: nat, n: nat)
    requires i < n
    ensures [StackGet(stackId), Sleep(Backoff(i))] + DeleteSchedule(stackId, i + 1, n) == DeleteSchedule(stackId, i, n)
  {
    var a := [StackGet(stackId), Sleep(Backoff(i))] + DeleteSchedule(stackId, i + 1, n);
    var b := DeleteSchedule(stackId, i, n);
    forall k | 2 <= k < |b|
      ensures a[k] == b[k]
    {
      assert a[k] == DeleteSchedule(stackId, i + 1, n)[k - 2];
      assert (k - 2) / 2 == k / 2 - 1;
      assert (k - 2) % 2 == k % 2;
    }
  }

  /** The delete loop follows the reference schedule up to the first
      decisive answer: 'DELETE_COMPLETE' removes the assembly record right
      after that check, an exception ends the handler right after it, and
      without either the loop uses every attempt and reports
      ERROR_STACK_DELETE_FAILED. A missing stack is not decisive. */
  lemma {:induction false} DestroyLoopOutcome(assemblyId: nat, stackId: string, checks: seq<DeleteCheck>,
                                              maxAttempts: nat, count: nat)
    requires count <= maxAttempts <= |checks|
    requires forall j :: 0 <= j < count ==> !Decisive(checks[j])
    ensures var r := DestroyLoop(assemblyId, stackId, checks, maxAttempts, count);
      var first := FirstDecisive(checks, maxAttempts);
      && (first.None? ==>
            r == Run(DeleteSchedule(stackId, count, maxAttempts)
                     + [SetStatus(assemblyId, ErrorStackDeleteFailed, None)], false))
      && (first.Some? && checks[first.value].CheckRaised? ==>
            r == Run(DeleteSchedule(stackId, count, first.value) + [StackGet(stackId)], true))
      && (first.Some? && checks[first.value] == Status(DeleteComplete) ==>
            r == Run(DeleteSchedule(stackId, count, first.value)
                     + [StackGet(stackId), DestroyAssemblyRecord(assemblyId)], false))
    decreases maxAttempts - count
  {
    var first := FirstDecisive(checks, maxAttempts);
    if count < maxAttempts {
      if Decisive(checks[count]) {
        assert first == Some(count);
        assert DeleteSchedule(stackId, count, count) == [];
      } else {
        DestroyLoopOutcome(assemblyId, stackId, checks, maxAttempts, count + 1);
        DestroyLoopStep(assemblyId, stackId, checks, maxAttempts, count);
        if first.Some? {
          DeleteScheduleCons(stackId, count, first.value);
        } else {
          DeleteScheduleCons(stackId, count, maxAttempts);
        }
      }
    } else {
      assert first.None?;
    }
  }

  /** An attempt whose answer is not decisive checks, waits and goes on. */
  lemma DestroyLoopStep(assemblyId: nat, stackId: string, checks: seq<DeleteCheck>, maxAttempts: nat, count: nat)
    requires count < maxAttempts <= |checks| && !Decisive(checks[count])
    ensures var rest := DestroyLoop(assemblyId, stackId, checks, maxAttempts, count + 1);
      DestroyLoop(assemblyId, stackId, checks, maxAttempts, count)
      == Run([StackGet(stackId), Sleep(Backoff(count))] + rest.events, rest.crashed)
  {
  }

  /** Without a stack component the assembly record is removed at once and
      Heat is not called. */
  lemma NoStackNoHeat(assem: Assembly, maxAttempts: nat, checks: seq<DeleteCheck>)
    requires maxAttempts <= |checks| && assem.component.None?
    ensures DestroyAssembly(assem, maxAttempts, checks) == Run([DestroyAssemblyRecord(assem.id)], false)
  {
  }

  /** With a stack component, the assembly record is removed exactly when a
      check answers 'DELETE_COMPLETE' within the budget before any check
      raises; when no check is decisive, ERROR_STACK_DELETE_FAILED is
      reported after exactly `max_attempts` checks and the record is
      kept. */
  lemma RemovedOnlyWhenDeleted(assem: Assembly, maxAttempts: nat, checks: seq<DeleteCheck>)
    requires maxAttempts <= |checks| && assem.component.Some?
    ensures var r := DestroyAssembly(assem, maxAttempts, checks);
      var first := FirstDecisive(checks, maxAttempts);
      && r.events[0] == StackDelete(assem.component.value.stackId)
      && (DestroyAssemblyRecord(assem.id) in r.events <==>
            first.Some? && checks[first.value] == Status(DeleteComplete))
      && (first.None? ==>
            && r.events[|r.events| - 1] == SetStatus(assem.id, ErrorStackDeleteFailed, None)
            && GetCalls(r.events) == maxAttempts
            && !r.crashed)
  {
    var stackId := assem.component.value.stackId;
    var first := FirstDecisive(checks, maxAttempts);
    DestroyLoopOutcome(assem.id, stackId, checks, maxAttempts, 0);
    var to := if first.Some? then first.value else maxAttempts;
    DeleteScheduleEvents(stackId, 0, to);
    if first.None? {
      NoneDecisiveGiveUp(assem, maxAttempts, checks);
    }
  }

  /** With no decisive check, ERROR_STACK_DELETE_FAILED follows exactly
      `max_attempts` fetches. */
  lemma NoneDecisiveGiveUp(assem: Assembly, maxAttempts: nat, checks: seq<DeleteCheck>)
    requires maxAttempts <= |checks| && assem.component.Some?
    requires FirstDecisive(checks, maxAttempts).None?
    ensures var r := DestroyAssembly(assem, maxAttempts, checks);
      && r.events[|r.events| - 1] == SetStatus(assem.id, ErrorStackDeleteFailed, None)
      && GetCalls(r.events) == maxAttempts
      && !r.crashed
  {
    var stackId := assem.component.value.stackId;
    DestroyLoopOutcome(assem.id, stackId, checks, maxAttempts, 0);
    var r := DestroyAssembly(assem, maxAttempts, checks);
    DeleteScheduleGets(stackId, 0, maxAttempts);
    NoGetCalls([StackDelete(stackId)]);
    NoGetCalls([SetStatus(assem.id, ErrorStackDeleteFailed, None)]);
    GetCallsAppend([StackDelete(stackId)], DeleteSchedule(stackId, 0, maxAttempts));
    var a := [StackDelete(stackId)] + DeleteSchedule(stackId, 0, maxAttempts);
    var b := [SetStatus(assem.id, ErrorStackDeleteFailed, None)];
    GetCallsAppend(a, b);
    assert r.events == a + b;
  }

  lemma DeleteScheduleEvents(stackId: string, from: nat, to: nat)
    requires from <= to
    ensures forall k :: 0 <= k < |DeleteSchedule(stackId, from, to)| ==>
      DeleteSchedule(stackId, from, to)[k].StackGet? || DeleteSchedule(stackId, from, to)[k].Sleep?
  {
  }

  lemma {:induction false} DeleteScheduleGets(stackId: string, i: nat, n: nat)
    requires i <= n
    ensures GetCalls(DeleteSchedule(stackId, i, n)) == n - i
    decreases n - i
  {
    if i < n {
      DeleteScheduleCons(stackId, i, n);
      DeleteScheduleGets(stackId, i + 1, n);
      var s := DeleteSchedule(stackId, i, n);
      assert s[1..][1..] == DeleteSchedule(stackId, i + 1, n);
    }
  }

  /** The delete loop checks before it waits, where the create poll waits
      before it fetches: two pending answers give check, wait, check,
      wait, then ERROR_STACK_DELETE_FAILED. */
  lemma ChecksBeforeWaiting(assemblyId: nat, stackId: string)
    ensures DestroyLoop(assemblyId, stackId, [Status("DELETE_IN_PROGRESS"), Missing], 2, 0)
      == Run([StackGet(stackId), Sleep(Backoff(0)), StackGet(stackId), Sleep(Backoff(1)),
              SetStatus(assemblyId, ErrorStackDeleteFailed, None)], false)
  {
  }

  /** The assembly a destroy leaves behind is settled: removed, or marked
      ERROR_STACK_DELETE_FAILED. */
  predicate SettledIn(events: seq<Event>, assemblyId: nat)
  {
    DestroyAssemblyRecord(assemblyId) in events
    || SetStatus(assemblyId, ErrorStackDeleteFailed, None) in events
  }

  /** A destroy that does not raise settles its assembly, and every event
      of it that is about an assembly is about this one. */
  lemma DestroyAssemblySettles(assem: Assembly, maxAttempts: nat, checks: seq<DeleteCheck>)
    requires maxAttempts <= |checks|
    ensures var r := DestroyAssembly(assem, maxAttempts, checks);
      && (!r.crashed ==> SettledIn(r.events, assem.id))
      && (forall k :: 0 <= k < |r.events| && AssemblyOf(r.events[k]).Some? ==>
            AssemblyOf(r.events[k]).value == assem.id)
      && DestroyPlanRecord(assem.planId) !in r.events
  {
    if assem.component.Some? {
      var stackId := assem.component.value.stackId;
      var first := FirstDecisive(checks, maxAttempts);
      DestroyLoopOutcome(assem.id, stackId, checks, maxAttempts, 0);
      var to := if first.Some? then first.value else maxAttempts;
      DeleteScheduleEvents(stackId, 0, to);
    }
  }

  /** An assembly belongs to the plan being destroyed. */
  predicate OfPlan(planId: nat, assemblies: seq<Assembly>, assemblyId: nat)
  {
    exists j :: 0 <= j < |assemblies| && assemblies[j].planId == planId && assemblies[j].id == assemblyId
  }

  lemma {:induction false} DestroyFromFacts(planId: nat, assemblies: seq<Assembly>, scripts: seq<seq<DeleteCheck>>,
                                            maxAttempts: nat, i: nat)
    requires ScriptsCover(assemblies, scripts, maxAttempts) && i <= |assemblies|
    ensures var r := DestroyFrom(planId, assemblies, scripts, maxAttempts, i);
      && (!r.crashed ==> forall j :: i <= j < |assemblies| && assemblies[j].planId == planId ==>
                           SettledIn(r.events, assemblies[j].id))
      && (forall k :: 0 <= k < |r.events| && AssemblyOf(r.events[k]).Some? ==>
            OfPlan(planId, assemblies, AssemblyOf(r.events[k]).value))
      && DestroyPlanRecord(planId) !in r.events
    decreases |assemblies| - i
  {
    if i < |assemblies| {
      DestroyFromFacts(planId, assemblies, scripts, maxAttempts, i + 1);
      if assemblies[i].planId == planId {
        var one := DestroyAssembly(assemblies[i], maxAttempts, scripts[i]);
        DestroyAssemblySettles(assemblies[i], maxAttempts, scripts[i]);
        var rest := DestroyFrom(planId, assemblies, scripts, maxAttempts, i + 1);
        var r := DestroyFrom(planId, assemblies, scripts, maxAttempts, i);
        forall k | 0 <= k < |r.events| && AssemblyOf(r.events[k]).Some?
          ensures OfPlan(planId, assemblies, AssemblyOf(r.events[k]).value)
        {
          if k < |one.events| {
            assert r.events[k] == one.events[k];
            assert assemblies[i].planId == planId;
          } else {
            assert r.events[k] == rest.events[k - |one.events|];
          }
        }
      }
    }
  }

  /** `destroy_app`: when no check raises, every assembly of the plan is
      settled before the plan record is destroyed, as the very last step;
      events about assemblies only concern the plan's assemblies; an
      exception leaves the plan record in place. */
  lemma DestroyAppOrder(planId: nat, assemblies: seq<Assembly>, scripts: seq<seq<DeleteCheck>>, maxAttempts: nat)
    requires ScriptsCover(assemblies, scripts, maxAttempts)
    ensures var r := DestroyApp(planId, assemblies, scripts, maxAttempts);
      && (!r.crashed ==>
            && r.events[|r.events| - 1] == DestroyPlanRecord(planId)
            && DestroyPlanRecord(planId) !in r.events[..|r.events| - 1]
            && forall j :: 0 <= j < |assemblies| && assemblies[j].planId == planId ==>
                 SettledIn(r.events[..|r.events| - 1], assemblies[j].id))
      && (r.crashed ==> DestroyPlanRecord(planId) !in r.events)
      && (forall k :: 0 <= k < |r.events| && AssemblyOf(r.events[k]).Some? ==>
            OfPlan(planId, assemblies, AssemblyOf(r.events[k]).value))
  {
    DestroyFromFacts(planId, assemblies, scripts, maxAttempts, 0);
    var all := DestroyFrom(planId, assemblies, scripts, maxAttempts, 0);
    var r := DestroyApp(planId, assemblies, scripts, maxAttempts);
    if !all.crashed {
      assert r.events[..|r.events| - 1] == all.events;
    }
  }
}

=== FILE: heat_events.dfy ===
/** What the deployer does that someone else can observe, in order: status
    updates sent to the conductor, calls to the orchestration service,
    waits, reachability checks and record removals. */
module HeatEvents {
  import opened Common
  import opened States

  /** A wait: `Backoff(k)` lasts `wait_interval * growth_factor^k` seconds,
      `Seconds(n)` lasts `n` seconds. */
  datatype Wait = Backoff(step: nat) | Seconds(n: nat)

  /** The template submitted to the orchestration service: the catalog
      entry it came from and, when the deployer rewrote it, the run script
      now held in `user_data.str_replace.template` of the compute instance
      (nothing else in the template is changed). */
  datatype Template = Template(flavor: string, runScript: Option<string>)

  /** Stack parameters. For 'docker' images the network parameters are
      merged over `app_name` and `image`; for 'vm' images they are fixed. */
  datatype Parameters =
    | DockerParameters(values: map<string, string>)
    | VmParameters(name: string, count: nat, flavor: string, image: string)

  datatype Event =
    | SetStatus(assembly: nat, status: AssemblyState, uri: Option<string>)
    | StackCreate(name: string, template: Template, parameters: Parameters)
    | StackUpdate(stackId: string, name: string, template: Template, parameters: Parameters)
    | StackGet(stackId: string)
    | StackDelete(stackId: string)
    | Sleep(wait: Wait)
    | CheckReachable(url: string)
    | CreateComponent(assembly: nat, stackId: string)
    | DestroyAssemblyRecord(assembly: nat)
    | DestroyPlanRecord(plan: nat)

  /** The events of one handler call, and whether it ended with an
      exception the handler does not catch. */
  datatype Run = Run(events: seq<Event>, crashed: bool)

  predicate IsSubmission(e: Event)
  {
    e.StackCreate? || e.StackUpdate?
  }

  /** The assembly an event is about, if any. */
  function AssemblyOf(e: Event): Option<nat>
  {
    match e
    case SetStatus(a, _, _) => Some(a)
    case CreateComponent(a, _) => Some(a)
    case DestroyAssemblyRecord(a) => Some(a)
    case _ => None
  }

  /** The statuses reported in a trace, in order. */
  function Statuses(events: seq<Event>): (r: seq<AssemblyState>)
    ensures |r| <= |events|
    ensures (forall k :: 0 <= k < |events| ==> !events[k].SetStatus?) ==> r == []
  {
    if |events| == 0 then []
    else (if events[0].SetStatus? then [events[0].status] else []) + Statuses(events[1..])
  }

  lemma {:induction false} StatusesAppend(a: seq<Event>, b: seq<Event>)
    ensures Statuses(a + b) == Statuses(a) + Statuses(b)
    decreases |a|
  {
    if |a| > 0 {
      assert (a + b)[1..] == a[1..] + b;
      StatusesAppend(a[1..], b);
    } else {
      assert a + b == b;
    }
  }

  /** A trace without status updates reports no status. */
  lemma {:induction false} NoStatuses(events: seq<Event>)
    requires forall k :: 0 <= k < |events| ==> !events[k].SetStatus?
    ensures Statuses(events) == []
    decreases |events|
  {
    if |events| > 0 {
      NoStatuses(events[1..]);
    }
  }

  /** The length of `Seconds`/`Backoff` waits given the configured initial
      interval `w` and growth factor `g`. */
  ghost function WaitSeconds(w: real, g: real, wait: Wait): real
  {
    match wait
    case Seconds(n) => n as real
    case Backoff(k) => w * Power(g, k)
  }

  ghost function Power(g: real, k: nat): real
  {
    if k == 0 then 1.0 else g * Power(g, k - 1)
  }

  /** With a growth factor of at least 1 the backoff waits never shrink. */
  lemma {:induction false} BackoffNeverShrinks(w: real, g: real, k: nat)
    requires w >= 0.0 && g >= 1.0
    ensures WaitSeconds(w, g, Backoff(k)) <= WaitSeconds(w, g, Backoff(k + 1))
  {
    PowerAtLeastOne(g, k);
    assert Power(g, k + 1) == g * Power(g, k);
    assert Power(g, k) <= g * Power(g, k);
  }

  lemma {:induction false} PowerAtLeastOne(g: real, k: nat)
    requires g >= 1.0
    ensures Power(g, k) >= 1.0
  {
    if k > 0 {
      PowerAtLeastOne(g, k - 1);
    }
  }
}

=== FILE: heat_poll.dfy ===
/** The convergence poll of `_check_stack_status`: up to `max_attempts`
    times, wait (the wait grows by `growth_factor` each attempt), then fetch
    the stack; stop at 'COMPLETE' or 'FAILED'. A fetch that raises uses up
    the attempt and polling goes on. */
module HeatPoll {
  import opened Common
  import opened HeatEvents

  /** The `outputs` of a fetched stack: no 'outputs' key at all, or the
      list of output values (`None` for a null value). */
  datatype Outputs = NoOutputs | OutputValues(values: seq<Option<string>>)

  /** The part of a fetched stack the deployer reads. */
  datatype StackView = StackView(status: string, outputs: Outputs)

  /** The answer to one `stacks.get` call. */
  datatype GetOutcome = GetRaised | GetReturned(stack: StackView)

  /** An answer that ends the poll early. */
  predicate Terminal(o: GetOutcome)
  {
    o.GetReturned? && (o.stack.status == "COMPLETE" || o.stack.status == "FAILED")
  }

  predicate FailedAnswer(o: GetOutcome)
  {
    o.GetReturned? && o.stack.status == "FAILED"
  }

  /** The stack held by the variable `stack` after the given answers: the
      most recent one that did not raise, or `None` when all raised. */
  function LastFetched(gets: seq<GetOutcome>): Option<StackView>
  {
    if |gets| == 0 then None
    else if gets[|gets| - 1].GetReturned? then Some(gets[|gets| - 1].stack)
    else LastFetched(gets[..|gets| - 1])
  }

  /** The reference schedule of attempts `from` up to `to`: attempt `k`
      waits `wait_interval * growth_factor^k` and then fetches the stack. */
  function Schedule(stackId: string, from: nat, to: nat): (r: seq<Event>)
    requires from <= to
    ensures |r| == 2 * (to - from)
  {
    seq(2 * (to - from), k requires 0 <= k < 2 * (to - from) =>
      if k % 2 == 0 then Sleep(Backoff(from + k / 2)) else StackGet(stackId))
  }

  /** How the loop was left: a 'FAILED' stack (the caller reports and
      returns at once), or otherwise (a 'COMPLETE' stack or no attempts
      left) with the last stack fetched, if any. */
  datatype Verdict = StackFailed | Settled(last: Option<StackView>)

  datatype PollResult = PollResult(events: seq<Event>, attempts: nat, verdict: Verdict)

  /** The loop from attempt `i` on, `last` being the stack fetched so far. */
  function PollFrom(stackId: string, gets: seq<GetOutcome>, maxAttempts: nat, i: nat, last: Option<StackView>)
    : (r: PollResult)
    requires i <= maxAttempts <= |gets|
    requires last == LastFetched(gets[..i])
    requires forall j :: 0 <= j < i ==> !Terminal(gets[j])
    ensures i <= r.attempts <= maxAttempts
    ensures r.events == Schedule(stackId, i, r.attempts)
    ensures forall j :: 0 <= j < r.attempts - 1 ==> !Terminal(gets[j])
    ensures r.attempts < maxAttempts ==> i < r.attempts && Terminal(gets[r.attempts - 1])
    ensures r.verdict.StackFailed? <==> i < r.attempts && FailedAnswer(gets[r.attempts - 1])
    ensures r.verdict.Settled? ==> r.verdict.last == LastFetched(gets[..r.attempts])
    decreases maxAttempts - i
  {
    if i == maxAttempts then
      PollResult([], i, Settled(last))
    else
      var attempt := [Sleep(Backoff(i)), StackGet(stackId)];
      assert gets[..i + 1][..i] == gets[..i];
      ScheduleCons(stackId, i, i + 1);
      match gets[i]
      case GetRaised =>
        var rest := PollFrom(stackId, gets, maxAttempts, i + 1, last);
        ScheduleCons(stackId, i, rest.attempts);
        PollResult(attempt + rest.events, rest.attempts, rest.verdict)
      case GetReturned(stack) =>
        if stack.status == "COMPLETE" then
          PollResult(attempt, i + 1, Settled(Some(stack)))
        else if stack.status == "FAILED" then
          PollResult(attempt, i + 1, StackFailed)
        else
          var rest := PollFrom(stackId, gets, maxAttempts, i + 1, Some(stack));
          ScheduleCons(stackId, i, rest.attempts);
          PollResult(attempt + rest.events, rest.attempts, rest.verdict)
  }

  /** The whole loop. At most `maxAttempts` fetches are made, each after its
      wait; the poll stops early only on a 'COMPLETE' or 'FAILED' answer;
      `StackFailed` exactly when the last answer was 'FAILED'; otherwise the
      last stack fetched is handed on. */
  function Poll(stackId: string, gets: seq<GetOutcome>, maxAttempts: nat): (r: PollResult)
    requires maxAttempts <= |gets|
    ensures r.attempts <= maxAttempts
    ensures r.events == Schedule(stackId, 0, r.attempts)
    ensures forall j :: 0 <= j < r.attempts - 1 ==> !Terminal(gets[j])
    ensures r.attempts < maxAttempts ==> 0 < r.attempts && Terminal(gets[r.attempts - 1])
    ensures r.verdict.StackFailed? <==> 0 < r.attempts && FailedAnswer(gets[r.attempts - 1])
    ensures r.verdict.Settled? ==> r.verdict.last == LastFetched(gets[..r.attempts])
  {
    assert gets[..0] == [];
    PollFrom(stackId, gets, maxAttempts, 0, None)
  }

  /** Number of `stacks.get` calls in a trace. */
  function GetCalls(events: seq<Event>): nat
  {
    if |events| == 0 then 0
    else (if events[0].StackGet? then 1 else 0) + GetCalls(events[1..])
  }

  // ---------------------------------------------------------------------
  // Lemmas

  lemma ScheduleCons(stackId: string, i: nat, n: nat)
    requires i < n
    ensures [Sleep(Backoff(i)), StackGet(stackId)] + Schedule(stackId, i + 1, n) == Schedule(stackId, i, n)
  {
    var a := [Sleep(Backoff(i)), StackGet(stackId)] + Schedule(stackId, i + 1, n);
    var b := Schedule(stackId, i, n);
    forall k | 2 <= k < |b|
      ensures a[k] == b[k]
    {
      assert a[k] == Schedule(stackId, i + 1, n)[k - 2];
      assert (k - 2) / 2 == k / 2 - 1;
      assert (k - 2) % 2 == k % 2;
    }
  }

  /** The poll makes exactly one `stacks.get` call per attempt, so never
      more than `max_attempts`, and attempt `k` (counting from 1) waits
      `wait_interval * growth_factor^(k-1)` before its call. */
  lemma PollCallsAndWaits(stackId: string, gets: seq<GetOutcome>, maxAttempts: nat)
    requires maxAttempts <= |gets|
    ensures GetCalls(Poll(stackId, gets, maxAttempts).events) == Poll(stackId, gets, maxAttempts).attempts <= maxAttempts
    ensures forall k :: 1 <= k <= Poll(stackId, gets, maxAttempts).attempts ==>
      Poll(stackId, gets, maxAttempts).events[2 * k - 2] == Sleep(Backoff(k - 1))
      && Poll(stackId, gets, maxAttempts).events[2 * k - 1] == StackGet(stackId)
  {
    var r := Poll(stackId, gets, maxAttempts);
    ScheduleGets(stackId, 0, r.attempts);
    forall k | 1 <= k <= r.attempts
      ensures r.events[2 * k - 2] == Sleep(Backoff(k - 1)) && r.events[2 * k - 1] == StackGet(stackId)
    {
      assert (2 * k - 2) / 2 == k - 1 && (2 * k - 2) % 2 == 0;
      assert (2 * k - 1) % 2 == 1;
    }
  }

  lemma {:induction false} ScheduleGets(stackId: string, i: nat, n: nat)
    requires i <= n
    ensures GetCalls(Schedule(stackId, i, n)) == n - i
    decreases n - i
  {
    if i < n {
      ScheduleCons(stackId, i, n);
      ScheduleGets(stackId, i + 1, n);
      var s := Schedule(stackId, i, n);
      assert s[1..][1..] == Schedule(stackId, i + 1, n);
    }
  }

  /** A 'FAILED' answer stops the poll at once, whatever budget is left,
      provided no earlier answer was terminal. */
  lemma FailedStopsPoll(stackId: string, gets: seq<GetOutcome>, maxAttempts: nat, k: nat)
    requires maxAttempts <= |gets| && k < maxAttempts
    requires FailedAnswer(gets[k])
    requires forall j :: 0 <= j < k ==> !Terminal(gets[j])
    ensures Poll(stackId, gets, maxAttempts).attempts == k + 1
    ensures Poll(stackId, gets, maxAttempts).verdict == StackFailed
  {
    var r := Poll(stackId, gets, maxAttempts);
    assert Terminal(gets[k]);
  }

  /** Answers that never end the poll use the whole budget; the last stack
      fetched is handed on. */
  lemma PendingUsesBudget(stackId: string, gets: seq<GetOutcome>, maxAttempts: nat)
    requires maxAttempts <= |gets|
    requires forall j :: 0 <= j < maxAttempts ==> !Terminal(gets[j])
    ensures Poll(stackId, gets, maxAttempts).attempts == maxAttempts
    ensures Poll(stackId, gets, maxAttempts).verdict == Settled(LastFetched(gets[..maxAttempts]))
  {
    var r := Poll(stackId, gets, maxAttempts);
  }

  /** The worked example: three attempts, growth factor 2, three pending
      answers: waits of 1, 2 and 4 seconds, then exactly three fetches. */
  lemma ThreePendingAnswers(stackId: string, pending: StackView)
    requires pending.status == "IN_PROGRESS"
    ensures var r := Poll(stackId, [GetReturned(pending), GetReturned(pending), GetReturned(pending)], 3);
      && r.events == [Sleep(Backoff(0)), StackGet(stackId), Sleep(Backoff(1)), StackGet(stackId),
                      Sleep(Backoff(2)), StackGet(stackId)]
      && r.verdict == Settled(Some(pending))
      && WaitSeconds(1.0, 2.0, Backoff(0)) == 1.0
      && WaitSeconds(1.0, 2.0, Backoff(1)) == 2.0
      && WaitSeconds(1.0, 2.0, Backoff(2)) == 4.0
  {
    var gets := [GetReturned(pending), GetReturned(pending), GetReturned(pending)];
    PendingUsesBudget(stackId, gets, 3);
    assert gets[..3] == gets;
    var r := Poll(stackId, gets, 3);
    assert r.events == Schedule(stackId, 0, 3);
  }
}

=== FILE: heat_probe.dfy ===
/** The readiness probe of `_check_stack_status`: up to `du_attempts`
    times, stop with success once every port has answered; otherwise wait
    one second and check `http://<host>:<port>` for the first port that has
    not answered yet. Only a reachable answer moves on to the next port. */
module HeatProbe {
  import opened Common
  import opened Strings
  import opened HeatEvents

  /** The outcome of one `is_reachable` call: true, false, a socket
      timeout, an httplib2 or socket error, or any other exception. */
  datatype ProbeOutcome = Reachable | NotReachable | TimedOut | TransportError | OtherError

  /** How probing ended: every port answered with attempts to spare, the
      attempts ran out, or another exception aborted the deploy. */
  datatype ProbeEnd = AllUp | Exhausted | Aborted

  datatype ProbeResult = ProbeResult(events: seq<Event>, calls: nat, drained: nat, end: ProbeEnd)

  /** `'http://{host}:{port}'`. */
  function DuUrl(host: string, port: nat): string
  {
    "http://" + host + ":" + NatToString(port)
  }

  /** The number of reachable answers among the given ones. */
  function Drained(probes: seq<ProbeOutcome>): (n: nat)
    ensures n <= |probes|
  {
    if |probes| == 0 then 0
    else Drained(probes[..|probes| - 1]) + (if probes[|probes| - 1] == Reachable then 1 else 0)
  }

  /** The loop from iteration `count` on, with port index `idx`. */
  function ProbeFrom(host: string, ports: seq<nat>, duAttempts: nat, probes: seq<ProbeOutcome>,
                     count: nat, idx: nat): (r: ProbeResult)
    requires count <= duAttempts <= |probes|
    ensures count <= r.calls <= duAttempts
    ensures |r.events| == 2 * (r.calls - count)
    ensures r.end == Exhausted ==> r.calls == duAttempts
    ensures r.end == AllUp ==> r.calls < duAttempts && r.drained >= |ports|
    decreases duAttempts - count
  {
    if count == duAttempts then ProbeResult([], count, idx, Exhausted)
    else if idx > |ports| - 1 then ProbeResult([], count, idx, AllUp)
    else
      var step := [Sleep(Seconds(1)), CheckReachable(DuUrl(host, ports[idx]))];
      match probes[count]
      case Reachable =>
        var rest := ProbeFrom(host, ports, duAttempts, probes, count + 1, idx + 1);
        ProbeResult(step + rest.events, rest.calls, rest.drained, rest.end)
      case OtherError =>
        ProbeResult(step, count + 1, idx, Aborted)
      case _ =>
        var rest := ProbeFrom(host, ports, duAttempts, probes, count + 1, idx);
        ProbeResult(step + rest.events, rest.calls, rest.drained, rest.end)
  }

  /** The whole probe, starting at the first port. */
  function Probe(host: string, ports: seq<nat>, duAttempts: nat, probes: seq<ProbeOutcome>): (r: ProbeResult)
    requires duAttempts <= |probes|
    ensures r.calls <= duAttempts
    ensures |r.events| == 2 * r.calls
    ensures forall c :: 0 <= c < r.calls ==>
      r.events[2 * c] == Sleep(Seconds(1)) && r.events[2 * c + 1].CheckReachable?
    ensures r.end == Exhausted ==> r.calls == duAttempts
    ensures r.end == AllUp ==> r.calls < duAttempts && r.drained >= |ports|
  {
    ProbeFromPairs(host, ports, duAttempts, probes);
    ProbeFrom(host, ports, duAttempts, probes, 0, 0)
  }

  // ---------------------------------------------------------------------
  // Lemmas

  /** Every call of the probe is a one-second wait followed by a check. */
  lemma ProbeFromPairs(host: string, ports: seq<nat>, duAttempts: nat, probes: seq<ProbeOutcome>)
    requires duAttempts <= |probes|
    ensures var r := ProbeFrom(host, ports, duAttempts, probes, 0, 0);
      forall c :: 0 <= c < r.calls ==>
        r.events[2 * c] == Sleep(Seconds(1)) && r.events[2 * c + 1].CheckReachable?
  {
    assert probes[..0] == [];
    ProbeFromEvents(host, ports, duAttempts, probes, 0, 0);
    var r := ProbeFrom(host, ports, duAttempts, probes, 0, 0);
    forall c | 0 <= c < r.calls
      ensures r.events[2 * c] == Sleep(Seconds(1)) && r.events[2 * c + 1].CheckReachable?
    {
      ProbeTraceAt(host, ports, probes, 0, r.calls, c);
    }
  }

  /** The loop invariant of the probe, from iteration `count` on: the port
      index is the number of reachable answers so far and never passes the
      last port; the probe succeeds exactly when all ports have answered
      before the attempts run out, and aborts exactly on an "other"
      exception. */
  lemma ProbeFromOutcome(host: string, ports: seq<nat>, duAttempts: nat,
                         probes: seq<ProbeOutcome>, count: nat, idx: nat)
    requires count <= duAttempts <= |probes|
    requires idx == Drained(probes[..count]) && idx <= |ports|
    requires forall c :: 0 <= c < count ==> probes[c] != OtherError
    ensures var r := ProbeFrom(host, ports, duAttempts, probes, count, idx);
      && r.drained == Drained(probes[..r.calls]) && r.drained <= |ports|
      && (forall c :: count <= c < r.calls ==> Drained(probes[..c]) < |ports|)
      && (r.end == Aborted <==> count < r.calls && probes[r.calls - 1] == OtherError)
      && (forall c :: 0 <= c < r.calls - 1 ==> probes[c] != OtherError)
      && (r.end == AllUp <==> r.drained == |ports| && r.calls < duAttempts)
      && (r.end == Exhausted ==> r.calls == duAttempts)
  {
    ProbeFromDrained(host, ports, duAttempts, probes, count, idx);
    ProbeFromAbort(host, ports, duAttempts, probes, count, idx);
    ProbeFromEnd(host, ports, duAttempts, probes, count, idx);
  }

  /** The port index counts the reachable answers, and every call is made
      while some port has not answered. */
  lemma {:induction false} ProbeFromDrained(host: string, ports: seq<nat>, duAttempts: nat,
                                            probes: seq<ProbeOutcome>, count: nat, idx: nat)
    requires count <= duAttempts <= |probes|
    requires idx == Drained(probes[..count]) && idx <= |ports|
    ensures var r := ProbeFrom(host, ports, duAttempts, probes, count, idx);
      && r.drained == Drained(probes[..r.calls]) && r.drained <= |ports|
      && (forall c :: count <= c < r.calls ==> Drained(probes[..c]) < |ports|)
    decreases duAttempts - count
  {
    if count < duAttempts && idx <= |ports| - 1 {
      assert probes[..count + 1][..count] == probes[..count];
      if probes[count] != OtherError {
        var idx' := if probes[count] == Reachable then idx + 1 else idx;
        ProbeFromDrained(host, ports, duAttempts, probes, count + 1, idx');
      }
    }
  }

  /** The probe aborts exactly on an "other" exception, which is then its
      last call. */
  lemma {:induction false} ProbeFromAbort(host: string, ports: seq<nat>, duAttempts: nat,
                                          probes: seq<ProbeOutcome>, count: nat, idx: nat)
    requires count <= duAttempts <= |probes|
    requires forall c :: 0 <= c < count ==> probes[c] != OtherError
    ensures var r := ProbeFrom(host, ports, duAttempts, probes, count, idx);
      && (r.end == Aborted <==> count < r.calls && probes[r.calls - 1] == OtherError)
      && (forall c :: 0 <= c < r.calls - 1 ==> probes[c] != OtherError)
    decreases duAttempts - count
  {
    if count < duAttempts && idx <= |ports| - 1 && probes[count] != OtherError {
      var idx' := if probes[count] == Reachable then idx + 1 else idx;
      ProbeFromAbort(host, ports, duAttempts, probes, count + 1, idx');
    }
  }

  /** The probe succeeds exactly when every port has answered with
      attempts to spare; otherwise it used them all or aborted. */
  lemma {:induction false} ProbeFromEnd(host: string, ports: seq<nat>, duAttempts: nat,
                                        probes: seq<ProbeOutcome>, count: nat, idx: nat)
    requires count <= duAttempts <= |probes|
    requires idx <= |ports|
    ensures var r := ProbeFrom(host, ports, duAttempts, probes, count, idx);
      && r.drained <= |ports|
      && (r.end == Aborted ==> r.drained < |ports|)
      && (r.end == AllUp <==> r.drained == |ports| && r.calls < duAttempts)
      && (r.end == Exhausted ==> r.calls == duAttempts)
    decreases duAttempts - count
  {
    if count < duAttempts && idx <= |ports| - 1 && probes[count] != OtherError {
      var idx' := if probes[count] == Reachable then idx + 1 else idx;
      ProbeFromEnd(host, ports, duAttempts, probes, count + 1, idx');
    }
  }

  /** The reference trace of calls `from` up to `to`: call `c` waits one
      second and checks the port whose index is the number of reachable
      answers before it. */
  function ProbeTrace(host: string, ports: seq<nat>, probes: seq<ProbeOutcome>, from: nat, to: nat)
    : (r: seq<Event>)
    requires from <= to <= |probes|
    requires forall c :: from <= c < to ==> Drained(probes[..c]) < |ports|
    ensures |r| == 2 * (to - from)
    decreases |probes| - from
  {
    if from == to then []
    else
      var call := [Sleep(Seconds(1)), CheckReachable(DuUrl(host, ports[Drained(probes[..from])]))];
      call + ProbeTrace(host, ports, probes, from + 1, to)
  }

  /** The calls of the probe from iteration `count` on follow the
      reference trace, so ports are drained strictly in order. */
  lemma {:induction false} ProbeFromEvents(host: string, ports: seq<nat>, duAttempts: nat,
                                           probes: seq<ProbeOutcome>, count: nat, idx: nat)
    requires count <= duAttempts <= |probes|
    requires idx == Drained(probes[..count]) && idx <= |ports|
    ensures forall c :: count <= c < ProbeFrom(host, ports, duAttempts, probes, count, idx).calls ==>
      Drained(probes[..c]) < |ports|
    ensures ProbeFrom(host, ports, duAttempts, probes, count, idx).events
      == ProbeTrace(host, ports, probes, count, ProbeFrom(host, ports, duAttempts, probes, count, idx).calls)
    decreases duAttempts - count
  {
    if count < duAttempts && idx <= |ports| - 1 && probes[count] != OtherError {
      assert probes[..count + 1][..count] == probes[..count];
      var idx' := if probes[count] == Reachable then idx + 1 else idx;
      ProbeFromEvents(host, ports, duAttempts, probes, count + 1, idx');
    }
  }

  /** Call `c` of a reference trace, read off by index. */
  lemma {:induction false} ProbeTraceAt(host: string, ports: seq<nat>, probes: seq<ProbeOutcome>,
                                        from: nat, to: nat, c: nat)
    requires from <= c < to <= |probes|
    requires forall d :: from <= d < to ==> Drained(probes[..d]) < |ports|
    ensures ProbeTrace(host, ports, probes, from, to)[2 * (c - from)] == Sleep(Seconds(1))
    ensures ProbeTrace(host, ports, probes, from, to)[2 * (c - from) + 1]
      == CheckReachable(DuUrl(host, ports[Drained(probes[..c])]))
    decreases c - from
  {
    if c > from {
      ProbeTraceAt(host, ports, probes, from + 1, to, c);
    }
  }

  /** The probe as a whole, starting at the first port: see
      `ProbeFromOutcome` and `ProbeFromEvents`. */
  lemma ProbeFacts(host: string, ports: seq<nat>, duAttempts: nat, probes: seq<ProbeOutcome>)
    requires duAttempts <= |probes|
    ensures var r := Probe(host, ports, duAttempts, probes);
      && r.drained == Drained(probes[..r.calls]) && r.drained <= |ports|
      && |r.events| == 2 * r.calls
      && (forall c :: 0 <= c < r.calls ==>
            && Drained(probes[..c]) < |ports|
            && r.events[2 * c] == Sleep(Seconds(1))
            && r.events[2 * c + 1] == CheckReachable(DuUrl(host, ports[Drained(probes[..c])])))
      && (r.end == Aborted <==> 0 < r.calls && probes[r.calls - 1] == OtherError)
      && (forall c :: 0 <= c < r.calls - 1 ==> probes[c] != OtherError)
      && (r.end == AllUp <==> r.drained == |ports| && r.calls < duAttempts)
      && (r.end == Exhausted ==> r.calls == duAttempts)
  {
    assert probes[..0] == [];
    ProbeFromOutcome(host, ports, duAttempts, probes, 0, 0);
    ProbeFromEvents(host, ports, duAttempts, probes, 0, 0);
    var r := Probe(host, ports, duAttempts, probes);
    forall c | 0 <= c < r.calls
      ensures r.events[2 * c] == Sleep(Seconds(1))
      ensures r.events[2 * c + 1] == CheckReachable(DuUrl(host, ports[Drained(probes[..c])]))
    {
      ProbeTraceAt(host, ports, probes, 0, r.calls, c);
    }
  }

  /** Success needs more attempts than ports: the last port must answer
      before the final iteration, which is the one that notices. */
  lemma SuccessNeedsSpareAttempt(host: string, ports: seq<nat>, duAttempts: nat, probes: seq<ProbeOutcome>)
    requires duAttempts <= |probes|
    requires Probe(host, ports, duAttempts, probes).end == AllUp
    ensures |ports| < duAttempts
  {
    ProbeFacts(host, ports, duAttempts, probes);
  }

  /** When every answer is reachable and there are more attempts than
      ports, the probe succeeds after exactly one call per port. */
  lemma AllReachableSucceeds(host: string, ports: seq<nat>, duAttempts: nat, probes: seq<ProbeOutcome>)
    requires duAttempts <= |probes| && |ports| < duAttempts
    requires forall c :: 0 <= c < duAttempts ==> probes[c] == Reachable
    ensures Probe(host, ports, duAttempts, probes).end == AllUp
    ensures Probe(host, ports, duAttempts, probes).calls == |ports|
  {
    var r := Probe(host, ports, duAttempts, probes);
    ProbeFacts(host, ports, duAttempts, probes);
    AllReachableDrained(probes[..r.calls]);
    AllReachableDrained(probes[..duAttempts]);
  }

  lemma {:induction false} AllReachableDrained(probes: seq<ProbeOutcome>)
    requires forall c :: 0 <= c < |probes| ==> probes[c] == Reachable
    ensures Drained(probes) == |probes|
  {
    if |probes| > 0 {
      AllReachableDrained(probes[..|probes| - 1]);
    }
  }

  /** Ports are drained strictly left to right: with ports 80 and 443, an
      unreachable first answer re-checks port 80, and port 443 is checked
      only after port 80 has answered. */
  lemma DrainsLeftToRight(host: string)
    ensures var r := Probe(host, [80, 443], 5, [NotReachable, Reachable, TimedOut, Reachable, Reachable]);
      && r.end == AllUp
      && r.events == [Sleep(Seconds(1)), CheckReachable(DuUrl(host, 80)),
                      Sleep(Seconds(1)), CheckReachable(DuUrl(host, 80)),
                      Sleep(Seconds(1)), CheckReachable(DuUrl(host, 443)),
                      Sleep(Seconds(1)), CheckReachable(DuUrl(host, 443))]
  {
  }
}

=== FILE: heat_templates.dfy ===
/** The pure helpers of the Heat deployer: the stack name, and the run
    script the deployer writes into a 'vm' template for an image held in a
    Docker registry or in Swift object storage. */
module HeatTemplates {
  import opened Common
  import opened Strings

  /** How many characters of the assembly name a stack name keeps (Heat
      caps stack names at 255 characters). */
  const StackNamePrefixLen: nat := 100

  /** The separator the worker places between a Swift image location and
      the application name. */
  const AppNameMarker: string := "APP_NAME="

  const ScriptHeader: string := "#!/bin/bash -x\n# Invoke the container\n"

  /** `_get_stack_name`: at most the first 100 characters of the assembly
      name, a '-', then the assembly uuid. */
  function StackName(name: string, uuid: string): (r: string)
    ensures |r| == Min(|name|, StackNamePrefixLen) + 1 + |uuid|
    ensures |r| <= StackNamePrefixLen + 1 + |uuid|
    ensures StartsWith(name, r[..|r| - |uuid| - 1])
    ensures r[|r| - |uuid| - 1..] == "-" + uuid
    ensures |name| <= StackNamePrefixLen ==> r == name + "-" + uuid
  {
    name[..Min(|name|, StackNamePrefixLen)] + "-" + uuid
  }

  /** One port's publish flag, `-p P:P`. */
  function PortFlag(p: nat): string
  {
    "-p " + NatToString(p) + ":" + NatToString(p)
  }

  function PortFlags(ports: seq<nat>): (r: seq<string>)
    ensures |r| == |ports|
  {
    seq(|ports|, i requires 0 <= i < |ports| => PortFlag(ports[i]))
  }

  /** The loop that builds `ports_str`: ` -p P:P` appended once per port, in order. */
  function PortsString(ports: seq<nat>): string
  {
    if |ports| == 0 then ""
    else PortsString(ports[..|ports| - 1]) + " " + PortFlag(ports[|ports| - 1])
  }

  /** `docker run {publish_ports} -d {du}` with `publish_ports = ports_str.strip()`. */
  function RunCommand(ports: seq<nat>, du: string): string
  {
    "docker run " + Strip(PortsString(ports)) + " -d " + du
  }

  /** `_get_template_for_docker_reg`: the image is pulled from
      `<registry endpoint>/<assembly uuid>` and run with every port published. */
  function DockerRegRunScript(endpoint: string, uuid: string, ports: seq<nat>): (r: string)
    ensures |ports| == 0 ==> r == ScriptHeader + ("docker run  -d " + (endpoint + "/" + uuid))
    ensures |ports| > 0 ==>
      r == ScriptHeader + ("docker run " + Join(PortFlags(ports), " ") + " -d " + (endpoint + "/" + uuid))
  {
    RunCommandShape(ports, endpoint + "/" + uuid);
    ScriptHeader + RunCommand(ports, endpoint + "/" + uuid)
  }

  /** The split `image_id.split("APP_NAME=")` of `_get_template_for_swift`,
      keeping pieces 0 and 1. `None` stands for the IndexError Python raises
      when the marker is missing. */
  function SplitImageLocation(imageId: string): (r: Option<(string, string)>)
    ensures r.Some? <==> Contains(imageId, AppNameMarker)
    ensures r.Some? ==> !Contains(r.value.0, AppNameMarker) && !Contains(r.value.1, AppNameMarker)
    ensures r.Some? ==> StartsWith(imageId, r.value.0 + AppNameMarker + r.value.1)
    ensures r.Some? ==> imageId == r.value.0 + AppNameMarker + r.value.1
                        || StartsWith(imageId, r.value.0 + AppNameMarker + r.value.1 + AppNameMarker)
  {
    var parts := Split(imageId, AppNameMarker);
    SplitCountContains(imageId, AppNameMarker);
    SplitPiecesFree(imageId, AppNameMarker);
    if |parts| < 2 then None
    else
      SplitPrefix(imageId, AppNameMarker);
      Some((parts[0], parts[1]))
  }

  /** `_get_template_for_swift`: download the image tar from the location,
      load it under the application name, and run it with every port
      published. `None` when the image id carries no application name. */
  function SwiftRunScript(imageId: string, ports: seq<nat>): (r: Option<string>)
    ensures r.Some? <==> Contains(imageId, AppNameMarker)
    ensures r.Some? ==>
      var loc := SplitImageLocation(imageId).value.0;
      var du := SplitImageLocation(imageId).value.1;
      var fetch := "wget \"" + loc + "\" --output-document=" + du + "\n" + "docker load < " + du + "\n";
      && (|ports| == 0 ==> r.value == ScriptHeader + fetch + ("docker run  -d " + du))
      && (|ports| > 0 ==> r.value == ScriptHeader + fetch + ("docker run " + Join(PortFlags(ports), " ") + " -d " + du))
  {
    match SplitImageLocation(imageId)
    case None => None
    case Some((loc, du)) =>
      RunCommandShape(ports, du);
      Some(SwiftScriptFor(loc, du, ports))
  }

  /** The script for a Swift image: fetch it, then run it. */
  function SwiftScriptFor(loc: string, du: string, ports: seq<nat>): string
  {
    ScriptHeader + SwiftFetch(loc, du) + RunCommand(ports, du)
  }

  /** Download the image tar from `loc` into the file `du`, then load it
      into docker from that file. */
  function SwiftFetch(loc: string, du: string): string
  {
    "wget \"" + loc + "\" --output-document=" + du + "\n" + "docker load < " + du + "\n"
  }

  // ---------------------------------------------------------------------
  // Lemmas

  /** The `docker run` line: with no ports the flags vanish and two spaces
      remain; otherwise the flags are separated by single spaces. */
  lemma RunCommandShape(ports: seq<nat>, du: string)
    ensures |ports| == 0 ==> RunCommand(ports, du) == "docker run  -d " + du
    ensures |ports| > 0 ==> RunCommand(ports, du) == "docker run " + Join(PortFlags(ports), " ") + " -d " + du
  {
    PublishedPorts(ports);
  }

  /** After `strip`, the published ports are the port flags separated by
      single spaces: only the leading space of the first flag is removed. */
  lemma PublishedPorts(ports: seq<nat>)
    ensures |ports| == 0 ==> Strip(PortsString(ports)) == ""
    ensures |ports| > 0 ==> Strip(PortsString(ports)) == Join(PortFlags(ports), " ")
  {
    if |ports| == 0 {
      assert PortsString(ports) == "";
      StripSurrounded("", "", "", Whitespace);
      assert "" + "" + "" == "";
    } else {
      var j := Join(PortFlags(ports), " ");
      PortsStringJoin(ports);
      FlagsJoinEnds(ports);
      StripLeadingSpace(j);
    }
  }

  lemma StripLeadingSpace(j: string)
    requires |j| > 0 && j[0] !in Whitespace && j[|j| - 1] !in Whitespace
    ensures Strip(" " + j) == j
  {
    assert " " + j == " " + j + "";
    StripSurrounded(" ", j, "", Whitespace);
  }

  /** The joined flags start with '-' and end with a digit. */
  lemma FlagsJoinEnds(ports: seq<nat>)
    requires |ports| > 0
    ensures |Join(PortFlags(ports), " ")| > 0
    ensures Join(PortFlags(ports), " ")[0] !in Whitespace
    ensures Join(PortFlags(ports), " ")[|Join(PortFlags(ports), " ")| - 1] !in Whitespace
  {
    var flags := PortFlags(ports);
    var j := Join(flags, " ");
    JoinEnds(flags, " ");
    var last := flags[|ports| - 1];
    FlagEnds(ports[|ports| - 1]);
    FlagEnds(ports[0]);
    assert j[|j| - |last|..] == last;
    assert j[|j| - 1] == j[|j| - |last|..][|last| - 1];
    assert j[0] == j[..|flags[0]|][0];
    NotSpace(j[0]);
    NotSpace(j[|j| - 1]);
  }

  lemma NotSpace(c: char)
    requires c == '-' || '0' <= c <= '9'
    ensures c !in Whitespace
  {
  }

  lemma FlagEnds(p: nat)
    ensures var f := PortFlag(p); |f| > 0 && f[0] == '-' && '0' <= f[|f| - 1] <= '9'
  {
    var d := NatToString(p);
    assert PortFlag(p) == "-p " + d + ":" + d;
    assert PortFlag(p)[|PortFlag(p)| - 1] == d[|d| - 1];
  }

  lemma {:induction false} PortsStringJoin(ports: seq<nat>)
    requires |ports| > 0
    ensures PortsString(ports) == " " + Join(PortFlags(ports), " ")
    decreases |ports|
  {
    var init := ports[..|ports| - 1];
    var flags := PortFlags(ports);
    if |init| == 0 {
      assert flags == [PortFlag(ports[0])];
    } else {
      var last := PortFlag(ports[|ports| - 1]);
      var head := Join(PortFlags(init), " ");
      PortsStringJoin(init);
      assert PortsString(ports) == " " + head + " " + last;
      assert flags == PortFlags(init) + [last];
      JoinSnoc(PortFlags(init), last, " ");
      assert Join(flags, " ") == head + " " + last;
      assert " " + head + " " + last == " " + (head + " " + last);
    }
  }

  lemma SplitPrefix(s: string, sep: string)
    requires |sep| > 0 && |Split(s, sep)| >= 2
    ensures StartsWith(s, Split(s, sep)[0] + sep + Split(s, sep)[1])
    ensures s == Split(s, sep)[0] + sep + Split(s, sep)[1]
            || StartsWith(s, Split(s, sep)[0] + sep + Split(s, sep)[1] + sep)
  {
    var parts := Split(s, sep);
    JoinSplit(s, sep);
    JoinSecond(parts, sep);
    HeadShape(s, parts[0] + sep, Join(parts[1..], sep), parts[1], sep);
  }

  /** Joining from the second piece on gives that piece alone, or that
      piece followed by the separator. */
  lemma JoinSecond(parts: seq<string>, sep: string)
    requires |parts| >= 2
    ensures Join(parts[1..], sep) == parts[1] || StartsWith(Join(parts[1..], sep), parts[1] + sep)
  {
    if |parts| > 2 {
      assert parts[1..][1..] == parts[2..];
      PrefixOfConcat(parts[1] + sep, Join(parts[2..], sep));
    }
  }

  lemma HeadShape(s: string, head: string, rest: string, piece: string, sep: string)
    requires s == head + rest
    requires rest == piece || StartsWith(rest, piece + sep)
    ensures StartsWith(s, head + piece)
    ensures s == head + piece || StartsWith(s, head + piece + sep)
  {
    if rest == piece {
      assert s == head + piece + "";
      PrefixOfConcat(head + piece, "");
    } else {
      var after := rest[|piece + sep|..];
      assert rest == piece + sep + after;
      assert s == (head + piece + sep) + after;
      PrefixOfConcat(head + piece + sep, after);
      PrefixOfConcat(head + piece, sep + after);
      assert s == (head + piece) + (sep + after);
    }
  }

}

=== FILE: image_handoff.dfy ===
/** The image id handed from the shell worker to the Heat deployer when
    images are stored in Swift: the worker appends `APP_NAME=<name>` to the
    temporary URL, and the deployer splits the id on `APP_NAME=` to get
    the URL to download and the name to load the image under. */
module ImageHandoff {
  import opened Common
  import opened Strings
  import opened HeatTemplates
  import opened ShellOutput

  /** The last character of the marker, '=', occurs nowhere else in it. */
  lemma MarkerEndsUniquely()
    ensures forall k :: 0 <= k < |AppNameMarker| - 1 ==> AppNameMarker[k] != AppNameMarker[|AppNameMarker| - 1]
  {
  }

  /** Splitting `url + "APP_NAME=" + name` gives back the URL and the name
      when neither contains the marker. */
  lemma SplitNamedLocation(url: string, name: string)
    requires !Contains(url, AppNameMarker) && !Contains(name, AppNameMarker)
    ensures SplitImageLocation(url + AppNameMarker + name) == Some((url, name))
  {
    MarkerEndsUniquely();
    NoStraddle(url, AppNameMarker, name);
    SplitAfter(url, AppNameMarker, name);
    SplitWithout(name, AppNameMarker);
  }

  /** The whole handoff: when the last `created_image_id` line of a Swift
      build is `created_image_id=<url>`, the worker's image id is
      `<url>APP_NAME=<name>`, and the deployer's run script downloads
      exactly `<url>` and loads it as `<name>`, provided neither the URL
      nor the name contains `APP_NAME=` (and the URL does not repeat the
      line prefix). */
  lemma SwiftHandoff(out: string, name: string, url: string, ports: seq<nat>)
    requires LastMatch(Lines(out), CreatedMarker).Some?
    requires Lines(out)[LastMatch(Lines(out), CreatedMarker).value] == CreatedPrefix + url
    requires !Contains(url, CreatedPrefix)
    requires !Contains(url, AppNameMarker) && !Contains(name, AppNameMarker)
    ensures ParseCreatedImageId(out, "swift", name) == Some(url + AppNameMarker + name)
    ensures SplitImageLocation(url + AppNameMarker + name) == Some((url, name))
    ensures SwiftRunScript(url + AppNameMarker + name, ports) == Some(SwiftScriptFor(url, name, ports))
  {
    SwiftIdRead(url, name);
    SplitNamedLocation(url, name);
  }

  /** A URL that itself contains the marker is misread: for a URL
      `a + "APP_NAME=" + b` with `a` and `b` free of the marker, the
      deployer takes `a` as the location and `b` (not the application
      name) as the name. */
  lemma MarkerInUrlMisread(a: string, b: string, name: string)
    requires !Contains(a, AppNameMarker) && !Contains(b, AppNameMarker) && !Contains(name, AppNameMarker)
    ensures SplitImageLocation(a + AppNameMarker + b + AppNameMarker + name) == Some((a, b))
    ensures SplitImageLocation(a + AppNameMarker + b + AppNameMarker + name) != Some((a + AppNameMarker + b, name))
  {
    MarkerEndsUniquely();
    var rest := b + AppNameMarker + name;
    assert a + AppNameMarker + b + AppNameMarker + name == a + AppNameMarker + rest;
    NoStraddle(a, AppNameMarker, rest);
    SplitAfter(a, AppNameMarker, rest);
    NoStraddle(b, AppNameMarker, name);
    SplitAfter(b, AppNameMarker, name);
    SplitWithout(name, AppNameMarker);
  }
}

=== FILE: shell_command.dfy ===
/** `Handler._get_build_command` of the shell worker: which contrib script
    builds, tests or packages an application, and with which arguments. */
module ShellCommand {
  import opened Common

  /** One element of the argument list handed to `Popen`: a string, or a
      Python `None` (an unset language-pack name). */
  datatype Arg = Str(s: string) | NoneArg

  /** The script directory for each known source and image format. */
  const ScriptDirs: map<string, string> := map[
    "heroku" := "lp-cedarish",
    "dib" := "diskimage-builder",
    "dockerfile" := "lp-dockerfile",
    "chef" := "lp-chef",
    "docker" := "docker",
    "qcow2" := "docker",
    "vm" := "docker"]

  /** Every directory name a format can map to. */
  const DirNames: set<string> := {"lp-cedarish", "diskimage-builder", "lp-dockerfile", "lp-chef", "docker"}

  const LanguagePack: string := "language_pack"

  /** `os.path.join` of two components. */
  function PathJoin(a: string, b: string): (r: string)
    ensures |b| > 0 && b[0] != '/' && |a| > 0 && a[|a| - 1] != '/' ==> r == a + "/" + b
  {
    if |b| > 0 && b[0] == '/' then b
    else if |a| == 0 || a[|a| - 1] == '/' then a + b
    else a + "/" + b
  }

  /** A join always ends with `b`; unless `b` is absolute it starts with
      `a`, with at most one '/' added between them. */
  lemma PathJoinShape(a: string, b: string)
    ensures var r := PathJoin(a, b);
      && |r| >= |b| && r[|r| - |b|..] == b
      && (!(|b| > 0 && b[0] == '/') ==> |a| <= |r| <= |a| + 1 + |b| && r[..|a|] == a)
  {
  }

  /** `pathm.get(format, fallback)`: the directory a known format maps to,
      the fallback for any other format. */
  function ScriptDir(format: string, fallback: string): (r: string)
    ensures format in ScriptDirs ==> r == ScriptDirs[format]
    ensures format !in ScriptDirs ==> r == fallback
    ensures fallback in DirNames ==> r in DirNames
  {
    if format in ScriptDirs then ScriptDirs[format] else fallback
  }

  /** The directory for the source format; unknown formats use the
      cedarish language pack. */
  function SourceDir(sourceFormat: string): string
  {
    ScriptDir(sourceFormat, "lp-cedarish")
  }

  /** The sub-directory for the image format; unknown formats use docker. */
  function ImageDir(imageFormat: string): string
  {
    ScriptDir(imageFormat, "docker")
  }

  /** `<proj_dir>/contrib/<source dir>/<image dir>`. */
  function BuildAppPath(projDir: string, sourceFormat: string, imageFormat: string): string
  {
    PathJoin(PathJoin(PathJoin(projDir, "contrib"), SourceDir(sourceFormat)), ImageDir(imageFormat))
  }

  /** The base image actually used: 'auto' with a qcow2 image means the
      cedarish image. */
  function EffectiveBase(baseImageId: string, imageFormat: string): (r: string)
    ensures baseImageId == "auto" && imageFormat == "qcow2" ==> r == "cedarish"
    ensures baseImageId != "auto" || imageFormat != "qcow2" ==> r == baseImageId
  {
    if baseImageId == "auto" && imageFormat == "qcow2" then "cedarish" else baseImageId
  }

  function LpArg(lpName: Option<string>): Arg
  {
    match lpName
    case None => NoneArg
    case Some(n) => Str(n)
  }

  /** `_get_build_command`: the language-pack build whatever the stage,
      else the unit-test or the application build, else nothing (the
      method falls off its end and returns `None`). */
  function BuildCommand(projDir: string, stage: string, sourceUri: string, name: string, tenant: string,
                        baseImageId: string, sourceFormat: string, imageFormat: string, commitSha: string,
                        artifactType: Option<string>, lpName: Option<string>): (r: Option<seq<Arg>>)
    ensures artifactType == Some(LanguagePack) ==>
      r.Some? && |r.value| == 4 && r.value[1] == Str(sourceUri) && r.value[2] == Str(name) && r.value[3] == Str(tenant)
    ensures artifactType != Some(LanguagePack) ==>
      (r.Some? <==> stage == "unittest" || stage == "build")
    ensures artifactType != Some(LanguagePack) && r.Some? ==>
      && |r.value| == 6
      && r.value[1] == Str(sourceUri)
      && r.value[2] == Str(if stage == "unittest" then commitSha else name)
      && r.value[3] == Str(tenant)
      && r.value[4] == Str(EffectiveBase(baseImageId, imageFormat))
      && r.value[5] == LpArg(lpName)
  {
    var appPath := BuildAppPath(projDir, sourceFormat, imageFormat);
    var base := EffectiveBase(baseImageId, imageFormat);
    if artifactType == Some(LanguagePack) then
      Some(LpCommand(PathJoin(appPath, "build-lp"), sourceUri, name, tenant))
    else if stage == "unittest" then
      Some(AppCommand(PathJoin(appPath, "unittest-app"), sourceUri, commitSha, tenant, base, lpName))
    else if stage == "build" then
      Some(AppCommand(PathJoin(appPath, "build-app"), sourceUri, name, tenant, base, lpName))
    else None
  }

  /** `build-lp <source uri> <name> <tenant>`. */
  function LpCommand(script: string, sourceUri: string, name: string, tenant: string): (r: seq<Arg>)
    ensures |r| == 4 && r[0] == Str(script)
    ensures r[1] == Str(sourceUri) && r[2] == Str(name) && r[3] == Str(tenant)
  {
    [Str(script), Str(sourceUri), Str(name), Str(tenant)]
  }

  /** `<script> <source uri> <name or commit> <tenant> <base image> <lp name>`. */
  function AppCommand(script: string, sourceUri: string, target: string, tenant: string, base: string,
                      lpName: Option<string>): (r: seq<Arg>)
    ensures |r| == 6 && r[0] == Str(script)
    ensures r[1] == Str(sourceUri) && r[2] == Str(target) && r[3] == Str(tenant)
    ensures r[4] == Str(base) && r[5] == LpArg(lpName)
  {
    [Str(script), Str(sourceUri), Str(target), Str(tenant), Str(base), LpArg(lpName)]
  }

  // ---------------------------------------------------------------------
  // Lemmas

  /** A language-pack build does not depend on the stage, the commit, the
      base image or the language-pack name. */
  lemma LanguagePackIgnoresStage(projDir: string, sourceUri: string, name: string, tenant: string,
                                 sourceFormat: string, imageFormat: string,
                                 stage1: string, base1: string, sha1: string, lp1: Option<string>,
                                 stage2: string, base2: string, sha2: string, lp2: Option<string>)
    ensures BuildCommand(projDir, stage1, sourceUri, name, tenant, base1, sourceFormat, imageFormat, sha1,
                         Some(LanguagePack), lp1)
         == BuildCommand(projDir, stage2, sourceUri, name, tenant, base2, sourceFormat, imageFormat, sha2,
                         Some(LanguagePack), lp2)
  {
  }

  /** The script run lives in `<proj_dir>/contrib/<source dir>/<image
      dir>`: below any project directory not ending in '/', the path is
      the project directory, "contrib", the two script directories and the
      script name, separated by '/'. */
  lemma ScriptPath(projDir: string, stage: string, sourceUri: string, name: string, tenant: string,
                   baseImageId: string, sourceFormat: string, imageFormat: string, commitSha: string,
                   artifactType: Option<string>, lpName: Option<string>)
    requires |projDir| > 0 && projDir[|projDir| - 1] != '/'
    ensures var r := BuildCommand(projDir, stage, sourceUri, name, tenant, baseImageId, sourceFormat,
                                  imageFormat, commitSha, artifactType, lpName);
      var script := if artifactType == Some(LanguagePack) then "build-lp"
                    else if stage == "unittest" then "unittest-app" else "build-app";
      r.Some? ==> r.value[0] == Str(projDir + "/" + "contrib" + "/" + SourceDir(sourceFormat) + "/"
                                    + ImageDir(imageFormat) + "/" + script)
  {
    AppPathShape(projDir, sourceFormat, imageFormat);
    var dir := BuildAppPath(projDir, sourceFormat, imageFormat);
    var script := if artifactType == Some(LanguagePack) then "build-lp"
                  else if stage == "unittest" then "unittest-app" else "build-app";
    assert PathJoin(dir, script) == dir + "/" + script;
  }

  /** The script directory is `<proj_dir>/contrib/<source dir>/<image dir>`
      and has no trailing '/'. */
  lemma AppPathShape(projDir: string, sourceFormat: string, imageFormat: string)
    requires |projDir| > 0 && projDir[|projDir| - 1] != '/'
    ensures var dir := BuildAppPath(projDir, sourceFormat, imageFormat);
      && dir == projDir + "/" + "contrib" + "/" + SourceDir(sourceFormat) + "/" + ImageDir(imageFormat)
      && |dir| > 0 && dir[|dir| - 1] != '/'
  {
    var src := SourceDir(sourceFormat);
    var img := ImageDir(imageFormat);
    DirNameShape(src);
    DirNameShape(img);
    var contrib := PathJoin(projDir, "contrib");
    assert contrib == projDir + "/" + "contrib";
    var srcDir := PathJoin(contrib, src);
    assert srcDir == contrib + "/" + src;
    var dir := PathJoin(srcDir, img);
    assert dir == srcDir + "/" + img;
    assert dir[|dir| - 1] == img[|img| - 1];
  }

  /** Every script directory name is relative and has no trailing '/'. */
  lemma DirNameShape(d: string)
    requires d in DirNames
    ensures |d| > 0 && d[0] != '/' && d[|d| - 1] != '/'
  {
  }
}

=== FILE: shell_output.dfy ===
/** Reading the build scripts' output in the shell worker: the
    `created_image_id=` line of an application build (`_do_build`) and the
    `image_external_ref=` line of a language-pack build (`build_lp`). */
module ShellOutput {
  import opened Common
  import opened Strings
  import opened HeatTemplates

  const CreatedMarker: string := "created_image_id"
  const CreatedPrefix: string := "created_image_id="
  const RefMarker: string := "image_external_ref"
  const RefPrefix: string := "image_external_ref="

  /** `out.split('\n')`. */
  function Lines(out: string): seq<string>
  {
    Split(out, "\n")
  }

  /** `line.split('=')[-1].strip()`: the text after the last '=', without
      surrounding whitespace. */
  function AfterLastEquals(line: string): string
  {
    var pieces := Split(line, "=");
    Strip(pieces[|pieces| - 1])
  }

  /** The image id one matching line yields. For Swift, the temporary URL
      keeps its own '=' characters: only the `created_image_id=` prefix
      is removed, and the application name is appended after `APP_NAME=`
      for the deployer. */
  function CreatedIdOf(line: string, storage: string, name: string): string
  {
    if storage == "swift" then Replace(line, CreatedPrefix, "") + AppNameMarker + name
    else AfterLastEquals(line)
  }

  /** The language-pack reference one matching line yields. */
  function RefOf(line: string, storage: string): string
  {
    if storage == "swift" then Replace(line, RefPrefix, "") else AfterLastEquals(line)
  }

  /** The loop of `_do_build` over the output lines: each matching line
      overwrites what was found before. */
  function ScanCreated(lines: seq<string>, storage: string, name: string, found: Option<string>)
    : Option<string>
    decreases |lines|
  {
    if |lines| == 0 then found
    else
      var found' := if Contains(lines[0], CreatedMarker) then Some(CreatedIdOf(lines[0], storage, name))
                    else found;
      ScanCreated(lines[1..], storage, name, found')
  }

  /** The image id `_do_build` reads: the last line mentioning
      `created_image_id` decides it; without one there is none. */
  function ParseCreatedImageId(out: string, storage: string, name: string): (r: Option<string>)
    ensures r == match LastMatch(Lines(out), CreatedMarker)
                 case None => None
                 case Some(i) => Some(CreatedIdOf(Lines(out)[i], storage, name))
  {
    ScanCreatedLast(Lines(out), storage, name, None);
    ScanCreated(Lines(out), storage, name, None)
  }

  /** The loop of `build_lp` over the output lines: it stops at the first
      matching line. */
  function ScanRef(lines: seq<string>, storage: string): Option<string>
    decreases |lines|
  {
    if |lines| == 0 then None
    else if Contains(lines[0], RefMarker) then Some(RefOf(lines[0], storage))
    else ScanRef(lines[1..], storage)
  }

  /** The reference `build_lp` reads: the first line mentioning
      `image_external_ref` decides it; without one there is none. */
  function ParseExternalRef(out: string, storage: string): (r: Option<string>)
    ensures r == match FirstMatch(Lines(out), RefMarker)
                 case None => None
                 case Some(i) => Some(RefOf(Lines(out)[i], storage))
  {
    ScanRefFirst(Lines(out), storage);
    ScanRef(Lines(out), storage)
  }

  /** The index of the last line containing `marker`. */
  function LastMatch(lines: seq<string>, marker: string): (r: Option<nat>)
    ensures r.Some? ==> r.value < |lines| && Contains(lines[r.value], marker)
                        && forall j :: r.value < j < |lines| ==> !Contains(lines[j], marker)
    ensures r.None? ==> forall j :: 0 <= j < |lines| ==> !Contains(lines[j], marker)
  {
    if |lines| == 0 then None
    else if Contains(lines[|lines| - 1], marker) then Some(|lines| - 1)
    else LastMatch(lines[..|lines| - 1], marker)
  }

  /** The index of the first line containing `marker`. */
  function FirstMatch(lines: seq<string>, marker: string): (r: Option<nat>)
    ensures r.Some? ==> r.value < |lines| && Contains(lines[r.value], marker)
                        && forall j :: 0 <= j < r.value ==> !Contains(lines[j], marker)
    ensures r.None? ==> forall j :: 0 <= j < |lines| ==> !Contains(lines[j], marker)
  {
    if |lines| == 0 then None
    else if Contains(lines[0], marker) then Some(0)
    else
      var rest := FirstMatch(lines[1..], marker);
      if rest.Some? then Some(rest.value + 1) else None
  }

  // ---------------------------------------------------------------------
  // Lemmas

  lemma {:induction false} ScanCreatedLast(lines: seq<string>, storage: string, name: string,
                                           found: Option<string>)
    ensures ScanCreated(lines, storage, name, found)
      == match LastMatch(lines, CreatedMarker)
         case None => found
         case Some(i) => Some(CreatedIdOf(lines[i], storage, name))
    decreases |lines|
  {
    if |lines| > 0 {
      var found' := if Contains(lines[0], CreatedMarker) then Some(CreatedIdOf(lines[0], storage, name))
                    else found;
      ScanCreatedLast(lines[1..], storage, name, found');
      LastMatchCons(lines, CreatedMarker);
    }
  }

  /** The last match in `lines` is the last match in its tail, shifted by
      one, or else the first line when it matches. */
  lemma LastMatchCons(lines: seq<string>, marker: string)
    requires |lines| > 0
    ensures var there := LastMatch(lines[1..], marker);
      LastMatch(lines, marker)
      == if there.Some? then Some(there.value + 1)
         else if Contains(lines[0], marker) then Some(0) else None
  {
    var there := LastMatch(lines[1..], marker);
    assert forall j :: 0 < j < |lines| ==> lines[j] == lines[1..][j - 1];
    if there.Some? {
      assert Contains(lines[there.value + 1], marker);
    }
  }

  lemma {:induction false} ScanRefFirst(lines: seq<string>, storage: string)
    ensures ScanRef(lines, storage)
      == match FirstMatch(lines, RefMarker)
         case None => None
         case Some(i) => Some(RefOf(lines[i], storage))
    decreases |lines|
  {
    if |lines| > 0 && !Contains(lines[0], RefMarker) {
      ScanRefFirst(lines[1..], storage);
    }
  }

  /** Outside Swift, a line `created_image_id=<id>` yields `<id>` when the
      id has no '=' and no surrounding whitespace. */
  lemma PlainIdRead(id: string, name: string, storage: string)
    requires storage != "swift"
    requires !Contains(id, "=")
    requires |id| > 0 ==> id[0] !in Whitespace && id[|id| - 1] !in Whitespace
    ensures CreatedIdOf(CreatedPrefix + id, storage, name) == id
  {
    var line := CreatedPrefix + id;
    SplitAtPrefix(id);
    var pieces := Split(line, "=");
    assert pieces[|pieces| - 1] == id;
    StripClean(id);
    assert AfterLastEquals(line) == id;
  }

  lemma StripClean(id: string)
    requires |id| > 0 ==> id[0] !in Whitespace && id[|id| - 1] !in Whitespace
    ensures Strip(id) == id
  {
    StripSurrounded("", id, "", Whitespace);
    assert "" + id + "" == id;
  }

  lemma SplitAtPrefix(id: string)
    requires !Contains(id, "=")
    ensures Split(CreatedPrefix + id, "=") == [CreatedMarker, id]
  {
    NoEqualsIn(CreatedMarker);
    NoStraddle(CreatedMarker, "=", id);
    SplitAfter(CreatedMarker, "=", id);
    SplitWithout(id, "=");
    assert CreatedPrefix + id == CreatedMarker + "=" + id;
  }

  lemma NoEqualsIn(s: string)
    requires forall i :: 0 <= i < |s| ==> s[i] != '='
    ensures !Contains(s, "=")
  {
    forall i | 0 <= i <= |s|
      ensures !OccursAt(s, "=", i)
    {
      if i + 1 <= |s| {
        assert s[i..i + 1][0] == s[i];
      }
    }
  }

  /** A line that is exactly the prefix followed by a text free of the
      prefix loses just the prefix under `replace(prefix, '')`. */
  lemma DropPrefix(prefix: string, text: string)
    requires |prefix| > 0 && !Contains(text, prefix)
    ensures Replace(prefix + text, prefix, "") == text
  {
    SplitAfter("", prefix, text);
    assert "" + prefix + text == prefix + text;
    SplitWithout(text, prefix);
    assert Split(prefix + text, prefix) == ["", text];
    assert Join(["", text], "") == "" + "" + Join([text], "");
  }

  /** With Swift storage, a line `created_image_id=<url>` yields the URL
      followed by `APP_NAME=` and the application name. */
  lemma SwiftIdRead(url: string, name: string)
    requires !Contains(url, CreatedPrefix)
    ensures CreatedIdOf(CreatedPrefix + url, "swift", name) == url + AppNameMarker + name
  {
    DropPrefix(CreatedPrefix, url);
  }

  /** With Swift storage, a line `image_external_ref=<url>` yields the URL. */
  lemma SwiftRefRead(url: string)
    requires !Contains(url, RefPrefix)
    ensures RefOf(RefPrefix + url, "swift") == url
  {
    DropPrefix(RefPrefix, url);
  }
}

=== FILE: shell_params.dfy ===
/** `_sanitize_param` and the routing of user-defined parameters in
    `_get_parameter_env`: how a parameter value is written into a bash
    `export` line, and which parameters go to the environment instead. */
module ShellParams {
  import opened Strings

  /** A parameter value: Python `None`, a string (byte or unicode), or any
      other value, given by its `str()` rendering. */
  datatype ParamValue = NoValue | Text(s: string) | Scalar(rendered: string)

  const Newline: set<char> := {'\n'}

  /** Every double quote is escaped with a backslash, character by
      character: the reference for `replace('"', '\\"')`. */
  function EscapeQuotes(s: string): (r: string)
    ensures |r| >= |s|
  {
    if |s| == 0 then ""
    else (if s[0] == '"' then "\\\"" else [s[0]]) + EscapeQuotes(s[1..])
  }

  /** Reads a backslash-quote pair back as a quote. */
  function UnescapeQuotes(t: string): string
  {
    if |t| == 0 then ""
    else if |t| >= 2 && t[0] == '\\' && t[1] == '"' then "\"" + UnescapeQuotes(t[2..])
    else [t[0]] + UnescapeQuotes(t[1..])
  }

  /** Every double quote in `t` directly follows a backslash. */
  predicate QuotesEscaped(t: string)
  {
    forall i :: 0 <= i < |t| && t[i] == '"' ==> 0 < i && t[i - 1] == '\\'
  }

  /** `_sanitize_param`: '' for `None`; a string loses its leading and
      trailing newlines, has its double quotes escaped and is wrapped in
      double quotes; anything else is rendered by `str`. */
  function SanitizeParam(v: ParamValue): (r: string)
    ensures v.NoValue? ==> r == ""
    ensures v.Scalar? ==> r == v.rendered
    ensures v.Text? ==>
      && |r| >= 2 && r[0] == '"' && r[|r| - 1] == '"'
      && QuotesEscaped(r[1..|r| - 1])
      && UnescapeQuotes(r[1..|r| - 1]) == StripChars(v.s, Newline)
  {
    match v
    case NoValue => ""
    case Text(s) =>
      var inner := Replace(StripChars(s, Newline), "\"", "\\\"");
      ReplaceQuotes(StripChars(s, Newline));
      EscapedQuotes(StripChars(s, Newline));
      EscapeRoundTrip(StripChars(s, Newline));
      var r := "\"" + inner + "\"";
      assert r[1..|r| - 1] == inner;
      r
    case Scalar(x) => x
  }

  /** A `_SYSTEM` parameter controls the build instead of reaching the
      application. */
  predicate SystemKey(k: string)
  {
    StartsWith(k, "_SYSTEM")
  }

  function ExportLine(k: string, v: ParamValue): string
  {
    "export " + k + "=" + SanitizeParam(v) + "\n"
  }

  /** The environment entries and the lines of the user parameter file. */
  datatype Routed = Routed(env: map<string, string>, lines: seq<string>)

  /** The loop over `user_defined_params.items()`. */
  function RouteUserParams(params: seq<(string, ParamValue)>): (r: Routed)
    ensures r.env.Keys == set i | 0 <= i < |params| && SystemKey(params[i].0) :: params[i].0
    ensures |r.lines| <= |params|
  {
    if |params| == 0 then Routed(map[], [])
    else
      var r := RouteUserParams(params[..|params| - 1]);
      var (k, v) := params[|params| - 1];
      assert forall i :: 0 <= i < |params| - 1 ==> params[..|params| - 1][i] == params[i];
      if SystemKey(k) then Routed(r.env[k := SanitizeParam(v)], r.lines)
      else Routed(r.env, r.lines + [ExportLine(k, v)])
  }

  /** The parameters that become export lines, in order. */
  function NonSystem(params: seq<(string, ParamValue)>): (r: seq<(string, ParamValue)>)
    ensures forall j :: 0 <= j < |r| ==> !SystemKey(r[j].0)
  {
    if |params| == 0 then []
    else
      var rest := NonSystem(params[..|params| - 1]);
      if SystemKey(params[|params| - 1].0) then rest else rest + [params[|params| - 1]]
  }

  predicate DistinctKeys(params: seq<(string, ParamValue)>)
  {
    forall i, j :: 0 <= i < j < |params| ==> params[i].0 != params[j].0
  }

  // ---------------------------------------------------------------------
  // Lemmas

  lemma {:induction false} ReplaceQuotes(s: string)
    ensures Replace(s, "\"", "\\\"") == EscapeQuotes(s)
    decreases |s|
  {
    if |s| == 0 {
      ReplaceEmpty("\"", "\\\"");
    } else {
      ReplaceCharStep(s, '"', "\\\"");
      ReplaceQuotes(s[1..]);
    }
  }

  lemma {:induction false} EscapedQuotes(s: string)
    ensures QuotesEscaped(EscapeQuotes(s))
    ensures |EscapeQuotes(s)| > 0 ==> EscapeQuotes(s)[0] != '"'
    decreases |s|
  {
    if |s| > 0 {
      EscapedQuotes(s[1..]);
      var head := if s[0] == '"' then "\\\"" else [s[0]];
      var t := EscapeQuotes(s);
      var rest := EscapeQuotes(s[1..]);
      assert t == head + rest;
      forall i | 0 <= i < |t| && t[i] == '"'
        ensures 0 < i && t[i - 1] == '\\'
      {
        if i >= |head| {
          assert t[i] == rest[i - |head|];
          if i - |head| > 0 {
            assert t[i - 1] == rest[i - |head| - 1];
          }
        }
      }
    }
  }

  /** Unescaping the escaped string gives the string back. */
  lemma {:induction false} EscapeRoundTrip(s: string)
    ensures UnescapeQuotes(EscapeQuotes(s)) == s
    decreases |s|
  {
    if |s| > 0 {
      EscapeRoundTrip(s[1..]);
      EscapedQuotes(s[1..]);
      var rest := EscapeQuotes(s[1..]);
      if s[0] == '"' {
        assert EscapeQuotes(s) == "\\\"" + rest;
        assert ("\\\"" + rest)[2..] == rest;
      } else {
        assert EscapeQuotes(s) == [s[0]] + rest;
        assert ([s[0]] + rest)[1..] == rest;
      }
    }
  }

  /** A value that is already clean comes back exactly, between quotes:
      no surrounding newlines and no double quotes. */
  lemma CleanTextQuoted(s: string)
    requires forall i :: 0 <= i < |s| ==> s[i] != '"'
    requires |s| > 0 ==> s[0] != '\n' && s[|s| - 1] != '\n'
    ensures SanitizeParam(Text(s)) == "\"" + s + "\""
  {
    StripSurrounded("", s, "", Newline);
    assert "" + s + "" == s;
    ReplaceQuotes(s);
    NoQuotesUnchanged(s);
  }

  lemma {:induction false} NoQuotesUnchanged(s: string)
    requires forall i :: 0 <= i < |s| ==> s[i] != '"'
    ensures EscapeQuotes(s) == s
    decreases |s|
  {
    if |s| > 0 {
      NoQuotesUnchanged(s[1..]);
      assert [s[0]] + s[1..] == s;
    }
  }

  lemma {:induction false} NonSystemLines(params: seq<(string, ParamValue)>)
    ensures var r := RouteUserParams(params);
      var ns := NonSystem(params);
      && |r.lines| == |ns|
      && forall j :: 0 <= j < |ns| ==> r.lines[j] == ExportLine(ns[j].0, ns[j].1)
    decreases |params|
  {
    if |params| > 0 {
      NonSystemLines(params[..|params| - 1]);
    }
  }

  /** A line for a key that is not a `_SYSTEM` key never starts like one. */
  lemma ExportLineNotSystem(k: string, v: ParamValue)
    requires !SystemKey(k)
    ensures !StartsWith(ExportLine(k, v), "export _SYSTEM")
  {
    KeyLineNotSystem(k, SanitizeParam(v));
  }

  /** The key is followed by '=', which the marker does not contain. */
  lemma KeyLineNotSystem(k: string, value: string)
    requires !SystemKey(k)
    ensures !StartsWith("export " + k + "=" + value + "\n", "export _SYSTEM")
  {
    var line := "export " + k + "=" + value + "\n";
    var marker := "export _SYSTEM";
    if |k| >= 7 {
      assert line[7..14] == k[..7];
      assert marker[7..14] == "_SYSTEM";
      assert k[..7] != "_SYSTEM";
      assert |line| >= 14 ==> line[..14][7..14] != marker[7..14];
    } else {
      assert line[7 + |k|] == '=';
      assert marker[7 + |k|] != '=';
      assert |line| >= 14 ==> line[..14][7 + |k|] != marker[7 + |k|];
    }
  }

  /** `_SYSTEM` parameters go to the environment, sanitized, and none of
      them is written to the parameter file; every other parameter is
      written as one `export` line, in order. */
  lemma UserParamRouting(params: seq<(string, ParamValue)>)
    requires DistinctKeys(params)
    ensures var r := RouteUserParams(params);
      && (forall i :: 0 <= i < |params| && SystemKey(params[i].0) ==>
            params[i].0 in r.env && r.env[params[i].0] == SanitizeParam(params[i].1))
      && (forall j :: 0 <= j < |r.lines| ==> !StartsWith(r.lines[j], "export _SYSTEM"))
      && |r.lines| == |NonSystem(params)|
      && (forall j :: 0 <= j < |r.lines| ==>
            r.lines[j] == ExportLine(NonSystem(params)[j].0, NonSystem(params)[j].1))
  {
    EnvValues(params);
    NonSystemLines(params);
    var r := RouteUserParams(params);
    var ns := NonSystem(params);
    forall j | 0 <= j < |r.lines|
      ensures !StartsWith(r.lines[j], "export _SYSTEM")
    {
      ExportLineNotSystem(ns[j].0, ns[j].1);
    }
  }

  lemma {:induction false} EnvValues(params: seq<(string, ParamValue)>)
    requires DistinctKeys(params)
    ensures var r := RouteUserParams(params);
      forall i :: 0 <= i < |params| && SystemKey(params[i].0) ==>
        params[i].0 in r.env && r.env[params[i].0] == SanitizeParam(params[i].1)
    decreases |params|
  {
    if |params| > 0 {
      var n := |params| - 1;
      var init := params[..n];
      assert forall i :: 0 <= i < |init| ==> init[i] == params[i];
      EnvValues(init);
      EnvStep(params);
      var r := RouteUserParams(params);
      forall i | 0 <= i < n && SystemKey(params[i].0)
        ensures params[i].0 in r.env && r.env[params[i].0] == SanitizeParam(params[i].1)
      {
        assert init[i] == params[i];
        assert params[i].0 != params[n].0;
      }
    }
  }

  /** One more parameter: a `_SYSTEM` key is added to the environment,
      any other leaves it alone. */
  lemma EnvStep(params: seq<(string, ParamValue)>)
    requires |params| > 0
    ensures var n := |params| - 1;
      var e := RouteUserParams(params).env;
      var e0 := RouteUserParams(params[..n]).env;
      && (SystemKey(params[n].0) ==> e == e0[params[n].0 := SanitizeParam(params[n].1)])
      && (!SystemKey(params[n].0) ==> e == e0)
  {
  }
}

=== FILE: shell_stages.dfy ===
/** The stages of the shell worker: unit tests (`_do_unittest`), the
    application build (`_do_build`), the language-pack build (`build_lp`)
    and `launch_workflow`, which chains them and hands a built image to the
    deployer. */
module ShellStages {
  import opened Common
  import opened Strings
  import opened States
  import opened ShellCommand
  import opened ShellOutput

  /** What the worker asks of others: status updates for the assembly, the
      build job and the language pack, running a script, reporting a test
      result to the repository, and asking the deployer to deploy. */
  datatype WorkerEvent =
    | AssemblyStatus(assembly: nat, status: AssemblyState)
    | JobUpdate(build: nat, state: ImageState, createdImageId: Option<string>)
    | LpStatus(image: nat, state: ImageState, externalRef: Option<string>)
    | Exec(argv: seq<Arg>)
    | SendStatus(code: int)
    | DeployRequest(target: Option<nat>, imageId: string, ports: seq<nat>)

  predicate NoDeployRequest(events: seq<WorkerEvent>)
  {
    forall k :: 0 <= k < |events| ==> !events[k].DeployRequest?
  }

  /** `update_assembly_status`: nothing to update without an assembly. */
  function UpdateAssemblyStatus(assemblyId: Option<nat>, status: AssemblyState): (r: seq<WorkerEvent>)
    ensures |r| <= 1
    ensures r == [] <==> assemblyId.None?
    ensures forall k :: 0 <= k < |r| ==> r[k] == AssemblyStatus(assemblyId.value, status)
  {
    match assemblyId
    case None => []
    case Some(id) => [AssemblyStatus(id, status)]
  }

  /** The language pack a base image id other than 'auto' names. */
  datatype LanguagePackRecord = LanguagePackRecord(externalRef: string, name: string)

  /** The arguments of a unit-test or build request. */
  datatype Job = Job(
    projDir: string,
    tenant: string,
    buildId: nat,
    assemblyId: Option<nat>,
    name: string,
    baseImageId: string,
    sourceFormat: string,
    imageFormat: string,
    sourceUri: string,
    commitSha: string,
    storage: string,
    languagePack: LanguagePackRecord)

  /** Whether `_get_environment` returned, raised a SolumException (the
      only kind `_do_build` and `build_lp` catch), or raised anything
      else. */
  datatype EnvOutcome = EnvReady | EnvSolumError | EnvOtherError

  /** The outcome of running the build script: its standard output, or an
      OSError or a ValueError from `Popen`. `_do_build` catches both;
      `build_lp` catches only the OSError. */
  datatype ProcOutcome = Output(out: string) | ProcOSError | ProcValueError

  /** The outcome of running the unit tests: an exit code, an OSError, or a
      ValueError from `Popen`. `_do_unittest` catches only the OSError. */
  datatype TestOutcome = Exited(code: int) | TestRaised | TestValueError

  /** The answers a stage gets: the environment, the status of the
      assembly when it is fetched, and the script run. */
  datatype UnitWorld = UnitWorld(env: EnvOutcome, assemblyStatus: AssemblyState, test: TestOutcome)
  datatype BuildWorld = BuildWorld(env: EnvOutcome, assemblyStatus: AssemblyState, proc: ProcOutcome)

  /** The base image and language-pack name passed to the scripts: a base
      other than 'auto' is replaced by its language pack's reference. */
  function BaseAndLp(job: Job): (string, string)
  {
    if job.baseImageId != "auto" then (job.languagePack.externalRef, job.languagePack.name)
    else (job.baseImageId, "")
  }

  /** The assembly is being deleted, as seen when the stage fetches it. */
  predicate Deleted(assemblyId: Option<nat>, status: AssemblyState)
  {
    assemblyId.Some? && status == Deleting
  }

  /** The status a unit-test exit code leads to. */
  function UnitTestStatus(code: int): (s: AssemblyState)
    ensures s == UnitTestingPassed <==> code == 0
    ensures s == UnitTestingFailed <==> code > 0
    ensures s == Error <==> code < 0
  {
    if code == 0 then UnitTestingPassed
    else if code > 0 then UnitTestingFailed
    else Error
  }

  /** The unit-test script's arguments for a job: the tests run on the commit. */
  function UnittestArgs(job: Job): (r: seq<Arg>)
    ensures Some(r) == BuildCommand(job.projDir, "unittest", job.sourceUri, job.name, job.tenant,
                                    BaseAndLp(job).0, job.sourceFormat, job.imageFormat, job.commitSha,
                                    None, Some(BaseAndLp(job).1))
  {
    var (base, lp) := BaseAndLp(job);
    BuildCommand(job.projDir, "unittest", job.sourceUri, job.name, job.tenant, base,
                 job.sourceFormat, job.imageFormat, job.commitSha, None, Some(lp)).value
  }

  /** The build script's arguments for a job: no commit is passed. */
  function BuildArgs(job: Job): (r: seq<Arg>)
    ensures Some(r) == BuildCommand(job.projDir, "build", job.sourceUri, job.name, job.tenant,
                                    BaseAndLp(job).0, job.sourceFormat, job.imageFormat, "",
                                    None, Some(BaseAndLp(job).1))
  {
    var (base, lp) := BaseAndLp(job);
    BuildCommand(job.projDir, "build", job.sourceUri, job.name, job.tenant, base,
                 job.sourceFormat, job.imageFormat, "", None, Some(lp)).value
  }

  datatype UnitRun = UnitRun(events: seq<WorkerEvent>, code: int, crashed: bool)

  /** `_do_unittest`. A raising `_get_environment` propagates, and so does
      a ValueError from `Popen`. */
  function DoUnittest(job: Job, testCmd: Option<string>, world: UnitWorld): (r: UnitRun)
    ensures NoDeployRequest(r.events)
    ensures forall k :: 0 <= k < |r.events| ==> UnitEvent(r.events[k])
    ensures testCmd.None? ==> r == UnitRun([], 0, false)
    ensures testCmd.Some? ==>
      (r.crashed <==> !world.env.EnvReady?
                      || (!Deleted(job.assemblyId, world.assemblyStatus) && world.test.TestValueError?))
  {
    if testCmd.None? then UnitRun([], 0, false)
    else
      var testing := UpdateAssemblyStatus(job.assemblyId, UnitTesting);
      if !world.env.EnvReady? then UnitRun(testing, -1, true)
      else
        var run := RunTests(job, world);
        UnitEventsAppend(testing, run.events);
        UnitRun(testing + run.events, run.code, run.crashed)
  }

  /** The part of `_do_unittest` after the environment was obtained: -1
      without running anything on an assembly being deleted, the handler's
      death on a ValueError from `Popen`, and otherwise the report of the
      exit code (an OSError reads as -1). */
  function RunTests(job: Job, world: UnitWorld): (r: UnitRun)
    ensures forall k :: 0 <= k < |r.events| ==> UnitEvent(r.events[k])
    ensures r.crashed <==> !Deleted(job.assemblyId, world.assemblyStatus) && world.test.TestValueError?
  {
    var cmd := UnittestArgs(job);
    if Deleted(job.assemblyId, world.assemblyStatus) then UnitRun([], -1, false)
    else if world.test.TestValueError? then UnitRun([Exec(cmd)], -1, true)
    else
      var code := if world.test.Exited? then world.test.code else -1;
      UnitRun(TestReport(job.assemblyId, cmd, code), code, false)
  }

  /** Unit-test events, appended, stay unit-test events, and none of them
      requests a deploy. */
  lemma UnitEventsAppend(a: seq<WorkerEvent>, b: seq<WorkerEvent>)
    requires forall k :: 0 <= k < |a| ==> UnitEvent(a[k])
    requires forall k :: 0 <= k < |b| ==> UnitEvent(b[k])
    ensures forall k :: 0 <= k < |a + b| ==> UnitEvent((a + b)[k])
    ensures NoDeployRequest(a + b)
  {
  }

  /** What the unit-test stage may do: report an assembly status, run a
      script, or report a result to the repository. */
  predicate UnitEvent(e: WorkerEvent)
  {
    e.AssemblyStatus? || e.Exec? || e.SendStatus?
  }

  /** Running the tests: the script, the status its exit code leads to,
      then the code reported to the repository. */
  function TestReport(assemblyId: Option<nat>, cmd: seq<Arg>, code: int): (r: seq<WorkerEvent>)
    ensures |r| >= 2 && r[0] == Exec(cmd) && r[|r| - 1] == SendStatus(code)
    ensures assemblyId.Some? ==> r[|r| - 2] == AssemblyStatus(assemblyId.value, UnitTestStatus(code))
    ensures forall k :: 0 <= k < |r| ==> UnitEvent(r[k])
  {
    [Exec(cmd)] + UpdateAssemblyStatus(assemblyId, UnitTestStatus(code)) + [SendStatus(code)]
  }

  datatype BuildRun = BuildRun(events: seq<WorkerEvent>, image: Option<string>, crashed: bool)

  /** `_do_build`. When `_get_environment` raises a SolumException the
      job is marked ERROR, and the handler then reads the unbound
      `user_env`, so the handler dies; any other exception ends it at once. */
  function DoBuild(job: Job, world: BuildWorld): (r: BuildRun)
    ensures NoDeployRequest(r.events)
    ensures r.image.Some? ==> r.image.value != ""
    ensures r.crashed <==> !world.env.EnvReady?
    ensures r.crashed ==> r.image.None?
    ensures world.env.EnvSolumError? ==>
      |r.events| > 0 && r.events[|r.events| - 1] == JobUpdate(job.buildId, ImageError, None)
  {
    var building := UpdateAssemblyStatus(job.assemblyId, Building);
    if world.env.EnvSolumError? then
      NoDeployAppend(building, [JobUpdate(job.buildId, ImageError, None)]);
      BuildRun(building + [JobUpdate(job.buildId, ImageError, None)], None, true)
    else if world.env.EnvOtherError? then BuildRun(building, None, true)
    else
      var started := building + [JobUpdate(job.buildId, ImageBuilding, None)];
      NoDeployAppend(building, [JobUpdate(job.buildId, ImageBuilding, None)]);
      if Deleted(job.assemblyId, world.assemblyStatus) then BuildRun(started, None, false)
      else
        var run := RunBuildScript(job, BuildArgs(job), world.proc);
        NoDeployAppend(started, run.events);
        BuildRun(started + run.events, run.image, false)
  }

  lemma NoDeployAppend(a: seq<WorkerEvent>, b: seq<WorkerEvent>)
    requires NoDeployRequest(a) && NoDeployRequest(b)
    ensures NoDeployRequest(a + b)
  {
  }

  /** The build script's run and the reading of its output: READY and BUILT
      with a non-empty image id, ERROR on the job and the assembly
      otherwise. */
  function RunBuildScript(job: Job, cmd: seq<Arg>, proc: ProcOutcome): (r: BuildRun)
    ensures NoDeployRequest(r.events)
    ensures !r.crashed && |r.events| >= 2 && r.events[0] == Exec(cmd)
    ensures r.image.Some? <==> proc.Output? && ParseCreatedImageId(proc.out, job.storage, job.name).Some?
                               && ParseCreatedImageId(proc.out, job.storage, job.name).value != ""
    ensures r.image.Some? ==> r.image == ParseCreatedImageId(proc.out, job.storage, job.name)
    ensures r.events[1] == JobUpdate(job.buildId, if r.image.Some? then ImageReady else ImageError, r.image)
  {
    var id := if proc.Output? then ParseCreatedImageId(proc.out, job.storage, job.name) else None;
    if id.Some? && id.value != "" then
      BuildRun([Exec(cmd), JobUpdate(job.buildId, ImageReady, id)] + UpdateAssemblyStatus(job.assemblyId, Built),
               id, false)
    else
      BuildRun([Exec(cmd), JobUpdate(job.buildId, ImageError, None)] + UpdateAssemblyStatus(job.assemblyId, Error),
               None, false)
  }

  /** A language-pack build request. */
  datatype LpJob = LpJob(projDir: string, tenant: string, imageId: nat, sourceUri: string, name: string,
                         sourceFormat: string, artifactType: Option<string>, storage: string)

  datatype LpRun = LpRun(events: seq<WorkerEvent>, crashed: bool)

  /** `build_lp`. When `_get_environment` raises, the handler dies: either
      the exception propagates, or a caught SolumException leaves
      `user_env` unbound for the next line. A ValueError from `Popen` is
      not caught either, so the image is left BUILDING. */
  function BuildLp(job: LpJob, env: EnvOutcome, proc: ProcOutcome): (r: LpRun)
    ensures forall k :: 0 <= k < |r.events| ==> r.events[k].LpStatus? || r.events[k].Exec?
    ensures |r.events| > 0 && r.events[0] == LpStatus(job.imageId, ImageBuilding, None)
    ensures r.crashed <==> !env.EnvReady? || proc.ProcValueError?
    ensures !r.crashed ==> var last := r.events[|r.events| - 1];
      last.LpStatus? && last.image == job.imageId && (last.state == ImageReady <==> last.externalRef.Some?)
  {
    var building := LpStatus(job.imageId, ImageBuilding, None);
    var cmd := LpArgs(job);
    if !env.EnvReady? then LpRun([building], true)
    else if proc.ProcValueError? then LpRun([building, Exec(cmd)], true)
    else LpRun([building, Exec(cmd), LpFinish(job, proc)], false)
  }

  /** The closing status: READY with the reference read from the script's
      output, if any, and ERROR without one. */
  function LpFinish(job: LpJob, proc: ProcOutcome): (e: WorkerEvent)
    ensures e.LpStatus? && e.image == job.imageId && (e.state == ImageReady <==> e.externalRef.Some?)
  {
    var ref := if proc.Output? then ParseExternalRef(proc.out, job.storage) else None;
    LpStatus(job.imageId, if ref.Some? then ImageReady else ImageError, ref)
  }

  /** The language-pack build script's arguments: the image id names the
      language pack, and the image format is always 'docker'. */
  function LpArgs(job: LpJob): (r: seq<Arg>)
    ensures Some(r) == BuildCommand(job.projDir, "build", job.sourceUri, job.name, job.tenant,
                                    NatToString(job.imageId), job.sourceFormat, "docker", "",
                                    job.artifactType, None)
  {
    BuildCommand(job.projDir, "build", job.sourceUri, job.name, job.tenant,
                 NatToString(job.imageId), job.sourceFormat, "docker", "", job.artifactType, None).value
  }

  datatype WorkflowRun = WorkflowRun(events: seq<WorkerEvent>, crashed: bool)

  /** `launch_workflow`. */
  function LaunchWorkflow(job: Job, workflow: seq<string>, testCmd: Option<string>, ports: seq<nat>,
                          unitWorld: UnitWorld, buildWorld: BuildWorld): (r: WorkflowRun)
    ensures forall k :: 0 <= k < |r.events| - 1 ==> !r.events[k].DeployRequest?
    ensures r.crashed ==> NoDeployRequest(r.events)
    ensures |r.events| > 0 && r.events[|r.events| - 1].DeployRequest? ==>
      && "deploy" in workflow && "build" in workflow
      && r.events[|r.events| - 1].target == job.assemblyId
      && r.events[|r.events| - 1].imageId != ""
  {
    var unit := if "unittest" in workflow then DoUnittest(job, testCmd, unitWorld) else UnitRun([], 0, false);
    if unit.crashed then WorkflowRun(unit.events, true)
    else if "unittest" in workflow && unit.code != 0 then WorkflowRun(unit.events, false)
    else
      var build := if "build" in workflow then DoBuild(job, buildWorld) else BuildRun([], None, false);
      if build.crashed then WorkflowRun(unit.events + build.events, true)
      else if "deploy" in workflow && build.image.Some? then
        WorkflowRun(unit.events + build.events + [DeployRequest(job.assemblyId, build.image.value, ports)], false)
      else WorkflowRun(unit.events + build.events, false)
  }

  // ---------------------------------------------------------------------
  // Lemmas

  /** Without a test command the unit tests are skipped: result 0 and no
      status update. */
  lemma NoTestCommandSkips(job: Job, world: UnitWorld)
    ensures DoUnittest(job, None, world) == UnitRun([], 0, false)
  {
  }

  /** Once the tests ran, the reported status follows the exit code: 0
      passed, positive failed, negative (or an OSError, read as -1) ERROR,
      and the code is reported to the repository last. */
  lemma UnitTestVerdict(job: Job, testCmd: string, world: UnitWorld)
    requires world.env.EnvReady? && !Deleted(job.assemblyId, world.assemblyStatus)
    requires job.assemblyId.Some?
    ensures var r := DoUnittest(job, Some(testCmd), world);
      && (r.crashed <==> world.test.TestValueError?)
      && (!r.crashed ==>
            && |r.events| >= 2
            && r.events[|r.events| - 1] == SendStatus(r.code)
            && (world.test.TestRaised? ==> r.code == -1)
            && (world.test.Exited? ==> r.code == world.test.code)
            && r.events[|r.events| - 2] == AssemblyStatus(job.assemblyId.value, UnitTestStatus(r.code)))
  {
  }

  /** `_do_unittest` dies when `_get_environment` raises, after the
      assembly was marked UNIT_TESTING and before any script runs. */
  lemma UnitEnvFailureCrashes(job: Job, testCmd: string, world: UnitWorld)
    requires !world.env.EnvReady?
    ensures var r := DoUnittest(job, Some(testCmd), world);
      && r.crashed
      && r.events == UpdateAssemblyStatus(job.assemblyId, UnitTesting)
      && forall k :: 0 <= k < |r.events| ==> !r.events[k].Exec? && !r.events[k].SendStatus?
  {
  }

  /** `_do_unittest` catches only an OSError around `Popen`: a ValueError
      ends the handler after the tests were started, with no verdict on
      the assembly and nothing reported to the repository. */
  lemma UnitValueErrorCrashes(job: Job, testCmd: string, world: UnitWorld)
    requires world.env.EnvReady? && !Deleted(job.assemblyId, world.assemblyStatus)
    requires world.test.TestValueError?
    ensures var r := DoUnittest(job, Some(testCmd), world);
      && r.crashed && |r.events| > 0
      && r.events[|r.events| - 1] == Exec(UnittestArgs(job))
      && (forall k :: 0 <= k < |r.events| ==> !r.events[k].SendStatus?)
      && (forall k :: 0 <= k < |r.events| ==>
            r.events[k].AssemblyStatus? ==> r.events[k].status == UnitTesting)
  {
  }

  /** A deleted assembly stops the unit tests with -1 before anything is
      run. */
  lemma DeletedSkipsTests(job: Job, testCmd: string, world: UnitWorld)
    requires world.env.EnvReady? && Deleted(job.assemblyId, world.assemblyStatus)
    ensures var r := DoUnittest(job, Some(testCmd), world);
      && r.code == -1 && !r.crashed
      && forall k :: 0 <= k < |r.events| ==> !r.events[k].Exec?
  {
  }

  /** `_do_build` when `_get_environment` raises: a SolumException marks
      the job ERROR before the handler dies on the unbound `user_env`, any
      other exception ends it at once; either way no script runs and the
      job is never marked BUILDING. */
  lemma BuildEnvFailureCrashes(job: Job, world: BuildWorld)
    requires !world.env.EnvReady?
    ensures var r := DoBuild(job, world);
      && r.crashed && r.image.None?
      && (forall k :: 0 <= k < |r.events| ==> !r.events[k].Exec?)
      && (forall k :: 0 <= k < |r.events| ==> r.events[k].JobUpdate? ==> r.events[k].state == ImageError)
      && (world.env.EnvSolumError? ==>
            |r.events| > 0 && r.events[|r.events| - 1] == JobUpdate(job.buildId, ImageError, None))
      && (world.env.EnvOtherError? ==> forall k :: 0 <= k < |r.events| ==> !r.events[k].JobUpdate?)
  {
  }

  /** `_do_build` on an assembly being deleted returns without an image
      after marking the job BUILDING: no script runs and the job is left
      BUILDING. */
  lemma DeletedBuildLeavesJobBuilding(job: Job, world: BuildWorld)
    requires world.env.EnvReady? && Deleted(job.assemblyId, world.assemblyStatus)
    ensures var r := DoBuild(job, world);
      && !r.crashed && r.image.None? && |r.events| > 0
      && r.events[|r.events| - 1] == JobUpdate(job.buildId, ImageBuilding, None)
      && forall k :: 0 <= k < |r.events| ==> !r.events[k].Exec?
  {
  }

  /** `_do_build`: an image id is returned exactly when the output has a
      `created_image_id` line whose id is not empty, and it is the id of
      the last such line; it is then reported READY on the job and BUILT on
      the assembly, while without one the job and the assembly are marked
      ERROR. */
  lemma BuildOutcome(job: Job, world: BuildWorld, out: string)
    requires world.env.EnvReady? && !Deleted(job.assemblyId, world.assemblyStatus)
    requires world.proc == Output(out) && job.assemblyId.Some?
    ensures var r := DoBuild(job, world);
      var parsed := ParseCreatedImageId(out, job.storage, job.name);
      var id := job.assemblyId.value;
      && !r.crashed && |r.events| >= 2
      && (r.image.Some? <==> parsed.Some? && parsed.value != "")
      && (r.image.Some? ==>
            && r.image == parsed
            && r.events[|r.events| - 2] == JobUpdate(job.buildId, ImageReady, r.image)
            && r.events[|r.events| - 1] == AssemblyStatus(id, Built))
      && (r.image.None? ==>
            && r.events[|r.events| - 2] == JobUpdate(job.buildId, ImageError, None)
            && r.events[|r.events| - 1] == AssemblyStatus(id, Error))
  {
    var cmd := BuildArgs(job);
    var started := UpdateAssemblyStatus(job.assemblyId, Building) + [JobUpdate(job.buildId, ImageBuilding, None)];
    var run := RunBuildScript(job, cmd, world.proc);
    assert DoBuild(job, world) == BuildRun(started + run.events, run.image, false);
    ScriptRunEnds(job, cmd, out);
    var all := started + run.events;
    assert all[|all| - 2] == run.events[|run.events| - 2];
    assert all[|all| - 1] == run.events[|run.events| - 1];
  }

  /** `_do_build` catches both an OSError and a ValueError from `Popen`:
      either marks the job and the assembly ERROR and returns no image. */
  lemma BuildScriptRaised(job: Job, world: BuildWorld)
    requires world.env.EnvReady? && !Deleted(job.assemblyId, world.assemblyStatus)
    requires world.proc.ProcOSError? || world.proc.ProcValueError?
    requires job.assemblyId.Some?
    ensures var r := DoBuild(job, world);
      && !r.crashed && r.image.None? && |r.events| >= 2
      && r.events[|r.events| - 2] == JobUpdate(job.buildId, ImageError, None)
      && r.events[|r.events| - 1] == AssemblyStatus(job.assemblyId.value, Error)
  {
    var started := UpdateAssemblyStatus(job.assemblyId, Building) + [JobUpdate(job.buildId, ImageBuilding, None)];
    var run := RunBuildScript(job, BuildArgs(job), world.proc);
    assert DoBuild(job, world) == BuildRun(started + run.events, run.image, false);
    ScriptRaisedEnds(job, BuildArgs(job), world.proc);
    var all := started + run.events;
    assert all[|all| - 2] == run.events[1];
    assert all[|all| - 1] == run.events[2];
  }

  lemma ScriptRaisedEnds(job: Job, cmd: seq<Arg>, proc: ProcOutcome)
    requires proc.ProcOSError? || proc.ProcValueError?
    requires job.assemblyId.Some?
    ensures var r := RunBuildScript(job, cmd, proc);
      && r.image.None? && |r.events| == 3
      && r.events[1] == JobUpdate(job.buildId, ImageError, None)
      && r.events[2] == AssemblyStatus(job.assemblyId.value, Error)
  {
  }

  /** The last two events of a build script's run report the outcome on
      the job and then on the assembly. */
  lemma ScriptRunEnds(job: Job, cmd: seq<Arg>, out: string)
    requires job.assemblyId.Some?
    ensures var r := RunBuildScript(job, cmd, Output(out));
      var parsed := ParseCreatedImageId(out, job.storage, job.name);
      var id := job.assemblyId.value;
      && |r.events| == 3
      && (r.image.Some? <==> parsed.Some? && parsed.value != "")
      && (r.image.Some? ==>
            && r.image == parsed
            && r.events[1] == JobUpdate(job.buildId, ImageReady, r.image)
            && r.events[2] == AssemblyStatus(id, Built))
      && (r.image.None? ==>
            && r.events[1] == JobUpdate(job.buildId, ImageError, None)
            && r.events[2] == AssemblyStatus(id, Error))
  {
  }

  /** With Swift storage any `created_image_id` line yields an image: the
      appended application name makes the id non-empty. */
  lemma SwiftBuildYieldsImage(job: Job, world: BuildWorld, out: string)
    requires world.env.EnvReady? && !Deleted(job.assemblyId, world.assemblyStatus)
    requires world.proc == Output(out) && job.storage == "swift"
    requires LastMatch(Lines(out), CreatedMarker).Some?
    ensures DoBuild(job, world).image.Some?
  {
    var line := Lines(out)[LastMatch(Lines(out), CreatedMarker).value];
    var id := CreatedIdOf(line, job.storage, job.name);
    assert |id| >= |HeatTemplates.AppNameMarker|;
  }

  /** `build_lp`: a ValueError from `Popen` ends the handler with the image
      still BUILDING. Otherwise the language pack ends READY exactly when
      some output line mentions `image_external_ref` (even if the reference
      read from it is empty), with the reference of the first such line;
      without one, or after an OSError, ERROR without a reference. */
  lemma LanguagePackOutcome(job: LpJob, proc: ProcOutcome)
    ensures var r := BuildLp(job, EnvReady, proc);
      && |r.events| >= 2
      && r.events[0] == LpStatus(job.imageId, ImageBuilding, None)
      && r.events[1].Exec?
      && (r.crashed <==> proc.ProcValueError?)
      && (proc.ProcValueError? ==> |r.events| == 2)
      && (!proc.ProcValueError? ==>
            && |r.events| == 3
            && var last := r.events[2];
            && last.LpStatus? && last.image == job.imageId
            && (last.state == ImageReady <==> proc.Output? && FirstMatch(Lines(proc.out), RefMarker).Some?)
            && (last.state == ImageReady ==>
                  last.externalRef == Some(RefOf(Lines(proc.out)[FirstMatch(Lines(proc.out), RefMarker).value],
                                                 job.storage)))
            && (last.state == ImageError ==> last.externalRef.None?))
  {
  }

  /** A failing unit-test run ends the workflow: nothing is built or
      deployed. */
  lemma FailedTestsStopWorkflow(job: Job, workflow: seq<string>, testCmd: Option<string>, ports: seq<nat>,
                                unitWorld: UnitWorld, buildWorld: BuildWorld)
    requires "unittest" in workflow
    requires DoUnittest(job, testCmd, unitWorld).code != 0
    ensures var r := LaunchWorkflow(job, workflow, testCmd, ports, unitWorld, buildWorld);
      && r.events == DoUnittest(job, testCmd, unitWorld).events
      && NoDeployRequest(r.events)
      && forall k :: 0 <= k < |r.events| ==> !r.events[k].JobUpdate?
  {
    var unit := DoUnittest(job, testCmd, unitWorld);
    assert LaunchWorkflow(job, workflow, testCmd, ports, unitWorld, buildWorld).events == unit.events;
  }

  /** A deploy is requested exactly when 'deploy' and 'build' are in the
      workflow, the unit tests (when requested) returned 0, and the build
      returned an image; it is then the last step and carries that image. */
  lemma DeployNeedsImage(job: Job, workflow: seq<string>, testCmd: Option<string>, ports: seq<nat>,
                         unitWorld: UnitWorld, buildWorld: BuildWorld)
    ensures var r := LaunchWorkflow(job, workflow, testCmd, ports, unitWorld, buildWorld);
      var unit := DoUnittest(job, testCmd, unitWorld);
      var build := DoBuild(job, buildWorld);
      var testsPass := "unittest" !in workflow || (!unit.crashed && unit.code == 0);
      var deploys := "deploy" in workflow && "build" in workflow && testsPass
                     && !build.crashed && build.image.Some?;
      && (!NoDeployRequest(r.events) <==> deploys)
      && (deploys ==> r.events[|r.events| - 1] == DeployRequest(job.assemblyId, build.image.value, ports))
  {
    var r := LaunchWorkflow(job, workflow, testCmd, ports, unitWorld, buildWorld);
    var unit := if "unittest" in workflow then DoUnittest(job, testCmd, unitWorld) else UnitRun([], 0, false);
    if unit.crashed || ("unittest" in workflow && unit.code != 0) {
      assert r.events == unit.events;
    } else if "build" !in workflow {
      assert r.events == unit.events + [];
    } else {
      WorkflowAfterBuild(job, workflow, testCmd, ports, unitWorld, buildWorld, unit);
    }
  }

  /** Once the unit tests let the workflow go on and 'build' is requested,
      a deploy follows the build exactly when 'deploy' is requested and the
      build returned an image. */
  lemma WorkflowAfterBuild(job: Job, workflow: seq<string>, testCmd: Option<string>, ports: seq<nat>,
                           unitWorld: UnitWorld, buildWorld: BuildWorld, unit: UnitRun)
    requires unit == if "unittest" in workflow then DoUnittest(job, testCmd, unitWorld) else UnitRun([], 0, false)
    requires !unit.crashed && ("unittest" in workflow ==> unit.code == 0)
    requires "build" in workflow
    ensures var r := LaunchWorkflow(job, workflow, testCmd, ports, unitWorld, buildWorld);
      var build := DoBuild(job, buildWorld);
      var deploys := "deploy" in workflow && !build.crashed && build.image.Some?;
      && (!NoDeployRequest(r.events) <==> deploys)
      && (deploys ==> r.events[|r.events| - 1] == DeployRequest(job.assemblyId, build.image.value, ports))
  {
    var r := LaunchWorkflow(job, workflow, testCmd, ports, unitWorld, buildWorld);
    var build := DoBuild(job, buildWorld);
    var both := unit.events + build.events;
    NoDeployAppend(unit.events, build.events);
    if build.crashed || "deploy" !in workflow || build.image.None? {
      assert r.events == both;
    } else {
      assert r.events == both + [DeployRequest(job.assemblyId, build.image.value, ports)];
      assert r.events[|r.events| - 1].DeployRequest?;
    }
  }
}

=== FILE: states.dfy ===
/** The lifecycle states an assembly and an image (build job or language
    pack) can be reported in. */
module States {

  /** Assembly states, in the order the workflow normally visits them, then
      the error states, then the deletion marker. */
  datatype AssemblyState =
    | Queued
    | UnitTesting
    | UnitTestingFailed
    | UnitTestingPassed
    | Building
    | Built
    | Deploying
    | WaitingForDockerDu
    | Ready
    | Error
    | ErrorStackCreateFailed
    | ErrorStackDeleteFailed
    | ErrorDuCreation
    | Deleting

  /** States after which the deployer reports nothing more for a deploy call. */
  predicate DeployFinal(s: AssemblyState)
  {
    s in {Ready, Error, ErrorStackCreateFailed, ErrorDuCreation}
  }

  /** Image (build job and language pack) states. */
  datatype ImageState = ImageBuilding | ImageReady | ImageError
}

=== FILE: strings.dfy ===
/** The few Python string operations the handlers rely on, as functions on
    `seq<char>`: substring search, `split`, `join`, `replace`, `strip` and
    the decimal rendering of a natural number. */
module Strings {

  /** `pat` occurs in `s` starting at index `i`. */
  predicate OccursAt(s: string, pat: string, i: nat)
  {
    i + |pat| <= |s| && s[i..i + |pat|] == pat
  }

  /** Python's `pat in s`. */
  predicate Contains(s: string, pat: string)
  {
    exists i :: 0 <= i <= |s| && OccursAt(s, pat, i)
  }

  /** Python's `s.startswith(prefix)`. */
  predicate StartsWith(s: string, prefix: string)
  {
    |prefix| <= |s| && s[..|prefix|] == prefix
  }

  /** Python's `s.split(sep)` for a non-empty separator: the pieces between
      the leftmost non-overlapping occurrences of `sep`, scanning left to right. */
  function Split(s: string, sep: string): (parts: seq<string>)
    requires |sep| > 0
    ensures |parts| >= 1
    ensures StartsWith(s, parts[0])
    decreases |s|
  {
    if StartsWith(s, sep) then [""] + Split(s[|sep|..], sep)
    else if |s| == 0 then [""]
    else
      var rest := Split(s[1..], sep);
      [[s[0]] + rest[0]] + rest[1..]
  }

  /** Python's `sep.join(parts)`. */
  function Join(parts: seq<string>, sep: string): string
  {
    if |parts| == 0 then ""
    else if |parts| == 1 then parts[0]
    else parts[0] + sep + Join(parts[1..], sep)
  }

  /** Python's `s.replace(pat, rep)` for a non-empty `pat`: every leftmost
      non-overlapping occurrence of `pat` is replaced by `rep`. */
  function Replace(s: string, pat: string, rep: string): string
    requires |pat| > 0
  {
    Join(Split(s, pat), rep)
  }

  /** The characters Python's argument-less `strip()` removes from a byte string. */
  const Whitespace: set<char> := {' ', '\t', '\n', '\r', '\U{B}', '\U{C}'}

  /** Drops the leading characters that belong to `cs`. */
  function TrimLeft(s: string, cs: set<char>): (r: string)
    ensures |r| <= |s| && r == s[|s| - |r|..]
    ensures |r| > 0 ==> r[0] !in cs
    ensures forall i :: 0 <= i < |s| - |r| ==> s[i] in cs
    decreases |s|
  {
    if |s| > 0 && s[0] in cs then TrimLeft(s[1..], cs) else s
  }

  /** Drops the trailing characters that belong to `cs`. */
  function TrimRight(s: string, cs: set<char>): (r: string)
    ensures |r| <= |s| && r == s[..|r|]
    ensures |r| > 0 ==> r[|r| - 1] !in cs
    ensures forall i :: |r| <= i < |s| ==> s[i] in cs
    decreases |s|
  {
    if |s| > 0 && s[|s| - 1] in cs then TrimRight(s[..|s| - 1], cs) else s
  }

  /** Python's `s.strip(chars)`. */
  function StripChars(s: string, cs: set<char>): string
  {
    TrimRight(TrimLeft(s, cs), cs)
  }

  /** Python's `s.strip()`. */
  function Strip(s: string): string
  {
    StripChars(s, Whitespace)
  }

  /** Python's `str(n)` for a natural number. */
  function NatToString(n: nat): (r: string)
    ensures |r| > 0
    ensures forall i :: 0 <= i < |r| ==> '0' <= r[i] <= '9'
  {
    if n < 10 then [DigitChar(n)] else NatToString(n / 10) + [DigitChar(n % 10)]
  }

  function DigitChar(d: nat): (c: char)
    requires d < 10
    ensures '0' <= c <= '9'
  {
    ('0' as int + d) as char
  }

  predicate AllDigits(s: string)
  {
    forall i :: 0 <= i < |s| ==> '0' <= s[i] <= '9'
  }

  /** The number a string of decimal digits denotes. */
  function DecimalValue(s: string): nat
    requires AllDigits(s)
  {
    if |s| == 0 then 0
    else 10 * DecimalValue(s[..|s| - 1]) + (s[|s| - 1] as int - '0' as int)
  }

  // ---------------------------------------------------------------------
  // Lemmas

  lemma OccursShift(s: string, pat: string, i: nat)
    requires |s| > 0
    ensures OccursAt(s[1..], pat, i) <==> OccursAt(s, pat, i + 1)
  {
    if i + |pat| <= |s| - 1 {
      assert s[1..][i..i + |pat|] == s[i + 1..i + 1 + |pat|];
    }
  }

  lemma ContainsTail(s: string, pat: string)
    requires |s| > 0 && !Contains(s, pat)
    ensures !Contains(s[1..], pat)
  {
    forall i | 0 <= i <= |s[1..]|
      ensures !OccursAt(s[1..], pat, i)
    {
      OccursShift(s, pat, i);
      assert !OccursAt(s, pat, i + 1);
    }
  }

  lemma JoinConsHead(c: char, p: string, ps: seq<string>, sep: string)
    ensures Join([[c] + p] + ps, sep) == [c] + Join([p] + ps, sep)
  {
    if |ps| > 0 {
      assert ([[c] + p] + ps)[1..] == ps;
      assert ([p] + ps)[1..] == ps;
    }
  }

  /** Splitting and re-joining with the same separator gives the string back. */
  lemma {:induction false} JoinSplit(s: string, sep: string)
    requires |sep| > 0
    ensures Join(Split(s, sep), sep) == s
    decreases |s|
  {
    if StartsWith(s, sep) {
      var rest := Split(s[|sep|..], sep);
      JoinSplit(s[|sep|..], sep);
      assert ([""] + rest)[1..] == rest;
      assert s == sep + s[|sep|..];
    } else if |s| > 0 {
      var rest := Split(s[1..], sep);
      JoinSplit(s[1..], sep);
      JoinConsHead(s[0], rest[0], rest[1..], sep);
      assert [rest[0]] + rest[1..] == rest;
      assert s == [s[0]] + s[1..];
    }
  }

  /** A string without the separator splits into itself alone. */
  lemma {:induction false} SplitWithout(s: string, sep: string)
    requires |sep| > 0 && !Contains(s, sep)
    ensures Split(s, sep) == [s]
    decreases |s|
  {
    assert !OccursAt(s, sep, 0);
    if |s| > 0 {
      ContainsTail(s, sep);
      SplitWithout(s[1..], sep);
      assert [s[0]] + s[1..] == s;
    }
  }

  /** No piece of a split contains the separator. */
  lemma {:induction false} SplitPiecesFree(s: string, sep: string)
    requires |sep| > 0
    ensures forall k :: 0 <= k < |Split(s, sep)| ==> !Contains(Split(s, sep)[k], sep)
    decreases |s|
  {
    var parts := Split(s, sep);
    if StartsWith(s, sep) {
      SplitPiecesFree(s[|sep|..], sep);
      EmptyLacks(sep);
      assert forall k :: 1 <= k < |parts| ==> parts[k] == Split(s[|sep|..], sep)[k - 1];
    } else if |s| > 0 {
      var rest := Split(s[1..], sep);
      SplitPiecesFree(s[1..], sep);
      assert !Contains(rest[0], sep);
      ConsLacks(s, rest[0], sep);
      assert forall k :: 1 <= k < |parts| ==> parts[k] == rest[k];
    } else {
      EmptyLacks(sep);
    }
  }

  lemma EmptyLacks(sep: string)
    requires |sep| > 0
    ensures !Contains("", sep)
  {
  }

  /** A one-character extension `[s[0]] + p` of a separator-free prefix `p`
      of `s[1..]` stays separator-free when `s` does not start with the separator. */
  lemma ConsLacks(s: string, p: string, sep: string)
    requires |s| > 0 && |sep| > 0
    requires !StartsWith(s, sep)
    requires StartsWith(s[1..], p)
    requires !Contains(p, sep)
    ensures !Contains([s[0]] + p, sep)
  {
    var q := [s[0]] + p;
    assert q == s[..|q|];
    forall i | 0 <= i <= |q|
      ensures !OccursAt(q, sep, i)
    {
      if i == 0 {
        if |sep| <= |q| {
          assert q[..|sep|] == s[..|sep|];
        }
      } else {
        OccursShift(q, sep, i - 1);
        assert q[1..] == p;
        assert !OccursAt(p, sep, i - 1);
      }
    }
  }

  /** If `sep` does not occur in `a + sep + b` before index `|a|`, the split
      yields `a` and then the split of `b`. */
  lemma {:induction false} SplitAfter(a: string, sep: string, b: string)
    requires |sep| > 0
    requires forall i :: 0 <= i < |a| ==> !OccursAt(a + sep + b, sep, i)
    ensures Split(a + sep + b, sep) == [a] + Split(b, sep)
    decreases |a|
  {
    var t := a + sep + b;
    if |a| == 0 {
      assert t == sep + b;
      assert t[..|sep|] == sep;
      assert t[|sep|..] == b;
    } else {
      assert !OccursAt(t, sep, 0);
      assert t[1..] == a[1..] + sep + b;
      forall i | 0 <= i < |a[1..]|
        ensures !OccursAt(a[1..] + sep + b, sep, i)
      {
        OccursShift(t, sep, i);
      }
      SplitAfter(a[1..], sep, b);
      assert [a[0]] + a[1..] == a;
    }
  }

  /** When the last character of `sep` occurs nowhere else in `sep`, no
      occurrence in `a + sep + b` can start inside a separator-free `a`. */
  lemma NoStraddle(a: string, sep: string, b: string)
    requires |sep| > 0
    requires forall k :: 0 <= k < |sep| - 1 ==> sep[k] != sep[|sep| - 1]
    requires !Contains(a, sep)
    ensures forall i :: 0 <= i < |a| ==> !OccursAt(a + sep + b, sep, i)
  {
    var t := a + sep + b;
    forall i | 0 <= i < |a|
      ensures !OccursAt(t, sep, i)
    {
      if i + |sep| <= |a| {
        assert t[i..i + |sep|] == a[i..i + |sep|];
        assert !OccursAt(a, sep, i);
      } else {
        var j := i + |sep| - 1;
        assert t[j] == sep[j - |a|];
        assert sep[j - |a|] != sep[|sep| - 1];
        if i + |sep| <= |t| {
          assert t[i..i + |sep|][|sep| - 1] == t[j];
        }
      }
    }
  }

  /** Replacing a single character works character by character. */
  lemma ReplaceCharStep(s: string, c: char, rep: string)
    requires |s| > 0
    ensures Replace(s, [c], rep) == (if s[0] == c then rep else [s[0]]) + Replace(s[1..], [c], rep)
  {
    var rest := Split(s[1..], [c]);
    if s[0] == c {
      assert StartsWith(s, [c]);
      assert s[1..] == s[|[c]|..];
      assert ([""] + rest)[1..] == rest;
    } else {
      assert !StartsWith(s, [c]);
      JoinConsHead(s[0], rest[0], rest[1..], rep);
      assert [rest[0]] + rest[1..] == rest;
    }
  }

  lemma ReplaceEmpty(pat: string, rep: string)
    requires |pat| > 0
    ensures Replace("", pat, rep) == ""
  {
  }

  lemma {:induction false} TrimLeftExact(pre: string, rest: string, cs: set<char>)
    requires forall i :: 0 <= i < |pre| ==> pre[i] in cs
    requires |rest| > 0 ==> rest[0] !in cs
    ensures TrimLeft(pre + rest, cs) == rest
    decreases |pre|
  {
    if |pre| > 0 {
      assert (pre + rest)[1..] == pre[1..] + rest;
      TrimLeftExact(pre[1..], rest, cs);
    } else {
      assert pre + rest == rest;
    }
  }

  lemma {:induction false} TrimRightExact(rest: string, post: string, cs: set<char>)
    requires forall i :: 0 <= i < |post| ==> post[i] in cs
    requires |rest| > 0 ==> rest[|rest| - 1] !in cs
    ensures TrimRight(rest + post, cs) == rest
    decreases |post|
  {
    if |post| > 0 {
      assert (rest + post)[..|rest + post| - 1] == rest + post[..|post| - 1];
      TrimRightExact(rest, post[..|post| - 1], cs);
    } else {
      assert rest + post == rest;
    }
  }

  /** `strip` removes exactly the surrounding run of `cs` characters: when
      `x` neither starts nor ends with one of them, `strip(pre + x + post)` is `x`. */
  lemma StripSurrounded(pre: string, x: string, post: string, cs: set<char>)
    requires forall i :: 0 <= i < |pre| ==> pre[i] in cs
    requires forall i :: 0 <= i < |post| ==> post[i] in cs
    requires |x| > 0 ==> x[0] !in cs && x[|x| - 1] !in cs
    ensures StripChars(pre + x + post, cs) == x
  {
    if |x| > 0 {
      assert pre + x + post == pre + (x + post);
      TrimLeftExact(pre, x + post, cs);
      TrimRightExact(x, post, cs);
    } else {
      assert pre + x + post == (pre + post) + "";
      TrimLeftExact(pre + post, "", cs);
    }
  }

  /** Appending a piece: `sep.join(xs + [y]) == sep.join(xs) + sep + y` for non-empty `xs`. */
  lemma {:induction false} JoinSnoc(xs: seq<string>, y: string, sep: string)
    requires |xs| > 0
    ensures Join(xs + [y], sep) == Join(xs, sep) + sep + y
    decreases |xs|
  {
    if |xs| > 1 {
      assert (xs + [y])[1..] == xs[1..] + [y];
      JoinSnoc(xs[1..], y, sep);
    } else {
      assert (xs + [y])[1..] == [y];
    }
  }

  /** The joined string starts with the first piece and ends with the last. */
  lemma PrefixOfConcat(a: string, b: string)
    ensures StartsWith(a + b, a)
  {
    assert (a + b)[..|a|] == a;
  }

  lemma {:induction false} JoinEnds(parts: seq<string>, sep: string)
    requires |parts| > 0
    ensures StartsWith(Join(parts, sep), parts[0])
    ensures |Join(parts, sep)| >= |parts[|parts| - 1]|
    ensures Join(parts, sep)[|Join(parts, sep)| - |parts[|parts| - 1]|..] == parts[|parts| - 1]
    decreases |parts|
  {
    if |parts| > 1 {
      JoinEnds(parts[1..], sep);
      var j := Join(parts, sep);
      assert j == parts[0] + sep + Join(parts[1..], sep);
      assert j[..|parts[0]|] == parts[0];
    }
  }

  /** A string splits into more than one piece exactly when it contains the separator. */
  lemma SplitCountContains(s: string, sep: string)
    requires |sep| > 0
    ensures |Split(s, sep)| >= 2 <==> Contains(s, sep)
  {
    if !Contains(s, sep) {
      SplitWithout(s, sep);
    } else {
      JoinSplit(s, sep);
      SplitPiecesFree(s, sep);
    }
  }

  /** Reading back the decimal rendering gives the number. */
  lemma {:induction false} DecimalRoundTrip(n: nat)
    ensures DecimalValue(NatToString(n)) == n
  {
    var s := NatToString(n);
    if n >= 10 {
      DecimalRoundTrip(n / 10);
      assert s[..|s| - 1] == NatToString(n / 10);
    }
  }
}
